=== FILE: README.md ===
# libnatpunch, modelled in Dafny

libnatpunch is a small NAT hole-punching library. Peers talk over UDP in
binary frames (`BinaryPacketEncoder`), each carrying one `PacketData`. An
*introducer* node keeps a registry of peers (`EndPointHandler` of
`EndPoint`s). A peer *registers* with it, asks it to *punch* a path to another
registered peer (the introducer then *greets* the target and answers the
requester), and the two peers then say *hello* to each other directly.

Reliability is layered on top by `BasePacketReceiver`:
- every *guaranteed* packet is acknowledged, then deduplicated against an
  acknowledged pool;
- guaranteed packets sent are kept in a sent pool (`PacketHandler`) until
  acknowledged, retried by a periodic `update`, and evicted by age.

`NatPunch` owns the node's identity and introducer and runs the worker loop:
- it routes each received datagram to its endpoint;
- it drains frames from that endpoint's buffer into the receiver;
- it calls `update`, and pings keepalive peers every 30 s.

The test client's `TestPacketReceiver` streams camera frames as MULTIPART
packets split into 1000-byte parts and reassembles them. Two small leftovers
are also modelled: the legacy text `Packet` and `MD5.hex`.

The model is single-threaded and takes time and received datagrams as
inputs. The UDP socket becomes a `NetworkLayer` with an outbox of datagrams
sent and an inbox of datagrams waiting. Java exceptions are values:
`Result<T> = Ok(value) | Throw(fault)`, where the fault names the exception
class. Java `null` is `Option` for values and `C?` for objects.

Bytes are integers 0..255 (`Byte`), a `byte[]` is `seq<Byte>`, and an `int`
is its 32-bit pattern (`Bits32`). Casts, wrap-around and sign extension are
written out (`ByteBits`, `Signed8`, `Short`, `Long`, `Add32`, `SignExtend`).

Files and modules:

- `outcomes.dfy` (`Outcomes`): `Option`, `Result` and the exception kinds.
- `byte_order.dfy` (`ByteOrder`): Java integer views, big-endian reads and
  writes, and bitwise `&` and `|`.
- `addressing.dfy` (`Addressing`): addresses as raw bytes, `getByAddress`,
  socket addresses and identities.
- `byte_buffer.dfy` (`Buffers`): the part of `java.nio.ByteBuffer` used on an
  endpoint's receive buffer.
- `lists.dfy` (`Lists`): `ArrayList.remove(Object)` and `removeAll`.
- `endpoints.dfy` (`Endpoints`): `EndPoint` and `EndPointHandler`.
- `packets.dfy` (`Packets`): the constants of `PacketEncoder`, `PacketData`
  and its factories, and `sortParts`.
- `tracking.dfy` (`Tracking`): `PacketHandler` and `HandledPacket`.
- `codec.dfy` (`Codec`): `BinaryPacketEncoder`.
- `transport.dfy` (`Transport`): the network layer as two queues.
- `delivery.dfy` (`Delivery`): what one `sendPacket` queues and records, the
  wire layout of each reply, and the readers of each command's arguments.
- `node.dfy` (`Node`): `BasePacketReceiver` and `NatPunch`.
- `image_transfer.dfy` (`ImageTransfer`): `TestPacketReceiver`.
- `legacy_packet.dfy` (`LegacyPacket`): the text `Packet`.
- `md5_hex.dfy` (`Md5Hex`): `MD5.hex`.

Behaviour kept as the code has it:

- REREGISTER sends a REGISTER even when the node has no id. The `if` there
  guards only a log line.
- RESPONSE(PUNCH) checks for six arguments but reads the local port from
  argument 6. A reply with exactly six arguments therefore throws
  (`Delivery.PunchSixArguments`). A reply of seven, as the introducer sends
  it, reads back exactly (`Delivery.PunchFoundReadsBack`).
- `hasPacket` takes a frame only when the buffer holds exactly one frame. Two
  frames buffered back to back are never taken (`Codec.TwoFramesNotFramed`).
  Since a frame taken leaves the buffer empty, the drain loop handles at most
  one packet per datagram.
- `isPart` ignores the flags.
- Pool entries start with `timeLastSent` 0. They are due at once and subject
  to age eviction.
- Endpoint and pool removal is by object identity.
- `partCount` and `partIndex` are Java bytes. A frame of 128 parts or more is
  announced with a wrapped count (`ImageTransfer.ImageHeaders` requires fewer
  than 128 parts).
- The reassembled image buffer is built and then dropped by the source. The
  model returns it as `assembled` so its contents can be stated.

## Model

| member | source | states |
|---|---|---|
| ByteOrder.Signed8 | src/net/ferretize/libnatpunch/PacketData.java:23-31 | the value Java sees in a byte is in -128..127, non-negative exactly below 0x80, and congruent to the bit pattern mod 256 |
| ByteOrder.ByteBits | src/net/ferretize/libnatpunch/PacketData.java:33-41 | the `(byte)` cast keeps a value in byte range and is undone by `Signed8` |
| ByteOrder.Short | src/net/ferretize/libnatpunch/BinaryPacketEncoder.java:45-69 | the `(short)` cast lands in -32768..32767, keeps values already in range, and is congruent mod 2^16 |
| ByteOrder.Long | src/net/ferretize/libnatpunch/Packet.java:70-72 | a `long` difference equals the exact one when in range, and is congruent mod 2^64 otherwise |
| ByteOrder.SignExtend | src/net/ferretize/libnatpunch/PacketData.java:94-101 | widening a byte to an int keeps the low byte and fills the upper bytes with the sign |
| ByteOrder.Add32 | src/net/ferretize/libnatpunch/BasePacketReceiver.java:32-34 | `int` addition wraps: the result is congruent to the exact sum mod 2^32 |
| ByteOrder.Add32Add | src/net/ferretize/libnatpunch/BasePacketReceiver.java:32-34 | two wrapping increments in a row are one increment by their sum |
| ByteOrder.Load16BE16 | src/net/ferretize/libnatpunch/BinaryPacketEncoder.java:73-74 | `getShort` reads back what `putShort` wrote, whatever follows |
| ByteOrder.Load32BE32 | src/net/ferretize/libnatpunch/BinaryPacketEncoder.java:75-77 | `getInt` reads back what `putInt` wrote, whatever follows |
| ByteOrder.BE32Load32 | src/net/ferretize/libnatpunch/BinaryPacketEncoder.java:103-121 | four bytes read as an int and written back are the same four bytes |
| ByteOrder.And | src/net/ferretize/libnatpunch/BinaryPacketEncoder.java:17-19 | `a & b` is no larger than either operand |
| ByteOrder.Or | src/net/ferretize/libnatpunch/PacketData.java:113-122 | `a \| b` is no smaller than either operand |
| ByteOrder.AndBits | src/net/ferretize/libnatpunch/BinaryPacketEncoder.java:17-19 | `(a & b) == b` holds exactly when every bit of b is set in a |
| ByteOrder.OrBits | src/net/ferretize/libnatpunch/PacketData.java:113-122 | the bits of `a \| b` are exactly those of a and those of b |
| ByteOrder.OrBelow | src/net/ferretize/libnatpunch/PacketData.java:113-122 | `a \| b` of two bytes is a byte |
| Addressing.ByAddress | src/net/ferretize/libnatpunch/BasePacketReceiver.java:174-180 | `getByAddress` with its `catch` gives an address exactly for 4 or 16 bytes, and it holds those bytes |
| Buffers.ByteBuffer.Allocate | src/net/ferretize/libnatpunch/EndPoint.java:57 | `allocate(n)`: n zero bytes, position 0 |
| Buffers.ByteBuffer.Put | src/net/ferretize/libnatpunch/NatPunch.java:165 | a put that fits appends the bytes to the buffered ones; one that does not fit throws and writes nothing |
| Buffers.ByteBuffer.Compact | src/net/ferretize/libnatpunch/BinaryPacketEncoder.java:167 | `compact()` moves the bytes between position and limit to the front, and the position becomes their count |
| Buffers.ByteBuffer.SetPosition | src/net/ferretize/libnatpunch/BinaryPacketEncoder.java:162-168 | `position(p)` sets the position |
| Lists.RemoveFirst | src/net/ferretize/libnatpunch/EndPointHandler.java:94-96 | `remove(x)` leaves a list without x unchanged and drops exactly one element otherwise |
| Lists.RemoveFirstMultiset | src/net/ferretize/libnatpunch/EndPointHandler.java:94-96 | exactly one occurrence of x goes and nothing else |
| Lists.RemoveFirstMembers | src/net/ferretize/libnatpunch/EndPointHandler.java:94-96 | only x can go missing, and nothing is added |
| Lists.RemoveFirstAt | src/net/ferretize/libnatpunch/PacketHandler.java:94-104 | removing the first occurrence keeps the elements before and after it, in order |
| Lists.RemoveAll | src/net/ferretize/libnatpunch/EndPointHandler.java:98-100 | `removeAll(c)` keeps exactly the elements not in c, adding none |
| Lists.RemoveAllAppend | src/net/ferretize/libnatpunch/PacketHandler.java:127-140 | `removeAll` works piecewise, so survivors keep their order |
| Lists.DistinctWithout | src/net/ferretize/libnatpunch/PacketHandler.java:94-104 | deleting a position keeps a list free of duplicates |
| Lists.DistinctSnoc | src/net/ferretize/libnatpunch/PacketHandler.java:116-121 | appending an element not in the list keeps it free of duplicates |
| Endpoints.EndPoint.constructor | src/net/ferretize/libnatpunch/EndPoint.java:49-60 | a new endpoint has null id and addresses, zero ports and receive time, no keepalive, an empty 10000-byte buffer and 20 null attribute slots |
| Endpoints.EndPoint.SetAttribute | src/net/ferretize/libnatpunch/EndPoint.java:62-66 | an index outside the slots throws and changes nothing; otherwise exactly that slot is written |
| Endpoints.EndPoint.GetAttribute | src/net/ferretize/libnatpunch/EndPoint.java:68-76 | an index outside the slots throws; otherwise the slot's value, or the default for a null slot |
| Endpoints.EndPoint.Pairs | src/net/ferretize/libnatpunch/EndPoint.java:88-91 | the pairs an endpoint answers to are at most its external and its local pair |
| Endpoints.EndPoint.IsId | src/net/ferretize/libnatpunch/EndPoint.java:84-86 | `is(id)` holds exactly when this id is non-null and byte-equal to the argument |
| Endpoints.EndPoint.IsAddress | src/net/ferretize/libnatpunch/EndPoint.java:88-91 | `is(address, port)` holds exactly when the address is non-null and the pair is the external or the local pair |
| Endpoints.EndPoint.IsLocal | src/net/ferretize/libnatpunch/EndPoint.java:78-82 | false when the local address is null or loopback; otherwise true exactly when the given address is the external address |
| Endpoints.EndPoint.IsSocketAddress | src/net/ferretize/libnatpunch/EndPoint.java:93-95 | a source matches exactly when its pair is one of the endpoint's pairs |
| Endpoints.EndPoint.IsEndPoint | src/net/ferretize/libnatpunch/EndPoint.java:97-99 | `is(other)` holds exactly when the ids match or the two endpoints share a pair |
| Endpoints.SharedPairMatches | src/net/ferretize/libnatpunch/EndPoint.java:97-99 | a shared pair is one of the other endpoint's two pairs, which `is(other)` tests |
| Endpoints.IsEndPointSymmetric | src/net/ferretize/libnatpunch/EndPoint.java:97-99 | `a.is(b)` holds exactly when `b.is(a)` does |
| Endpoints.IndexById | src/net/ferretize/libnatpunch/EndPointHandler.java:62-69 | the linear search by id stops at the first match, and no earlier endpoint matches |
| Endpoints.IndexByAddress | src/net/ferretize/libnatpunch/EndPointHandler.java:82-88 | the linear search by pair stops at the first match, and no earlier endpoint matches |
| Endpoints.ById | src/net/ferretize/libnatpunch/EndPointHandler.java:62-69 | nothing for a null or empty id; a found endpoint is registered and has the id; with none found, no endpoint has it |
| Endpoints.EndPointHandler.constructor | src/net/ferretize/libnatpunch/EndPointHandler.java:54-56 | an empty registry without an introducer |
| Endpoints.EndPointHandler.FindById | src/net/ferretize/libnatpunch/EndPointHandler.java:62-69 | `findEndPoint(id)` returns the first endpoint with the id, and null for a null or empty id |
| Endpoints.EndPointHandler.FindByAddress | src/net/ferretize/libnatpunch/EndPointHandler.java:82-88 | `findEndPoint(address, port)` returns the first endpoint answering to the pair, or null |
| Endpoints.EndPointHandler.FindBySource | src/net/ferretize/libnatpunch/EndPointHandler.java:71-80 | null for a null source; otherwise the first endpoint answering to the source's pair, which matches it |
| Endpoints.EndPointHandler.AddEndPoint | src/net/ferretize/libnatpunch/EndPointHandler.java:90-92 | the endpoint is appended without a duplicate check, and the introducer is kept |
| Endpoints.EndPointHandler.RemoveEndPoint | src/net/ferretize/libnatpunch/EndPointHandler.java:94-96 | the first occurrence of that very object goes, and nothing else changes |
| Endpoints.EndPointHandler.RemoveEndPoints | src/net/ferretize/libnatpunch/EndPointHandler.java:98-100 | every occurrence of every given object goes |
| Endpoints.EndPointHandler.SetIntroducerEndPoint | src/net/ferretize/libnatpunch/EndPointHandler.java:40-49 | an endpoint already answering to the new one's external pair becomes introducer and the list is unchanged; otherwise the new endpoint is appended and becomes introducer |
| Endpoints.IndexByAddressAppended | src/net/ferretize/libnatpunch/EndPointHandler.java:40-49 | an endpoint appended to a list without the pair is found at the end |
| Endpoints.IndexByIdFirst | src/net/ferretize/libnatpunch/EndPointHandler.java:62-69 | an index with the id and none before it is the one the search returns |
| Endpoints.IndexByAddressFirst | src/net/ferretize/libnatpunch/EndPointHandler.java:82-88 | an index with the pair and none before it is the one the search returns |
| Endpoints.AppendExtends | src/net/ferretize/libnatpunch/EndPointHandler.java:90-92 | a registry that gained one new endpoint extends the old one |
| Endpoints.ShrinkExtends | src/net/ferretize/libnatpunch/EndPointHandler.java:94-100 | a registry that only lost endpoints extends the old one |
| Packets.FlagSetBits | src/net/ferretize/libnatpunch/PacketData.java:152-154 | `hasFlag(f)` holds exactly when every bit of f is set in the flags |
| Packets.PacketData.HasFlag | src/net/ferretize/libnatpunch/PacketData.java:152-154 | a set flag is no larger than the flags byte, and the empty flag is always set |
| Packets.WithFlag | src/net/ferretize/libnatpunch/PacketData.java:113-122 | `flag \| flags` has both the flag and all the old flags set |
| Packets.PacketData.ArgumentCount | src/net/ferretize/libnatpunch/PacketData.java:142-144 | 0 exactly for null or empty arguments, otherwise their number |
| Packets.PacketData.Argument | src/net/ferretize/libnatpunch/PacketData.java:146-150 | argument i below the count, null otherwise |
| Packets.Make | src/net/ferretize/libnatpunch/PacketData.java:33-41 | the int constructor keeps the low 8 bits of each byte field, and the parent id is 0 |
| Packets.MakeSimple | src/net/ferretize/libnatpunch/PacketData.java:43-51 | the short constructor sets flags, id, command and arguments, and zeroes the rest |
| Packets.ReRegister | src/net/ferretize/libnatpunch/PacketData.java:53-56 | a guaranteed REREGISTER with null arguments |
| Packets.IdentityArgs | src/net/ferretize/libnatpunch/PacketData.java:58-72 | an identity takes five arguments |
| Packets.Greet | src/net/ferretize/libnatpunch/PacketData.java:58-72 | a null endpoint is rejected with IllegalArgumentException; otherwise a guaranteed GREET carrying the identity's five arguments |
| Packets.Hello | src/net/ferretize/libnatpunch/PacketData.java:74-78 | `hello` fails exactly when `greet` does, and is otherwise the same packet with command HELLO |
| Packets.Response | src/net/ferretize/libnatpunch/PacketData.java:80-85 | RESPONSE with the caller's flags; the one-byte command comes first, then the given arguments (null as none) |
| Packets.Show | src/net/ferretize/libnatpunch/PacketData.java:87-92 | a guaranteed SHOW whose only argument is the sub-command |
| Packets.Acknowledge | src/net/ferretize/libnatpunch/PacketData.java:94-101 | flags 0, command ACKNOWLEDGE, exactly two four-byte big-endian arguments: the acknowledged id and the retry count |
| Packets.Register | src/net/ferretize/libnatpunch/PacketData.java:103-111 | a guaranteed REGISTER carrying [id, local address, local port as 4 bytes] |
| Packets.Multipart | src/net/ferretize/libnatpunch/PacketData.java:113-116 | MULTIPART is or-ed into the flags and partCount is set; retry count, part index and parent are 0 |
| Packets.Part | src/net/ferretize/libnatpunch/PacketData.java:118-122 | MULTIPART_PART is or-ed into the flags, and the parent id and index are set; command and partCount are 0 |
| Packets.FirstPartAt | src/net/ferretize/libnatpunch/PacketData.java:178-190 | a part is found exactly when some part has index i, and the one found is such a part |
| Packets.SortParts | src/net/ferretize/libnatpunch/PacketData.java:178-190 | an empty input and a negative count throw; otherwise it throws exactly at the first part whose index does not fit, and else slot i holds the first part with index i |
| Packets.FirstPartAtSnoc | src/net/ferretize/libnatpunch/PacketData.java:182-188 | a later part fills a slot only when no earlier part did |
| Tracking.HandledPacket.constructor | src/net/ferretize/libnatpunch/PacketHandler.java:33-43 | a new entry is unmarked, never sent (time 0) and never retried |
| Tracking.HandledPacket.Is | src/net/ferretize/libnatpunch/PacketHandler.java:45-47 | a matching entry is unmarked and has that message id |
| Tracking.HandledPacket.IsPart | src/net/ferretize/libnatpunch/PacketHandler.java:49-51 | a matching entry is unmarked and has that parent id; flags are not checked |
| Tracking.HandledPacket.ShouldRetry | src/net/ferretize/libnatpunch/PacketHandler.java:53-55 | a due entry is unmarked and was last sent more than 50 ms ago |
| Tracking.IndexOfPacket | src/net/ferretize/libnatpunch/PacketHandler.java:67-74 | the search stops at the first live match in insertion order, and no earlier entry matches |
| Tracking.IndexOfPacketFirst | src/net/ferretize/libnatpunch/PacketHandler.java:67-74 | an index that matches, with no match before it, is the one the search returns |
| Tracking.Placed | src/net/ferretize/libnatpunch/PacketHandler.java:76-92 | placing parts into n slots throws only IndexOutOfBounds, and keeps n slots |
| Tracking.PlaceParts | src/net/ferretize/libnatpunch/PacketHandler.java:83-88 | the placing loop computes `Placed` |
| Tracking.PlacedSnoc | src/net/ferretize/libnatpunch/PacketHandler.java:83-88 | one more entry leaves the slots alone when it is not a part, and otherwise writes its index and counts it |
| Tracking.CountParts | src/net/ferretize/libnatpunch/PacketHandler.java:76-92 | the count of matching parts is at most the pool's size |
| Tracking.PlacedParts | src/net/ferretize/libnatpunch/PacketHandler.java:76-92 | the placement's count is the number of matching parts |
| Tracking.Dropped | src/net/ferretize/libnatpunch/PacketHandler.java:127-158 | the `toRemove` list of a sweep is no longer than the pool |
| Tracking.Kept | src/net/ferretize/libnatpunch/PacketHandler.java:127-158 | the entries a sweep keeps are no more than the pool |
| Tracking.Resent | src/net/ferretize/libnatpunch/PacketHandler.java:142-158 | the entries returned for a retry are no more than the pool |
| Tracking.KeptDistinct | src/net/ferretize/libnatpunch/PacketHandler.java:127-158 | the entries a sweep keeps are distinct when the pool's are |
| Tracking.ResentDistinct | src/net/ferretize/libnatpunch/PacketHandler.java:142-158 | the entries returned for a retry are distinct when the pool's are |
| Tracking.DroppedSnoc | src/net/ferretize/libnatpunch/PacketHandler.java:129-136 | one more entry adds itself to `toRemove` exactly when the sweep deletes it |
| Tracking.ResentSnoc | src/net/ferretize/libnatpunch/PacketHandler.java:144-155 | one more entry is returned exactly when it is due and not deleted |
| Tracking.DroppedMembers | src/net/ferretize/libnatpunch/PacketHandler.java:127-140 | `toRemove` holds exactly the pool's entries the sweep deletes |
| Tracking.KeptMembers | src/net/ferretize/libnatpunch/PacketHandler.java:127-140 | a sweep keeps exactly the entries it does not delete |
| Tracking.ResentMembers | src/net/ferretize/libnatpunch/PacketHandler.java:142-158 | exactly the due entries that are not deleted are returned, and an entry not due is never deleted |
| Tracking.ResentWithin | src/net/ferretize/libnatpunch/PacketHandler.java:142-158 | every returned entry comes from the pool |
| Tracking.RemoveAllDropped | src/net/ferretize/libnatpunch/PacketHandler.java:137-139 | `removeAll(toRemove)` leaves exactly the kept entries, in order |
| Tracking.RemoveAllKept | src/net/ferretize/libnatpunch/PacketHandler.java:137-139 | removing the deleted entries, in any collection holding exactly those, leaves the kept ones in order |
| Tracking.PacketHandler.constructor | src/net/ferretize/libnatpunch/PacketHandler.java:63-65 | a new pool is empty |
| Tracking.PacketHandler.FindPacket | src/net/ferretize/libnatpunch/PacketHandler.java:67-74 | the first live entry for that message from a matching endpoint, or null |
| Tracking.PacketHandler.FindPacketParts | src/net/ferretize/libnatpunch/PacketHandler.java:76-92 | a missing parent throws; a misplaced index throws; otherwise the slots are returned exactly when the count of parts equals the parent's partCount, and null otherwise |
| Tracking.PacketHandler.RemovePacket | src/net/ferretize/libnatpunch/PacketHandler.java:94-104 | only the first matching entry is deleted; the rest keep their order |
| Tracking.PacketHandler.RemovePacketParts | src/net/ferretize/libnatpunch/PacketHandler.java:106-114 | the list is unchanged in length and order; every live part of that parent becomes marked and no other entry changes |
| Tracking.PacketHandler.AddPacket | src/net/ferretize/libnatpunch/PacketHandler.java:116-121 | exactly one entry is appended |
| Tracking.PacketHandler.MarkForRemoval | src/net/ferretize/libnatpunch/PacketHandler.java:123-125 | the entry is only marked; its other fields are unchanged |
| Tracking.PacketHandler.RemoveOldPackets | src/net/ferretize/libnatpunch/PacketHandler.java:127-140 | the pool becomes exactly the entries the eviction sweep keeps, in order |
| Tracking.PacketHandler.GetPacketsToResend | src/net/ferretize/libnatpunch/PacketHandler.java:142-158 | the result is the due entries that are not deleted, in list order, and the pool keeps exactly the entries the retry sweep keeps |
| Tracking.FirstMatchRemoved | src/net/ferretize/libnatpunch/PacketHandler.java:94-104 | removing the object found by the search removes the entry at the index where it was found |
| Tracking.PlacedThrows | src/net/ferretize/libnatpunch/PacketHandler.java:83-88 | a matching part whose index falls outside the slots makes `findPacketParts` throw |
| Tracking.PlacedThrowsFrom | src/net/ferretize/libnatpunch/PacketHandler.java:83-88 | once the placement throws, later entries do not undo it |
| Codec.HeaderSize | src/net/ferretize/libnatpunch/BinaryPacketEncoder.java:45-69 | the header takes 6 bytes plus the flag-selected fields, so 6..13 |
| Codec.Opt8 | src/net/ferretize/libnatpunch/BinaryPacketEncoder.java:79-86 | a one-byte field is written only when selected |
| Codec.Opt32 | src/net/ferretize/libnatpunch/BinaryPacketEncoder.java:79-86 | a four-byte field is written only when selected |
| Codec.Header | src/net/ferretize/libnatpunch/BinaryPacketEncoder.java:76-86 | the header written is exactly `HeaderSize` bytes long |
| Codec.Values | src/net/ferretize/libnatpunch/BinaryPacketEncoder.java:87-93 | the byte arrays of a non-null argument list, one per argument |
| Codec.Wrap | src/net/ferretize/libnatpunch/BinaryPacketEncoder.java:122-132 | byte arrays read as non-null arguments |
| Codec.ArgBytes | src/net/ferretize/libnatpunch/BinaryPacketEncoder.java:87-93 | the (length, bytes) pairs take exactly the space the sizing loop counts |
| Codec.BufferSize | src/net/ferretize/libnatpunch/BinaryPacketEncoder.java:45-69 | the size is the header size alone without arguments, and at least that with them |
| Codec.EncodeNull | src/net/ferretize/libnatpunch/BinaryPacketEncoder.java:45-69 | `encode` throws NullPointerException exactly when an argument array is null |
| Codec.Encode | src/net/ferretize/libnatpunch/BinaryPacketEncoder.java:43-94 | a frame that encodes has no null argument array and is the wrapped `bufferSize` plus two bytes long |
| Codec.EncodeShape | src/net/ferretize/libnatpunch/BinaryPacketEncoder.java:43-94 | a frame is the wrapped size plus 2 bytes long, starts with that size as a big-endian short, then the header |
| Codec.EncodeLayout | src/net/ferretize/libnatpunch/BinaryPacketEncoder.java:43-94 | for an encodable packet the frame is exactly length prefix, header, count byte and (length, bytes) pairs, bufferSize + 2 bytes in all |
| Codec.GetByteIf | src/net/ferretize/libnatpunch/BinaryPacketEncoder.java:105-121 | a selected byte read underflows on empty input; an unselected field reads 0 and consumes nothing |
| Codec.GetIntIf | src/net/ferretize/libnatpunch/BinaryPacketEncoder.java:105-121 | a selected int read underflows below 4 bytes; an unselected field reads 0 and consumes nothing |
| Codec.GetArgs | src/net/ferretize/libnatpunch/BinaryPacketEncoder.java:122-132 | the argument loop reads `count` arguments, none for a non-positive count, and fails only by underflow or a negative length |
| Codec.DecodeHeader | src/net/ferretize/libnatpunch/BinaryPacketEncoder.java:103-121 | the header reads fail only by underflow, and leave unselected fields 0 |
| Codec.DecodeBody | src/net/ferretize/libnatpunch/BinaryPacketEncoder.java:103-135 | arguments are null exactly when nothing follows the header; otherwise none of them is null |
| Codec.Decode | src/net/ferretize/libnatpunch/BinaryPacketEncoder.java:97-137 | fewer than 2 bytes underflow; a length prefix other than the byte count minus 2 throws IllegalArgumentException; a decoded packet has unselected fields 0 and null arguments exactly when no bytes follow the header |
| Codec.Canonical | src/net/ferretize/libnatpunch/BinaryPacketEncoder.java:105-135 | what a round trip keeps: flags, id, command, selected fields, and the arguments when non-empty (null otherwise) |
| Codec.GetByteIfOpt8 | src/net/ferretize/libnatpunch/BinaryPacketEncoder.java:79-121 | an optional byte field reads back what was written, or 0 when not selected, and the rest is untouched |
| Codec.GetIntIfOpt32 | src/net/ferretize/libnatpunch/BinaryPacketEncoder.java:79-121 | an optional int field reads back what was written, or 0 when not selected, and the rest is untouched |
| Codec.HeaderRoundTrip | src/net/ferretize/libnatpunch/BinaryPacketEncoder.java:76-121 | the header reads undo the header writes |
| Codec.GetArgsStep | src/net/ferretize/libnatpunch/BinaryPacketEncoder.java:124-131 | one turn of the argument loop reads back one (length, bytes) pair |
| Codec.ArgsRoundTrip | src/net/ferretize/libnatpunch/BinaryPacketEncoder.java:87-132 | the argument loop reads back every argument the writer wrote |
| Codec.DecodeEncode | src/net/ferretize/libnatpunch/BinaryPacketEncoder.java:43-137 | for a packet with fewer than 128 arguments whose frame fits a short, `decode(encode(p))` is `p` with unselected fields 0 and empty arguments null |
| Codec.DecodeRejectsExtended | src/net/ferretize/libnatpunch/BinaryPacketEncoder.java:99-101 | a frame with bytes appended is rejected with IllegalArgumentException |
| Codec.DecodeRejectsTruncated | src/net/ferretize/libnatpunch/BinaryPacketEncoder.java:99-101 | a frame cut short, but still holding its prefix, is rejected with IllegalArgumentException |
| Codec.HasPacket | src/net/ferretize/libnatpunch/BinaryPacketEncoder.java:151-172 | no frame: null and the buffer untouched; a frame that fails to decode: the exception, buffer untouched; otherwise the decoded packet, and the buffer is left empty |
| Codec.EncodedIsFramed | src/net/ferretize/libnatpunch/BinaryPacketEncoder.java:151-172 | one encoded packet alone in a buffer is a frame and decodes to the packet |
| Codec.TwoFramesNotFramed | src/net/ferretize/libnatpunch/BinaryPacketEncoder.java:156 | a frame followed by more bytes is never taken |
| Codec.UpperDigit | src/net/ferretize/libnatpunch/BinaryPacketEncoder.java:139 | a value 0..15 becomes an upper-case hex digit |
| Codec.UpperValue | src/net/ferretize/libnatpunch/BinaryPacketEncoder.java:139 | a digit's value is 0..15 |
| Codec.BytesToHex | src/net/ferretize/libnatpunch/BinaryPacketEncoder.java:140-148 | two upper-case hex characters per byte, high nibble first |
| Codec.UpperDigitValue | src/net/ferretize/libnatpunch/BinaryPacketEncoder.java:139 | a digit reads back as its value |
| Codec.HexToBytesBytesToHex | src/net/ferretize/libnatpunch/BinaryPacketEncoder.java:140-148 | the bytes can be read back from `bytesToHex`'s text |
| Transport.NetworkLayer.constructor | src/net/ferretize/libnatpunch/UDPNetworkLayer.java:22-27 | a layer with its local pair, nothing sent and the given datagrams waiting |
| Transport.NetworkLayer.Send | src/net/ferretize/libnatpunch/UDPNetworkLayer.java:59-67 | the datagram is queued in order and its length returned; the port and address checks of `DatagramPacket` and `socket.send` are left out (see below) |
| Transport.NetworkLayer.Receive | src/net/ferretize/libnatpunch/UDPNetworkLayer.java:70-79 | 0 with nothing waiting; otherwise the oldest datagram is taken, cut to the buffer length, with its source |
| Delivery.WrapGetInt | src/net/ferretize/libnatpunch/BasePacketReceiver.java:248 | `wrap(a).getInt()`: null throws NullPointerException, under 4 bytes underflows, else the first four bytes big-endian |
| Delivery.WrapGet | src/net/ferretize/libnatpunch/BasePacketReceiver.java:249 | `wrap(a).get()`: null throws NullPointerException, empty underflows, else the first byte |
| Delivery.WrapGetIntBE32 | src/net/ferretize/libnatpunch/BasePacketReceiver.java:150-157 | an int written with `putInt` reads back |
| Delivery.SendResult | src/net/ferretize/libnatpunch/BasePacketReceiver.java:406-423 | apart from the socket's own port and address checks, which are left out (see below), a send succeeds exactly when the endpoint is non-null and the packet encodes; an encodable packet to a null endpoint throws NullPointerException |
| Delivery.Emission | src/net/ferretize/libnatpunch/BasePacketReceiver.java:406-423 | a send queues one datagram when it succeeds and none otherwise; a routed pair the socket would refuse is queued (see below) |
| Delivery.Route | src/net/ferretize/libnatpunch/BasePacketReceiver.java:406-413 | the pair differs from the external pair only when it is the peer's non-loopback local pair and the peer's external address is our local address; a non-null address is always one the peer answers to |
| Delivery.EmissionDecodes | src/net/ferretize/libnatpunch/BasePacketReceiver.java:406-423 | what a send queues is one frame, which decodes to the packet sent |
| Delivery.Recorded | src/net/ferretize/libnatpunch/BasePacketReceiver.java:415-419 | a send records an entry exactly for a non-null endpoint, an encodable packet, and a guaranteed packet with retry count 0 |
| Delivery.Returning | src/net/ferretize/libnatpunch/BasePacketReceiver.java:37-403 | `handlePacket` returns the handler's own result when the send succeeded, and the send's exception otherwise |
| Delivery.GrownTwice | src/net/ferretize/libnatpunch/BasePacketReceiver.java:415-419 | two appends to a pool in a row are one append of both lists |
| Delivery.Bumped | src/net/ferretize/libnatpunch/BasePacketReceiver.java:446 | the packet's retry count goes up by one as a byte, and nothing else changes |
| Delivery.Retried | src/net/ferretize/libnatpunch/BasePacketReceiver.java:444-446 | an entry retried by `update` is stamped with the time, both counts go up by one (the entry's as a short), and its mark is kept |
| Delivery.Restored | src/net/ferretize/libnatpunch/BasePacketReceiver.java:50-54 | a re-seen packet with retry count 0 replaces the stored one; any other leaves the entry alone |
| Delivery.JobFor | src/net/ferretize/libnatpunch/BasePacketReceiver.java:406-423 | a retry's send goes to the entry's endpoint, by `sendPacket`'s route, with its packet |
| Delivery.Sent | src/net/ferretize/libnatpunch/BasePacketReceiver.java:422 | one datagram exactly when the packet encoded |
| Delivery.Records | src/net/ferretize/libnatpunch/BasePacketReceiver.java:415-419 | at most one recorded entry per send |
| Delivery.Emissions | src/net/ferretize/libnatpunch/BasePacketReceiver.java:441-448 | a run of sends queues at most one datagram each |
| Delivery.Recordings | src/net/ferretize/libnatpunch/BasePacketReceiver.java:441-448 | a run of sends records at most one entry each |
| Delivery.EmissionsSnoc | src/net/ferretize/libnatpunch/BasePacketReceiver.java:441-448 | one more send queues and records after those already done |
| Delivery.JobIsSend | src/net/ferretize/libnatpunch/BasePacketReceiver.java:406-423 | a retry's send queues and records what `sendPacket` does |
| Delivery.NothingRetracked | src/net/ferretize/libnatpunch/BasePacketReceiver.java:446-447 | resends of bumped packets, with no count that wraps to 0, record nothing in the sent pool |
| Delivery.AckFor | src/net/ferretize/libnatpunch/BasePacketReceiver.java:42 | the acknowledgement has flags 0, is untracked, and carries the packet's id and its sign-extended retry count |
| Delivery.AckEncodes | src/net/ferretize/libnatpunch/BasePacketReceiver.java:42 | an acknowledgement always encodes |
| Delivery.Nop | src/net/ferretize/libnatpunch/NatPunch.java:185-186 | the keepalive NOP has flags 0, no arguments, is untracked and always encodes |
| Delivery.KeepAliveCount | src/net/ferretize/libnatpunch/NatPunch.java:183-188 | no more keepalive endpoints than endpoints |
| Delivery.PingsAreNops | src/net/ferretize/libnatpunch/NatPunch.java:183-188 | a keepalive round sends one datagram per keepalive endpoint, each a NOP frame under consecutive ids |
| Delivery.Pings | src/net/ferretize/libnatpunch/NatPunch.java:183-188 | a keepalive round queues at most one datagram per keepalive endpoint |
| Delivery.Row | src/net/ferretize/libnatpunch/BasePacketReceiver.java:276-280 | an endpoint's row throws NullPointerException exactly when an address is null, and is otherwise id, external pair and local pair as five arguments |
| Delivery.Rows | src/net/ferretize/libnatpunch/BasePacketReceiver.java:273-281 | five arguments per endpoint, or NullPointerException |
| Delivery.RowsAt | src/net/ferretize/libnatpunch/BasePacketReceiver.java:273-281 | row k of the table is endpoint k's row |
| Delivery.RowsThrowExtends | src/net/ferretize/libnatpunch/BasePacketReceiver.java:273-281 | an endpoint without an address makes the whole table fail |
| Delivery.ReadRow | src/net/ferretize/libnatpunch/BasePacketReceiver.java:369-391 | a row that reads has its id argument present |
| Delivery.ReadRows | src/net/ferretize/libnatpunch/BasePacketReceiver.java:368-392 | the rows from i on read, in steps of five, only when every row's id argument is non-null; a failure is NullPointer or BufferUnderflow |
| Delivery.ShowReplyReadable | src/net/ferretize/libnatpunch/BasePacketReceiver.java:368-392 | the reader accepts every table the SHOW handler sends |
| Delivery.ShowRowsFrom | src/net/ferretize/libnatpunch/BasePacketReceiver.java:368-392 | the reader accepts the rows from k on |
| Delivery.ShowReply | src/net/ferretize/libnatpunch/BasePacketReceiver.java:282 | a guaranteed RESPONSE(SHOW, SHOW_ENDPOINTS) followed by the rows |
| Delivery.ReadIdentity | src/net/ferretize/libnatpunch/BasePacketReceiver.java:174-189 | the identity reads throw exactly when one of the two port reads throws; otherwise the id is argument i and both addresses resolve |
| Delivery.GreetReadsBack | src/net/ferretize/libnatpunch/PacketData.java:58-78 | the receiver of a GREET or HELLO reads back exactly the identity sent |
| Delivery.RegisterReadsBack | src/net/ferretize/libnatpunch/BasePacketReceiver.java:91-108 | the introducer reads back the id, local address and port a REGISTER carries |
| Delivery.RegisterReply | src/net/ferretize/libnatpunch/BasePacketReceiver.java:110-117 | the reply to REGISTER: guaranteed RESPONSE(REGISTER) with status and the external pair, four arguments |
| Delivery.RegisteredAs | src/net/ferretize/libnatpunch/BasePacketReceiver.java:296-312 | under two arguments it throws NullPointerException; a learned pair needs status 1 and its address is argument 2 resolved; any other status learns nothing |
| Delivery.RegisterReplyReadsBack | src/net/ferretize/libnatpunch/BasePacketReceiver.java:296-312 | the registering node learns exactly the external pair the introducer saw |
| Delivery.PunchFound | src/net/ferretize/libnatpunch/BasePacketReceiver.java:150-157 | RESPONSE(PUNCH) with status 1 then the target's row |
| Delivery.PunchMissing | src/net/ferretize/libnatpunch/BasePacketReceiver.java:162-165 | RESPONSE(PUNCH) with status 0 and the id asked for |
| Delivery.PunchedTo | src/net/ferretize/libnatpunch/BasePacketReceiver.java:313-360 | under two arguments or with a status other than 1 nothing is learned; a learned identity is read from arguments 2..6 |
| Delivery.PunchFoundReadsBack | src/net/ferretize/libnatpunch/BasePacketReceiver.java:313-353 | the requester learns the target exactly as the introducer registered it |
| Delivery.PunchMissingReadsBack | src/net/ferretize/libnatpunch/BasePacketReceiver.java:355-358 | a reply for an unknown target greets nobody |
| Delivery.PunchSixArguments | src/net/ferretize/libnatpunch/BasePacketReceiver.java:320-336 | a successful reply of exactly six arguments throws NullPointerException |
| Delivery.Acknowledged | src/net/ferretize/libnatpunch/BasePacketReceiver.java:245-249 | under two arguments nothing happens; the id read is argument 0's int; the reads throw only on a null or short argument |
| Delivery.AckReadsBack | src/net/ferretize/libnatpunch/BasePacketReceiver.java:243-256 | an acknowledgement names the packet it answers |
| Node.Unregistered | src/net/ferretize/libnatpunch/BasePacketReceiver.java:96-100 | another endpoint holding the id leaves the registry and nothing else does; if the sender holds it, nothing changes |
| Node.ReadTable | src/net/ferretize/libnatpunch/BasePacketReceiver.java:368-392 | the reading loop of RESPONSE(SHOW) ends as `ReadRows` says |
| Node.PendingSuffix | src/net/ferretize/libnatpunch/NatPunch.java:156-176 | the receive phase takes every datagram up to and including the first empty one, and the whole inbox when none is empty |
| Node.Stranger | src/net/ferretize/libnatpunch/NatPunch.java:159-161 | a new endpoint with only the given external pair |
| Node.PoolsShrink | src/net/ferretize/libnatpunch/BasePacketReceiver.java:450-451 | pools that only lost entries extend their old selves |
| Node.BasePacketReceiver.constructor | src/net/ferretize/libnatpunch/BasePacketReceiver.java:25-29 | two new empty pools and the id counter at 0 |
| Node.BasePacketReceiver.NextMessageId | src/net/ferretize/libnatpunch/BasePacketReceiver.java:32-34 | returns the counter, then the counter moves on by one, wrapping |
| Node.BasePacketReceiver.SendPacket | src/net/ferretize/libnatpunch/BasePacketReceiver.java:406-423 | the encoded packet is queued to the peer's local pair when `isLocal` holds for our local address, its external pair otherwise; a guaranteed packet with retry count 0 is recorded; encode errors come first, then a null endpoint; the socket's port and address checks are left out (see below) |
| Node.BasePacketReceiver.Ping | src/net/ferretize/libnatpunch/NatPunch.java:184-187 | a keepalive endpoint gets a NOP under a new id; any other gets nothing |
| Node.BasePacketReceiver.SendPacketDelayed | src/net/ferretize/libnatpunch/BasePacketReceiver.java:426-436 | a null endpoint throws IllegalArgumentException; otherwise one entry with time 0 and retry count -1 is appended and nothing is sent |
| Node.BasePacketReceiver.Admit | src/net/ferretize/libnatpunch/BasePacketReceiver.java:40-64 | a guaranteed packet is acknowledged under a new id, whatever else happens; a first sighting is recorded and processed; a re-sighting with retry count 0 replaces the stored packet and is processed; any other is not processed; a non-guaranteed MULTIPART or PART packet is only recorded |
| Node.BasePacketReceiver.Acknowledge | src/net/ferretize/libnatpunch/BasePacketReceiver.java:40-61 | for a guaranteed packet, the deduplication outcome and exactly one ACKNOWLEDGE back to the sender |
| Node.BasePacketReceiver.Repeated | src/net/ferretize/libnatpunch/BasePacketReceiver.java:40-54 | a packet counts as a repeat only when a live entry for its id and sender is in the acknowledged pool, and never when its retry count is 0 |
| Node.BasePacketReceiver.Deduplicate | src/net/ferretize/libnatpunch/BasePacketReceiver.java:41-54 | a first sighting is appended; a re-sighting with retry count 0 replaces the stored packet; the result says whether the command is processed |
| Node.BasePacketReceiver.SendAck | src/net/ferretize/libnatpunch/BasePacketReceiver.java:55 | the ACKNOWLEDGE goes back to the sender under a new id and is never tracked |
| Node.BasePacketReceiver.Retry | src/net/ferretize/libnatpunch/BasePacketReceiver.java:444-447 | the entry is stamped and bumped, then sent again as `sendPacket` sends it |
| Node.BasePacketReceiver.Advance | src/net/ferretize/libnatpunch/BasePacketReceiver.java:441-448 | retrying the next entry moves the loop's progress on by one |
| Node.BasePacketReceiver.RetryNext | src/net/ferretize/libnatpunch/BasePacketReceiver.java:444-447 | one pass of the retry loop keeps the progress invariant, or returns the send's exception |
| Node.BasePacketReceiver.RetryAll | src/net/ferretize/libnatpunch/BasePacketReceiver.java:441-448 | every due entry is retried in order, and all their datagrams are queued in order; a loop that cannot fail does not fail; resends of bumped packets add nothing to the sent pool |
| Node.BasePacketReceiver.TakeDue | src/net/ferretize/libnatpunch/BasePacketReceiver.java:440 | the due entries are `getPacketsToResend`'s result, and the sent pool keeps what that sweep keeps |
| Node.BasePacketReceiver.Evict | src/net/ferretize/libnatpunch/BasePacketReceiver.java:450-451 | both pools become what the eviction sweep keeps |
| Node.BasePacketReceiver.RetryAndEvict | src/net/ferretize/libnatpunch/BasePacketReceiver.java:441-451 | the retry loop, then both eviction sweeps |
| Node.BasePacketReceiver.Update | src/net/ferretize/libnatpunch/BasePacketReceiver.java:439-453 | every due entry is retried in list order and its datagram queued, then both pools are swept for age; a failing send ends the pass early |
| Node.BasePacketReceiver.SendRegister | src/net/ferretize/libnatpunch/BasePacketReceiver.java:124-130 | a REGISTER with the node's id and local pair goes to the introducer under a new id |
| Node.BasePacketReceiver.Unregister | src/net/ferretize/libnatpunch/BasePacketReceiver.java:96-100 | the registry becomes `Unregistered` |
| Node.BasePacketReceiver.Enrol | src/net/ferretize/libnatpunch/BasePacketReceiver.java:96-108 | another holder of the id is dropped; the sender takes the id, the resolved local address (or keeps its own), then the port and keepalive unless the port read throws |
| Node.BasePacketReceiver.HandleRegister | src/net/ferretize/libnatpunch/BasePacketReceiver.java:91-119 | fewer than 3 arguments change nothing; otherwise the sender is enrolled and gets RESPONSE(REGISTER) with its external pair, which throws without an external address |
| Node.BasePacketReceiver.Upsert | src/net/ferretize/libnatpunch/BasePacketReceiver.java:191-200 | the endpoint with the id, or a new one appended, takes the identity's two pairs; nothing else is added |
| Node.BasePacketReceiver.Greeted | src/net/ferretize/libnatpunch/BasePacketReceiver.java:191-204 | the peer is upserted, then gets a HELLO with the node's identity under a new id |
| Node.BasePacketReceiver.HandleGreet | src/net/ferretize/libnatpunch/BasePacketReceiver.java:169-206 | fewer than 5 arguments or a failed port read leave the node unchanged (with that exception); otherwise the greeter is upserted and answered with HELLO |
| Node.BasePacketReceiver.HandleHello | src/net/ferretize/libnatpunch/BasePacketReceiver.java:207-242 | fewer than 5 arguments or a failed port read leave the registry unchanged; otherwise the peer is upserted and becomes a keepalive peer |
| Node.BasePacketReceiver.HandleReRegister | src/net/ferretize/libnatpunch/BasePacketReceiver.java:120-132 | a REGISTER goes to the introducer under a new id, even when the node has no id |
| Node.BasePacketReceiver.AnswerPunch | src/net/ferretize/libnatpunch/BasePacketReceiver.java:150-157 | the requester gets the target's row under a new id, or NullPointerException when the target lacks an address |
| Node.BasePacketReceiver.GreetTarget | src/net/ferretize/libnatpunch/BasePacketReceiver.java:149 | the target gets a GREET with the requester's identity under a new id |
| Node.BasePacketReceiver.Introduce | src/net/ferretize/libnatpunch/BasePacketReceiver.java:145-157 | the GREET to the target, then the reply to the requester; a failing greet stops before the reply |
| Node.BasePacketReceiver.HandlePunch | src/net/ferretize/libnatpunch/BasePacketReceiver.java:133-168 | an id-less sender gets REREGISTER and the packet counts as handled; no argument is ignored; a null id throws; a known target is introduced; an unknown one gets a status-0 reply |
| Node.BasePacketReceiver.Table | src/net/ferretize/libnatpunch/BasePacketReceiver.java:273-281 | the table loop computes `Rows` of the registry |
| Node.BasePacketReceiver.HandleShow | src/net/ferretize/libnatpunch/BasePacketReceiver.java:263-287 | no argument is ignored; a failing sub-command read throws; SHOW_ENDPOINTS sends the table under a new id, or throws NullPointerException for an endpoint without addresses; other sub-commands do nothing |
| Node.BasePacketReceiver.RespondRegister | src/net/ferretize/libnatpunch/BasePacketReceiver.java:296-312 | the node's external pair becomes what `RegisteredAs` learns, and stays unchanged otherwise |
| Node.BasePacketReceiver.RespondPunch | src/net/ferretize/libnatpunch/BasePacketReceiver.java:313-360 | nothing learned: no change; a learned peer is upserted and gets a HELLO |
| Node.BasePacketReceiver.RespondShow | src/net/ferretize/libnatpunch/BasePacketReceiver.java:361-397 | the sub-command read's exception, nothing for other sub-commands, and the table reader's outcome for SHOW_ENDPOINTS |
| Node.BasePacketReceiver.HandleResponse | src/net/ferretize/libnatpunch/BasePacketReceiver.java:288-400 | no argument or a failing command read ends there; REGISTER, PUNCH and SHOW answers go to their readers; others do nothing |
| Node.BasePacketReceiver.HandlePacket | src/net/ferretize/libnatpunch/BasePacketReceiver.java:37-403 | a repeated guaranteed packet is acknowledged and returns true with no command effect; otherwise the packet is admitted and dispatched, and true is returned only for PUNCH from an id-less sender |
| Node.BasePacketReceiver.Dispatch | src/net/ferretize/libnatpunch/BasePacketReceiver.java:90-402 | unknown commands return false and change nothing; true only for PUNCH from an id-less sender |
| Node.BasePacketReceiver.DispatchIntroducer | src/net/ferretize/libnatpunch/BasePacketReceiver.java:91-168 | REGISTER, REREGISTER, PUNCH and SHOW go to their handlers; true only for PUNCH from an id-less sender |
| Node.BasePacketReceiver.DispatchPeer | src/net/ferretize/libnatpunch/BasePacketReceiver.java:169-400 | GREET, HELLO, ACKNOWLEDGE and RESPONSE go to their handlers; never true |
| Node.BasePacketReceiver.Release | src/net/ferretize/libnatpunch/BasePacketReceiver.java:252-256 | the first live sent entry for that id is deleted unless it is MULTIPART; nothing else changes |
| Node.BasePacketReceiver.HandleAcknowledge | src/net/ferretize/libnatpunch/BasePacketReceiver.java:243-262 | under two arguments nothing happens; failing reads throw; otherwise the acknowledged entry is released |
| Node.NatPunch.constructor | src/net/ferretize/libnatpunch/NatPunch.java:70-75 | an empty registry, no introducer, no external pair and no id |
| Node.NatPunch.SetIntroducer | src/net/ferretize/libnatpunch/NatPunch.java:77-86 | the pair and id are stored; with an address, the introducer is the first endpoint at that pair, or a new one appended when there is none; without an address a new endpoint is appended |
| Node.NatPunch.GetIntroducerEndPoint | src/net/ferretize/libnatpunch/NatPunch.java:88-92 | null without an introducer address; otherwise the first endpoint at that pair, or null when there is none |
| Node.NatPunch.GetLocalEndPoint | src/net/ferretize/libnatpunch/NatPunch.java:99-107 | a new endpoint carrying `LocalIdentity` |
| Node.NatPunch.SetExternalAddress | src/net/ferretize/libnatpunch/NatPunch.java:94-97 | the external pair is stored |
| Node.NatPunch.Start | src/net/ferretize/libnatpunch/NatPunch.java:134-142 | with an introducer address, a REGISTER of the id and local pair goes to the introducer under a new id; without, nothing happens |
| Node.NatPunch.Locate | src/net/ferretize/libnatpunch/NatPunch.java:157-163 | the first endpoint at the source's pair, or a new one with that external pair appended |
| Node.NatPunch.Deliver | src/net/ferretize/libnatpunch/NatPunch.java:157-170 | the source's endpoint is found at its pair or appended as a new one, stamped with the time, and the bytes are appended to its buffer; an overflow throws BufferOverflow and leaves the buffer unchanged |
| Node.NatPunch.Accept | src/net/ferretize/libnatpunch/NatPunch.java:156-176 | the oldest datagram is taken; an empty inbox or an empty datagram returns false and leaves the registry unchanged; otherwise the source's endpoint (found or appended) is stamped and given the bytes, and a buffer overflow throws with its buffer unchanged |
| Node.NatPunch.HandleNext | src/net/ferretize/libnatpunch/NatPunch.java:168-169 | without a frame nothing changes; a frame that fails to decode throws; a decoded one is handled and leaves the buffer empty |
| Node.NatPunch.Drain | src/net/ferretize/libnatpunch/NatPunch.java:168-170 | at most one frame is handled; the loop ends with no frame buffered unless something throws |
| Node.NatPunch.Ping | src/net/ferretize/libnatpunch/NatPunch.java:183-188 | every keepalive endpoint gets a NOP, in list order, under consecutive ids; the sent pool is unchanged |
| Node.NatPunch.Take | src/net/ferretize/libnatpunch/NatPunch.java:156-176 | `Accept` with only what the receive loop needs |
| Node.NatPunch.ReceiveOne | src/net/ferretize/libnatpunch/NatPunch.java:156-176 | one datagram is taken from the inbox; the result is false exactly when none was waiting or it was empty |
| Node.NatPunch.ReceiveAll | src/net/ferretize/libnatpunch/NatPunch.java:156-176 | unless something throws, the inbox is left as `Pending` says |
| Node.NatPunch.Tick | src/net/ferretize/libnatpunch/NatPunch.java:178-189 | `update(now)`, then a keepalive round when more than 30000 ms have passed, which resets the ping time |
| Node.NatPunch.Iterate | src/net/ferretize/libnatpunch/NatPunch.java:156-189 | one loop pass; unless it throws, the inbox is left as `Pending` says, and the ping time is reset exactly when more than 30000 ms have passed |
| ImageTransfer.PartCount | natpunchclient/src/net/ferretize/TestPacketReceiver.java:191 | `ceil(n / 1000)`: the least count of 1000-byte parts that covers n bytes |
| ImageTransfer.Covered | natpunchclient/src/net/ferretize/TestPacketReceiver.java:202-205 | the first k parts cover at most the frame |
| ImageTransfer.Slice | natpunchclient/src/net/ferretize/TestPacketReceiver.java:203-204 | a part's payload is 1 to 1000 bytes |
| ImageTransfer.ImagePackets | natpunchclient/src/net/ferretize/TestPacketReceiver.java:189-215 | the parent and one packet per part |
| ImageTransfer.SplitStep | natpunchclient/src/net/ferretize/TestPacketReceiver.java:202-205 | the offset `p` is 1000 times the part index, and one round moves it to what k+1 parts cover |
| ImageTransfer.ImageSlots | natpunchclient/src/net/ferretize/TestPacketReceiver.java:189-215 | one slot per part |
| ImageTransfer.SlicesTile | natpunchclient/src/net/ferretize/TestPacketReceiver.java:202-215 | the first k slices, joined, are exactly the covered prefix of the frame |
| ImageTransfer.ReassembledFrame | natpunchclient/src/net/ferretize/TestPacketReceiver.java:56-69 | joining every part of a frame gives the frame back |
| ImageTransfer.ImageHeaders | natpunchclient/src/net/ferretize/TestPacketReceiver.java:195-214 | under 128 parts the parent's count reads as the true count, with the frame's id and command RESPONSE; part k is a MULTIPART_PART of that parent whose index reads as k |
| ImageTransfer.JoinedPrefix | natpunchclient/src/net/ferretize/TestPacketReceiver.java:56-69 | a prefix joins to a prefix, and the whole has the summed length |
| ImageTransfer.JoinedThrows | natpunchclient/src/net/ferretize/TestPacketReceiver.java:56-69 | once a prefix throws, the whole throws the same way |
| ImageTransfer.Joined | natpunchclient/src/net/ferretize/TestPacketReceiver.java:56-69 | joining succeeds exactly when every slot holds a part with a non-null argument 0, and fails otherwise with NullPointer |
| ImageTransfer.Reassemble | natpunchclient/src/net/ferretize/TestPacketReceiver.java:56-69 | the two loops produce `Joined`, whose length is the sum of the part lengths |
| ImageTransfer.AddressedSnoc | natpunchclient/src/net/ferretize/TestPacketReceiver.java:209-214 | one more part extends the addressed list by that part |
| ImageTransfer.QueuedSnoc | natpunchclient/src/net/ferretize/TestPacketReceiver.java:209-214 | one more queued entry extends the queue by its packet |
| ImageTransfer.QueuedTwice | natpunchclient/src/net/ferretize/TestPacketReceiver.java:105-114 | two queued runs in a row are one run |
| ImageTransfer.Throttled | natpunchclient/src/net/ferretize/TestPacketReceiver.java:106-112 | the slots keep their number when stamped |
| ImageTransfer.StreamDue | natpunchclient/src/net/ferretize/TestPacketReceiver.java:106-109 | a stream is due only while attribute 0 is after now (and set, for a non-negative clock); an open stream without a last frame time is due after 100 ms |
| ImageTransfer.ThrottledOnce | natpunchclient/src/net/ferretize/TestPacketReceiver.java:106-112 | a stream just served is not due again at the same time, and a second check changes nothing |
| ImageTransfer.TestPacketReceiver.constructor | natpunchclient/src/net/ferretize/TestPacketReceiver.java:27-29 | a base receiver with empty pools and id 0 |
| ImageTransfer.TestPacketReceiver.SendImage | natpunchclient/src/net/ferretize/TestPacketReceiver.java:189-215 | without a frame nothing; otherwise the parent and every part, under consecutive ids, queued for the endpoint with time 0 and retry count -1 |
| ImageTransfer.TestPacketReceiver.QueuePart | natpunchclient/src/net/ferretize/TestPacketReceiver.java:202-215 | one round queues part k under the next id and moves `p` to what k+1 parts cover |
| ImageTransfer.TestPacketReceiver.HandlePart | natpunchclient/src/net/ferretize/TestPacketReceiver.java:36-83 | a part is consumed (true) with `PartOutcome`'s reassembled frame, unless it throws |
| ImageTransfer.PartOutcome | natpunchclient/src/net/ferretize/TestPacketReceiver.java:36-83 | no recorded parent yields nothing; a frame comes only from a RESPONSE(IMAGE) parent with a non-negative count; a failure is NullPointer, BufferUnderflow, NegativeArraySize or IndexOutOfBounds |
| ImageTransfer.TestPacketReceiver.HandleCommand | natpunchclient/src/net/ferretize/TestPacketReceiver.java:85-98 | IMAGE_CONTINUOUS sets attribute 0 to now+10000 and attribute 1 to 0; IMAGE sends a frame; other commands do nothing |
| ImageTransfer.TestPacketReceiver.HandlePacket | natpunchclient/src/net/ferretize/TestPacketReceiver.java:31-99 | true whenever the base handler says true; every MULTIPART_PART packet that gets past it is consumed; otherwise the image commands act and the result is false |
| ImageTransfer.TestPacketReceiver.HandleOwn | natpunchclient/src/net/ferretize/TestPacketReceiver.java:36-98 | what `handlePacket` does with a packet the base did not consume |
| ImageTransfer.TestPacketReceiver.StreamTo | natpunchclient/src/net/ferretize/TestPacketReceiver.java:106-112 | a frame is sent exactly when attribute 0 is after now and more than 100 ms passed since attribute 1, which then becomes now |
| ImageTransfer.TestPacketReceiver.Update | natpunchclient/src/net/ferretize/TestPacketReceiver.java:101-115 | the base `update`, then each endpoint's stream is served once, in list order; endpoint j, when due, is sent `frames[j]`, the frame its own `sendImage` call captures |
| ImageTransfer.TestPacketReceiver.Throttle | natpunchclient/src/net/ferretize/TestPacketReceiver.java:105-114 | every endpoint's slots become `Throttled`, and for each due endpoint j with a frame, in list order, `frames[j]` is queued under the next ids |
| ImageTransfer.TestPacketReceiver.Finished | natpunchclient/src/net/ferretize/TestPacketReceiver.java:105-114 | after the last round every endpoint has been throttled and each due endpoint's own capture is queued |
| ImageTransfer.TestPacketReceiver.StreamStep | natpunchclient/src/net/ferretize/TestPacketReceiver.java:105-114 | one round of the loop keeps its invariant, sending endpoint k its own capture `frames[k]` |
| LegacyPacket.Digits | src/net/ferretize/libnatpunch/Packet.java:50 | `%d` digits are non-empty and all decimal |
| LegacyPacket.Decimal | src/net/ferretize/libnatpunch/Packet.java:50 | `%d` text is non-empty and has no space |
| LegacyPacket.ValueOfDigits | src/net/ferretize/libnatpunch/Packet.java:50 | the digits read back as the number |
| LegacyPacket.ParseDecimalDecimal | src/net/ferretize/libnatpunch/Packet.java:50 | `%d` text, sign included, reads back as the number |
| LegacyPacket.FirstSpace | src/net/ferretize/libnatpunch/Packet.java:62 | the first space is within the text |
| LegacyPacket.FirstSpaceAfter | src/net/ferretize/libnatpunch/Packet.java:62 | text without a space, then a space, is split there |
| LegacyPacket.SplitSpaceAfter | src/net/ferretize/libnatpunch/Packet.java:62 | splitting at the first space undoes the join |
| LegacyPacket.AckText | src/net/ferretize/libnatpunch/Packet.java:49-52 | an `ack` line reads back as exactly the id and the count it was made from |
| LegacyPacket.GtdText | src/net/ferretize/libnatpunch/Packet.java:61-63 | a `getData` line reads back as the id, the count and the payload, whatever the payload holds |
| LegacyPacket.Packet.constructor | src/net/ferretize/libnatpunch/Packet.java:41-47 | resend count 0 and last sent now |
| LegacyPacket.Packet.Ack | src/net/ferretize/libnatpunch/Packet.java:49-52 | a new packet whose text is "ACK id count\r\n" |
| LegacyPacket.Packet.Delayed | src/net/ferretize/libnatpunch/Packet.java:54-59 | resend count -1 and last sent 0 |
| LegacyPacket.Packet.GetData | src/net/ferretize/libnatpunch/Packet.java:61-63 | the "GTD id count data" text reads back to its parts |
| LegacyPacket.Packet.HasResent | src/net/ferretize/libnatpunch/Packet.java:65-68 | last sent becomes now, the count goes up by one as a short, and it is not due again at once |
| LegacyPacket.ShouldResendWhen | src/net/ferretize/libnatpunch/Packet.java:70-72 | without overflow the packet is due exactly when more than 100 ms have passed |
| LegacyPacket.Packet.ShouldResend | src/net/ferretize/libnatpunch/Packet.java:70-72 | a delayed packet (last sent at 0) is due after 100 ms; a packet sent just now is not |
| Md5Hex.LowerDigit | src/net/ferretize/libnatpunch/MD5.java:32 | a nibble becomes a lower-case hex digit |
| Md5Hex.LowerDigitValue | src/net/ferretize/libnatpunch/MD5.java:32 | a digit reads back as its nibble |
| Md5Hex.ByteHex | src/net/ferretize/libnatpunch/MD5.java:32 | a byte becomes two digits, the leading zero kept |
| Md5Hex.HexText | src/net/ferretize/libnatpunch/MD5.java:31-33 | two digits per byte |
| Md5Hex.Hex | src/net/ferretize/libnatpunch/MD5.java:29-35 | the text of indices offset..length-1; empty when offset >= length; a null array or an index outside it throws |
| Md5Hex.HexRange | src/net/ferretize/libnatpunch/MD5.java:29-35 | the text has two characters per byte read, and reads back as the bytes offset..length-1 |
| Md5Hex.HexAll | src/net/ferretize/libnatpunch/MD5.java:37-39 | a null array throws; otherwise the text of the whole array, 2 characters per byte |
| Md5Hex.HexTextDigits | src/net/ferretize/libnatpunch/MD5.java:31-33 | digits 2j and 2j+1 are the high and low nibble of byte j, in lower case |
| Md5Hex.HexTextSnoc | src/net/ferretize/libnatpunch/MD5.java:31-33 | one more byte adds its two digits at the end |
| Md5Hex.HexBytesHexText | src/net/ferretize/libnatpunch/MD5.java:29-35 | the bytes can be read back from the text |
| Md5Hex.HexTextOfCons | src/net/ferretize/libnatpunch/MD5.java:31-33 | the text of a byte followed by more starts with that byte's digits |

## Left out

- The UDP socket, the worker thread, `startWorkerThread`/`stopWorkerThread`
  with their lock, the 5000 ms stop check and `Thread.sleep`. The network
  layer is two queues, and one pass of the worker loop is a method.
- Clocks: every `new Date().getTime()` is a `now` parameter.
- Log calls, every `toString`, `PacketData.commandToString`, and the
  commented-out block of `handlePacket`. They are diagnostics only.
- The `synchronized` blocks. The model is single-threaded.
- The charset constructor of `PacketData` (PacketData.java:124-140). No core
  code calls it.
- `BinaryPacketEncoder.getPacketSize`. No core code calls it.
- `MD5.hash`. It is a call into `java.security.MessageDigest`.
- `sendImage` lines 117-187: camera capture, process execution and file
  reading. The captured frame is a parameter (`None` when none was read).
- `InetAddress` internals. An address is its raw bytes, and `getByAddress`
  succeeds on 4 or 16 bytes. `isLoopbackAddress` is 127.0.0.0/8 (section
  3.2.1.3 of RFC 1122) or ::1, as in Java. `getHostAddress` text is left
  out.
- Addressing.ByAddress: a 16-byte IPv4-mapped address (`::ffff:a.b.c.d`)
  keeps its 16 bytes, where Java's `getByAddress` returns the 4-byte
  `Inet4Address`. A peer that sends a mapped address in REGISTER,
  GREET/HELLO or a PUNCH row is therefore compared, looked up and tested
  for loopback on the 16-byte form here.
- Transport.NetworkLayer.Send: queues every datagram and returns its
  length. Java's `UDPNetworkLayer.send` (UDPNetworkLayer.java:59-67) first
  builds a `DatagramPacket`, whose constructor throws
  IllegalArgumentException for a port outside 0..65535; then
  `socket.send` throws on a null address (NullPointerException on Java 8,
  IllegalArgumentException on later versions). Only IOException is caught,
  so both escape. The IOException case, which returns 0, goes with the
  socket.
- Delivery.SendResult: is `Ok` for an encodable packet to a non-null
  endpoint whose routed pair has a null address or a port outside
  0..65535. Java's `sendPacket` throws there, at
  BasePacketReceiver.java:422.
- Delivery.Emission: queues a datagram to such a pair, where Java sends
  nothing.
- Node.BasePacketReceiver.SendPacket: returns `Ok` and queues the datagram
  when the routed pair has a null address or a port outside 0..65535.
  Java throws there, after the guaranteed entry has been recorded at
  BasePacketReceiver.java:415-419; the recorded entry is the same in both.
  Such pairs are reachable: the ports of HELLO arguments and PUNCH rows
  are any `int` read off the wire, and a PUNCH row whose addresses are not
  4 or 16 bytes gives a peer with a null address. In Java that exception ends the sending handler's reply
  (REGISTER, HELLO, GREET, PUNCH, SHOW), `update`'s retry pass at that
  entry, and the keepalive round of `NatPunch` at that endpoint; the model
  goes on in each case. This is also why `Node.NatPunch.Ping` and
  `Delivery.PingsAreNops` count one NOP for every keepalive endpoint.
- `NatPunch.setNetworkLayer`, `setPacketEncoder` and `setPacketReceiver`
  are folded into construction: the receiver is set before the loop runs,
  and the encoder is always the binary one.
- Bytes are `seq<Byte>` with `Byte` the integers 0..255, not `seq<bv8>`.
  This is the same set of values.
- `TestPacketReceiver` extends `BasePacketReceiver` in Java. Here it holds
  a `BasePacketReceiver` (`base`), and `NatPunch` drives the base receiver.
  The test receiver's overrides are methods of their own.
- ImageTransfer.Reassemble: the `int` sum of part lengths is unbounded here.
  Java would wrap past 2^31, which cannot happen: a parent whose partCount
  is 128 or more is negative as a Java byte and fails with
  NegativeArraySize before reassembly (`PartOutcome`), so at most 127 parts
  are joined, and each part's payload lies inside one frame, whose length
  prefix is a `short` (under 2^15 bytes); 127 such payloads stay far below
  2^31. This client's own sender cuts its 100000-byte buffer into at most
  100 parts of at most 1000 bytes.
- Node.NatPunch.Tick: `now - lastPing` is unbounded here, not a wrapping
  `long`.
- Tracking.HandledPacket.ShouldRetry: `now - timeLastSent` is unbounded
  here, not a wrapping `long`; the same holds for the age test of
  `Tracking.Drops`. Both times are clock readings, whose difference fits a
  `long`.
- Node.BasePacketReceiver.HandlePacket: the effects of each command are
  stated on that command's handler (`HandleRegister`, `HandlePunch`, and so
  on), not restated here.
- Node.BasePacketReceiver.Dispatch: states only the result and the
  unknown-command case; the effects are on the handlers.
- Node.BasePacketReceiver.DispatchIntroducer: states only the result; the
  effects are on the handlers.
- Node.BasePacketReceiver.DispatchPeer: states only the result; the effects
  are on the handlers.
- Node.NatPunch.HandleNext: for a decoded frame, it states the result and
  the emptied buffer, not the handler's effects.
- Node.NatPunch.Drain: states the buffer outcome, not the handler's effects.
- Node.NatPunch.ReceiveOne: states which datagram is taken and the
  registry's growth, not the handling of its frame.
- Node.NatPunch.ReceiveAll: states the inbox left behind, not the handling
  of each datagram.
- Node.NatPunch.Iterate: states the inbox left behind and the ping time,
  not the effects of `update` and the keepalive round. Those are on
  `Node.NatPunch.Tick`, `Node.BasePacketReceiver.Update` and
  `Node.NatPunch.Ping`.
- Node.NatPunch.Tick: states the ping time and that no id is used without a
  ping, not the retries; those are on `Node.BasePacketReceiver.Update`.
- ImageTransfer.TestPacketReceiver.Update: the retries and evictions of the
  base `update` are stated on `Node.BasePacketReceiver.Update`, and only the
  due set and the stream sends are restated here.
- ImageTransfer.TestPacketReceiver.HandlePacket: for the commands the base
  handler serves, only the result is restated. Their effects are on
  `Node.BasePacketReceiver.HandlePacket` and the handlers.

=== FILE: addressing.dfy ===
/** Network addresses as the library sees them through `java.net.InetAddress`. */
module Addressing {
  import opened Outcomes
  import opened ByteOrder

  /** An `InetAddress`, modelled by its raw bytes (`getAddress()`):
      4 bytes for IPv4, 16 for IPv6. Equality of addresses is equality of
      these bytes. */
  type Address = Bytes

  /** `InetAddress.getByAddress(raw)` followed by the callers' `catch`, which
      keeps null: the lookup succeeds exactly for 4- and 16-byte arrays. */
  function ByAddress(raw: Option<Bytes>): (a: Option<Address>)
    ensures a.Some? <==> raw.Some? && (|raw.value| == 4 || |raw.value| == 16)
    ensures a.Some? ==> a.value == raw.value
  {
    if raw.Some? && (|raw.value| == 4 || |raw.value| == 16) then raw else None
  }

  /** `InetAddress.isLoopbackAddress`: 127.0.0.0/8 for IPv4 (section 3.2.1.3
      of RFC 1122) and ::1 for IPv6. */
  predicate IsLoopback(a: Address) {
    || (|a| == 4 && a[0] == 127)
    || (|a| == 16 && a == Zeros(15) + [1])
  }

  /** An `InetSocketAddress` of a received datagram: a resolved address and a port. */
  datatype SocketAddress = SocketAddress(address: Address, port: Bits32)

  /** The identity and address fields of an endpoint, in the order the
      GREET, HELLO, SHOW and RESPONSE(PUNCH) argument tuples carry them. */
  datatype Identity = Identity(
    id: Option<Bytes>,
    externalAddress: Option<Address>,
    externalPort: Bits32,
    localAddress: Option<Address>,
    localPort: Bits32)
}

=== FILE: byte_buffer.dfy ===
/** The part of `java.nio.ByteBuffer` the library uses on an endpoint's
    receive buffer: relative bulk `put`, `position` and `compact`. The limit
    of such a buffer is always its capacity (it is never flipped), so it is
    not kept.
 */
module Buffers {
  import opened Outcomes
  import opened ByteOrder

  class ByteBuffer {
    /** The backing array; its length is the capacity. */
    const content: array<Byte>
    /** Where the next relative `put` writes. */
    var position: int

    ghost predicate Valid()
      reads this
    {
      0 <= position <= content.Length
    }

    /** The bytes written since the last compaction. */
    function Buffered(): (s: Bytes)
      requires Valid()
      reads this, content
      ensures |s| == position
    {
      content[..position]
    }

    /** `ByteBuffer.allocate(capacity)`: zero-filled, position 0. */
    constructor Allocate(capacity: nat)
      ensures Valid() && fresh(content)
      ensures content.Length == capacity && position == 0
      ensures content[..] == Zeros(capacity)
    {
      content := new Byte[capacity](_ => 0);
      position := 0;
    }

    /** `put(src, 0, src.length)`: fails without writing when the bytes do not
        fit; otherwise writes them at the position and moves past them. */
    method Put(src: Bytes) returns (r: Result<()>)
      requires Valid()
      modifies this, content
      ensures Valid()
      ensures old(position) + |src| > content.Length ==>
                r == Throw(BufferOverflow) && position == old(position) && content[..] == old(content[..])
      ensures old(position) + |src| <= content.Length ==>
                && r.Ok? && position == old(position) + |src|
                && content[..] == old(content[..position]) + src + old(content[position + |src|..])
      ensures old(position) + |src| <= content.Length ==> Buffered() == old(Buffered()) + src
    {
      if position + |src| > content.Length {
        return Throw(BufferOverflow);
      }
      var p := position;
      var i := 0;
      while i < |src|
        modifies content
        invariant 0 <= i <= |src|
        invariant forall k :: 0 <= k < i ==> content[p + k] == src[k]
        invariant forall k :: 0 <= k < content.Length && !(p <= k < p + i) ==> content[k] == old(content[k])
      {
        content[p + i] := src[i];
        i := i + 1;
      }
      assert content[..] == old(content[..p]) + src + old(content[p + |src|..]);
      position := p + |src|;
      return Ok(());
    }

    /** `ByteBuffer.compact()`: the bytes between the position and the limit
        move to the front, the bytes after them keep their old values, and the
        position is set just past the moved bytes. */
    method Compact()
      requires Valid()
      modifies this, content
      ensures Valid()
      ensures position == content.Length - old(position)
      ensures content[..] == old(content[position..]) + old(content[content.Length - position..])
    {
      var p := position;
      var n := content.Length - p;
      var i := 0;
      while i < n
        modifies content
        invariant 0 <= i <= n
        invariant forall k :: 0 <= k < i ==> content[k] == old(content[p + k])
        invariant forall k :: i <= k < content.Length ==> content[k] == old(content[k])
      {
        content[i] := content[p + i];
        i := i + 1;
      }
      assert content[..] == old(content[p..]) + old(content[n..]);
      position := n;
    }

    /** `position(p)`. */
    method SetPosition(p: int)
      requires 0 <= p <= content.Length
      modifies this
      ensures Valid() && position == p
    {
      position := p;
    }
  }
}

=== FILE: byte_order.dfy ===
/** Bytes, Java's fixed-width integer views of them, and big-endian order
    (the order `java.nio.ByteBuffer` uses by default).

    A byte is kept as its unsigned bit pattern 0..255 and a Java `int` as its
    unsigned bit pattern 0..2^32-1; `Signed8` and `Short` give the values Java
    computes with where the sign matters.
 */
module ByteOrder {

  /** The bit pattern of a Java `byte`. */
  type Byte = b: int | 0 <= b < 0x100

  /** A Java `byte[]`. */
  type Bytes = seq<Byte>

  /** The bit pattern of a Java `int`. */
  type Bits32 = x: int | 0 <= x < 0x1_0000_0000

  /** A Java `short`. */
  type Int16 = x: int | -0x8000 <= x < 0x8000

  /** The value Java sees in a `byte` (two's complement, -128..127). */
  function Signed8(b: Byte): (v: int)
    ensures -128 <= v < 128
    ensures v >= 0 <==> b < 0x80
    ensures (v - b) % 0x100 == 0
  {
    if b < 0x80 then b else b - 0x100
  }

  /** The bit pattern of the Java cast `(byte) n`. */
  function ByteBits(n: int): (b: Byte)
    ensures -128 <= n < 128 ==> Signed8(b) == n
    ensures 0 <= n < 0x100 ==> b == n
  {
    n % 0x100
  }

  /** A Java `long`. */
  type Int64 = x: int | -0x8000_0000_0000_0000 <= x < 0x8000_0000_0000_0000

  /** The value of a `long` expression whose exact value is n: the
      two's-complement wrap-around. */
  function Long(n: int): (v: Int64)
    ensures -0x8000_0000_0000_0000 <= n < 0x8000_0000_0000_0000 ==> v == n
    ensures (v - n) % 0x1_0000_0000_0000_0000 == 0
  {
    var u := n % 0x1_0000_0000_0000_0000;
    if u < 0x8000_0000_0000_0000 then u else u - 0x1_0000_0000_0000_0000
  }

  /** The value of the Java cast `(short) n`, which is also what a `short`
      variable holds after `+=` wraps around. */
  function Short(n: int): (v: int)
    ensures -32768 <= v < 32768
    ensures -32768 <= n < 32768 ==> v == n
    ensures (v - n) % 0x1_0000 == 0
  {
    var u := n % 0x1_0000;
    if u < 0x8000 then u else u - 0x1_0000
  }

  /** `ByteBuffer.putShort` of the short value v. */
  function BE16(v: int): (r: Bytes)
    requires -32768 <= v < 32768
    ensures |r| == 2
  {
    var u := v % 0x1_0000;
    [u / 0x100, u % 0x100]
  }

  /** `ByteBuffer.getShort` on the first two bytes. */
  function Load16(s: Bytes): (v: int)
    requires |s| >= 2
    ensures -32768 <= v < 32768
  {
    var u := s[0] as int * 0x100 + s[1];
    if u < 0x8000 then u else u - 0x1_0000
  }

  /** `ByteBuffer.putInt`. */
  function BE32(x: Bits32): (r: Bytes)
    ensures |r| == 4
  {
    [x / 0x100_0000, (x / 0x1_0000) % 0x100, (x / 0x100) % 0x100, x % 0x100]
  }

  /** `ByteBuffer.getInt` on the first four bytes. */
  function Load32(s: Bytes): (x: Bits32)
    requires |s| >= 4
  {
    s[0] as int * 0x100_0000 + s[1] as int * 0x1_0000 + s[2] as int * 0x100 + s[3]
  }

  /** Java widening of a `byte` to an `int` (sign extension). */
  function SignExtend(b: Byte): (x: Bits32)
    ensures x % 0x100 == b
    ensures x / 0x100 == if b < 0x80 then 0 else 0xFF_FFFF
  {
    if b < 0x80 then b else b + 0xFFFF_FF00
  }

  /** Java `int` addition, which wraps around. */
  function Add32(x: Bits32, n: int): (y: Bits32)
    ensures (y - x - n) % 0x1_0000_0000 == 0
  {
    (x + n) % 0x1_0000_0000
  }

  /** Two wrapping additions in a row are one. */
  lemma Add32Add(x: Bits32, a: int, b: int)
    ensures Add32(Add32(x, a), b) == Add32(x, a + b)
  {
    var m := 0x1_0000_0000;
    var q := (x + a) / m;
    assert Add32(x, a) == x + a - q * m;
    assert Add32(x, a) + b == (x + a + b) + (-q) * m;
  }

  /** What `getShort` reads is what `putShort` wrote. */
  lemma Load16BE16(v: int, rest: Bytes)
    requires -32768 <= v < 32768
    ensures Load16(BE16(v) + rest) == v
  {
    var u := v % 0x1_0000;
    if v >= 0 { assert u == v; } else { assert u == v + 0x1_0000; }
    var s := BE16(v) + rest;
    assert s[0] == u / 0x100 && s[1] == u % 0x100;
  }

  /** What `getInt` reads is what `putInt` wrote. */
  lemma Load32BE32(x: Bits32, rest: Bytes)
    ensures Load32(BE32(x) + rest) == x
  {
    var s := BE32(x) + rest;
    assert s[..4] == BE32(x);
    var a, b, c, d := x / 0x100_0000, (x / 0x1_0000) % 0x100, (x / 0x100) % 0x100, x % 0x100;
    assert x / 0x1_0000 == a * 0x100 + b;
    assert x / 0x100 == (a * 0x100 + b) * 0x100 + c;
  }

  /** Reading four bytes and writing them back gives the same bytes. */
  lemma BE32Load32(s: Bytes)
    requires |s| == 4
    ensures BE32(Load32(s)) == s
  {
    var x := Load32(s);
    assert x / 0x100 == s[0] as int * 0x1_0000 + s[1] as int * 0x100 + s[2];
    assert x / 0x1_0000 == s[0] as int * 0x100 + s[1];
    assert x / 0x100_0000 == s[0];
  }

  function Zeros(n: nat): (r: Bytes)
    ensures |r| == n && forall i :: 0 <= i < n ==> r[i] == 0
  {
    if n == 0 then [] else [0] + Zeros(n - 1)
  }

  // ---------------------------------------------------------------------
  // Bitwise operations on bit patterns, bit by bit from the lowest.

  /** Java `a & b`. */
  function And(a: nat, b: nat): (r: nat)
    ensures r <= a && r <= b
    decreases a
  {
    if a == 0 || b == 0 then 0 else 2 * And(a / 2, b / 2) + (a % 2) * (b % 2)
  }

  /** Java `a | b`. */
  function Or(a: nat, b: nat): (r: nat)
    ensures r >= a && r >= b
    decreases a + b
  {
    if a == 0 then b else if b == 0 then a
    else 2 * Or(a / 2, b / 2) + (if a % 2 == 1 || b % 2 == 1 then 1 else 0)
  }

  /** Bit k of n. */
  predicate Bit(n: nat, k: nat)
    decreases k
  {
    if k == 0 then n % 2 == 1 else Bit(n / 2, k - 1)
  }

  lemma {:induction false} NoBitsOfZero(k: nat)
    ensures !Bit(0, k)
    decreases k
  {
    if k > 0 {
      NoBitsOfZero(k - 1);
    }
  }

  lemma {:induction false} SomeBit(n: nat) returns (k: nat)
    requires n > 0
    ensures Bit(n, k)
    decreases n
  {
    if n % 2 == 1 {
      k := 0;
    } else {
      var j := SomeBit(n / 2);
      k := j + 1;
    }
  }

  /** Every bit set in b is set in a. */
  ghost predicate BitsWithin(b: nat, a: nat) {
    forall k: nat :: Bit(b, k) ==> Bit(a, k)
  }

  /** Java's `(a & b) == b` holds exactly when every bit of b is set in a. */
  lemma {:induction false} AndBits(a: nat, b: nat)
    ensures And(a, b) == b <==> BitsWithin(b, a)
    decreases a
  {
    if b == 0 {
      forall k: nat ensures !Bit(b, k) { NoBitsOfZero(k); }
    } else if a == 0 {
      var k := SomeBit(b);
      NoBitsOfZero(k);
    } else {
      AndBits(a / 2, b / 2);
      var lo := (a % 2) * (b % 2);
      assert And(a, b) == 2 * And(a / 2, b / 2) + lo;
      if BitsWithin(b, a) {
        assert Bit(b, 0) ==> Bit(a, 0);
        forall k: nat | Bit(b / 2, k) ensures Bit(a / 2, k) {
          assert Bit(b, k + 1);
        }
        assert And(a / 2, b / 2) == b / 2;
        assert lo == b % 2;
      }
      if And(a, b) == b {
        assert lo == b % 2 && And(a / 2, b / 2) == b / 2;
        assert BitsWithin(b / 2, a / 2);
        forall k: nat | Bit(b, k) ensures Bit(a, k) {
          if k == 0 {
            assert b % 2 == 1;
            assert a % 2 == 1;
          } else {
            assert Bit(b / 2, k - 1);
            assert Bit(a / 2, k - 1);
          }
        }
      }
    }
  }

  /** The bits of Java's `a | b` are those of a and those of b. */
  lemma {:induction false} OrBits(a: nat, b: nat, k: nat)
    ensures Bit(Or(a, b), k) <==> Bit(a, k) || Bit(b, k)
    decreases k
  {
    if a == 0 {
      NoBitsOfZero(k);
    } else if b == 0 {
      NoBitsOfZero(k);
    } else if k > 0 {
      OrBits(a / 2, b / 2, k - 1);
    }
  }

  /** `a | b` of two bytes is a byte. */
  lemma {:induction false} OrBelow(a: nat, b: nat, n: nat)
    requires a < Pow2(n) && b < Pow2(n)
    ensures Or(a, b) < Pow2(n)
    decreases n
  {
    if a != 0 && b != 0 {
      OrBelow(a / 2, b / 2, n - 1);
    }
  }

  function Pow2(k: nat): (p: nat)
    ensures p >= 1
  {
    if k == 0 then 1 else 2 * Pow2(k - 1)
  }
}

=== FILE: codec.dfy ===
/** `BinaryPacketEncoder`: the frame layout of a `PacketData`.

    A frame is a big-endian signed 16-bit length L followed by L bytes: the
    header (flags, messageId, then parentMessageId, retryCount, partCount and
    partIndex as the flags select them, then command), and, when the argument
    array is non-empty, an argument count byte followed by one
    (16-bit length, bytes) pair per argument.
 */
module Codec {
  import opened Outcomes
  import opened ByteOrder
  import opened Packets
  import opened Buffers

  /** Size of the header: flags, messageId and command, plus partCount when
      MULTIPART, retryCount when GUARANTEED, and parentMessageId and
      partIndex when MULTIPART_PART. */
  function HeaderSize(flags: Byte): (n: nat)
    ensures 6 <= n <= 13
  {
    6 + (if FlagSet(flags, FlagMultipart) then 1 else 0)
      + (if FlagSet(flags, FlagGuaranteed) then 1 else 0)
      + (if FlagSet(flags, FlagMultipartPart) then 5 else 0)
  }

  /** A one-byte field, written only when `present`. */
  function Opt8(present: bool, b: Byte): (r: Bytes)
    ensures |r| == if present then 1 else 0
  {
    if present then [b] else []
  }

  /** A four-byte field, written only when `present`. */
  function Opt32(present: bool, x: Bits32): (r: Bytes)
    ensures |r| == if present then 4 else 0
  {
    if present then BE32(x) else []
  }

  /** The header bytes `encode` writes, in order. */
  function Header(p: PacketData): (h: Bytes)
    ensures |h| == HeaderSize(p.flags)
  {
    [p.flags] + (BE32(p.messageId)
    + (Opt32(p.HasFlag(FlagMultipartPart), p.parentMessageId)
    + (Opt8(p.HasFlag(FlagGuaranteed), p.retryCount)
    + (Opt8(p.HasFlag(FlagMultipart), p.partCount)
    + (Opt8(p.HasFlag(FlagMultipartPart), p.partIndex)
    + [p.command])))))
  }

  predicate NoNulls(args: seq<Arg>) {
    forall i :: 0 <= i < |args| ==> args[i].Some?
  }

  /** The argument arrays, once none of them is null. */
  function Values(args: seq<Arg>): (vs: seq<Bytes>)
    requires NoNulls(args)
    ensures |vs| == |args| && forall i :: 0 <= i < |args| ==> args[i] == Some(vs[i])
  {
    if args == [] then [] else [args[0].value] + Values(args[1..])
  }

  /** The argument arrays as non-null arguments. */
  function Wrap(vs: seq<Bytes>): (args: seq<Arg>)
    ensures |args| == |vs| && NoNulls(args) && Values(args) == vs
  {
    if vs == [] then [] else [Some(vs[0])] + Wrap(vs[1..])
  }

  /** Space the arguments take: a 2-byte length and the bytes of each. */
  function ArgsSize(vs: seq<Bytes>): nat {
    if vs == [] then 0 else 2 + |vs[0]| + ArgsSize(vs[1..])
  }

  /** The (length, bytes) pairs `encode` writes. The length is cast to short. */
  function ArgBytes(vs: seq<Bytes>): (r: Bytes)
    ensures |r| == ArgsSize(vs)
  {
    if vs == [] then [] else BE16(Short(|vs[0]|)) + vs[0] + ArgBytes(vs[1..])
  }

  predicate HasArgs(p: PacketData) {
    p.arguments.Some? && |p.arguments.value| > 0
  }

  /** `encode` dereferences every argument while sizing the buffer. */
  predicate Sizable(p: PacketData) {
    !HasArgs(p) || NoNulls(p.arguments.value)
  }

  /** The value `bufferSize` would hold if a short could not overflow. */
  function BufferSize(p: PacketData): (n: nat)
    requires Sizable(p)
    ensures n >= HeaderSize(p.flags)
    ensures !HasArgs(p) ==> n == HeaderSize(p.flags)
  {
    HeaderSize(p.flags) + (if HasArgs(p) then 1 + ArgsSize(Values(p.arguments.value)) else 0)
  }

  /** The argument count byte `(byte) arguments.length`, 0 when there are none. */
  function CountByte(p: PacketData): Byte {
    if HasArgs(p) then ByteBits(|p.arguments.value|) else 0
  }

  /** What follows the header: the count byte and the pairs, written only when
      the count byte is positive as a Java byte. */
  function ArgBlock(p: PacketData): Bytes
    requires Sizable(p)
  {
    if Signed8(CountByte(p)) > 0 then [CountByte(p)] + ArgBytes(Values(p.arguments.value)) else []
  }

  /** `encode`. A null argument fails the sizing loop; the short `bufferSize`
      wraps; a negative capacity fails the allocation; a write past the
      capacity fails the buffer; the bytes the writes leave untouched are 0. */
  function Encode(p: PacketData): (r: Result<Bytes>)
    ensures r.Ok? ==> Sizable(p) && |r.value| == Short(BufferSize(p)) + 2
  {
    if !Sizable(p) then Throw(NullPointer)
    else
      var size := Short(BufferSize(p));
      if size + 2 < 0 then Throw(IllegalArgument)
      else
        var written := BE16(size) + (Header(p) + ArgBlock(p));
        if |written| > size + 2 then Throw(BufferOverflow)
        else
          assert written[..2] == BE16(size);
          assert written[2..2 + HeaderSize(p.flags)] == Header(p);
          Ok(written + Zeros(size + 2 - |written|))
  }

  /** `encode` throws `NullPointerException` exactly when an argument array
      is null. */
  lemma EncodeNull(p: PacketData)
    ensures Encode(p) == Throw(NullPointer) <==> !Sizable(p)
  {
  }

  /** Whatever `encode` returns starts with the (wrapped) buffer size as a
      short and the header, and is exactly that size plus two bytes long. */
  lemma EncodeShape(p: PacketData)
    requires Encode(p).Ok?
    ensures Sizable(p)
    ensures |Encode(p).value| == Short(BufferSize(p)) + 2 >= 2 + HeaderSize(p.flags)
    ensures Encode(p).value[..2] == BE16(Short(BufferSize(p)))
    ensures Encode(p).value[2..2 + HeaderSize(p.flags)] == Header(p)
  {
  }

  /** The packets whose frame fits a short and whose argument count fits a
      positive byte: 0..127 non-null arguments and at most 32767 bytes after
      the length prefix (each argument then has fewer than 32768 bytes). */
  predicate Encodable(p: PacketData) {
    && (!HasArgs(p) || (NoNulls(p.arguments.value) && |p.arguments.value| < 128))
    && BufferSize(p) < 0x8000
  }

  /** For an encodable packet `encode` is exactly the prefix, the header and
      the argument block: the length prefix holds bufferSize and the frame is
      bufferSize+2 bytes long. */
  lemma EncodeLayout(p: PacketData)
    requires Encodable(p)
    ensures Encode(p) == Ok(BE16(BufferSize(p)) + (Header(p) + ArgBlock(p)))
    ensures |Encode(p).value| == BufferSize(p) + 2
    ensures HasArgs(p) ==> CountByte(p) == |p.arguments.value|
                           && ArgBlock(p) == [CountByte(p)] + ArgBytes(Values(p.arguments.value))
    ensures !HasArgs(p) ==> ArgBlock(p) == []
  {
    var size := BufferSize(p);
    assert Short(size) == size;
    if HasArgs(p) {
      var n := |p.arguments.value|;
      assert Signed8(CountByte(p)) == n;
    }
    var written := BE16(size) + (Header(p) + ArgBlock(p));
    assert |written| == size + 2;
    assert written + Zeros(0) == written;
  }

  // ---------------------------------------------------------------------
  // decode

  /** `ByteBuffer.get` when `present`; otherwise 0 and nothing is read. */
  function GetByteIf(present: bool, s: Bytes): (r: Result<(Byte, Bytes)>)
    ensures r.Ok? <==> !present || |s| >= 1
    ensures r.Throw? ==> r.fault == BufferUnderflow
    ensures r.Ok? && present ==> r.value == (s[0], s[1..])
    ensures r.Ok? && !present ==> r.value == (0, s)
  {
    if !present then Ok((0, s))
    else if |s| < 1 then Throw(BufferUnderflow)
    else Ok((s[0], s[1..]))
  }

  /** `ByteBuffer.getInt` when `present`; otherwise 0 and nothing is read. */
  function GetIntIf(present: bool, s: Bytes): (r: Result<(Bits32, Bytes)>)
    ensures r.Ok? <==> !present || |s| >= 4
    ensures r.Throw? ==> r.fault == BufferUnderflow
    ensures r.Ok? && present ==> r.value == (Load32(s), s[4..])
    ensures r.Ok? && !present ==> r.value == (0, s)
  {
    if !present then Ok((0, s))
    else if |s| < 4 then Throw(BufferUnderflow)
    else Ok((Load32(s), s[4..]))
  }

  /** The argument loop of `decode`: `count` times a short length, a new
      array of that length and a bulk read into it. */
  function GetArgs(s: Bytes, count: int): (r: Result<seq<Bytes>>)
    ensures count <= 0 ==> r == Ok([])
    ensures r.Ok? ==> |r.value| == if count <= 0 then 0 else count
    ensures r.Throw? ==> r.fault == BufferUnderflow || r.fault == NegativeArraySize
    decreases if count <= 0 then 0 else count
  {
    if count <= 0 then Ok([])
    else if |s| < 2 then Throw(BufferUnderflow)
    else
      var len := Load16(s);
      if len < 0 then Throw(NegativeArraySize)
      else if |s| - 2 < len then Throw(BufferUnderflow)
      else
        var tail :- GetArgs(s[2 + len..], count - 1);
        Ok([s[2..2 + len]] + tail)
  }

  /** The header reads of `decode`, in wire order; fields the flags do not
      select are 0 and the arguments are null. */
  function DecodeHeader(s: Bytes): (r: Result<(PacketData, Bytes)>)
    ensures r.Throw? ==> r.fault == BufferUnderflow
    ensures r.Ok? ==> var (p, rest) := r.value;
      && |s| == HeaderSize(p.flags) + |rest| && rest == s[HeaderSize(p.flags)..]
      && p.arguments.None? && Unselected(p)
  {
    var f :- GetByteIf(true, s);
    var flags := f.0;
    var m :- GetIntIf(true, f.1);
    var parent :- GetIntIf(FlagSet(flags, FlagMultipartPart), m.1);
    var retry :- GetByteIf(FlagSet(flags, FlagGuaranteed), parent.1);
    var count :- GetByteIf(FlagSet(flags, FlagMultipart), retry.1);
    var index :- GetByteIf(FlagSet(flags, FlagMultipartPart), count.1);
    var command :- GetByteIf(true, index.1);
    Ok((PacketData(flags, m.0, retry.0, index.0, count.0, command.0, parent.0, None), command.1))
  }

  /** The reads of `decode` after the length prefix. */
  function DecodeBody(s: Bytes): (r: Result<PacketData>)
    ensures r.Ok? ==> |s| >= HeaderSize(r.value.flags) && Unselected(r.value)
    ensures r.Ok? ==> (r.value.arguments.None? <==> |s| == HeaderSize(r.value.flags))
    ensures r.Ok? && r.value.arguments.Some? ==> NoNulls(r.value.arguments.value)
  {
    var h :- DecodeHeader(s);
    var header := h.0;
    var rest := h.1;
    if rest == [] then Ok(header)
    else
      var vs :- GetArgs(rest[1..], Signed8(rest[0]));
      Ok(header.(arguments := Some(Wrap(vs))))
  }

  /** `decode`: a frame shorter than the length prefix underflows, a length
      prefix that disagrees with the frame is rejected, and bytes after the
      last argument are ignored. */
  function Decode(data: Bytes): (r: Result<PacketData>)
    ensures |data| < 2 ==> r == Throw(BufferUnderflow)
    ensures |data| >= 2 && |data| - 2 != Load16(data) ==> r == Throw(IllegalArgument)
    ensures r.Ok? ==> |data| >= 2 + HeaderSize(r.value.flags) && |data| - 2 == Load16(data)
    ensures r.Ok? ==> Unselected(r.value)
    ensures r.Ok? ==> (r.value.arguments.None? <==> |data| == 2 + HeaderSize(r.value.flags))
    ensures r.Ok? && r.value.arguments.Some? ==> NoNulls(r.value.arguments.value)
  {
    if |data| < 2 then Throw(BufferUnderflow)
    else if |data| - 2 != Load16(data) then Throw(IllegalArgument)
    else DecodeBody(data[2..])
  }

  /** Every field the flags do not select is 0. */
  predicate Unselected(p: PacketData) {
    && (!p.HasFlag(FlagGuaranteed) ==> p.retryCount == 0)
    && (!p.HasFlag(FlagMultipart) ==> p.partCount == 0)
    && (!p.HasFlag(FlagMultipartPart) ==> p.partIndex == 0 && p.parentMessageId == 0)
  }

  /** What survives a round trip: unselected fields read back as 0 and an
      empty argument array reads back as null. */
  function Canonical(p: PacketData): (c: PacketData)
    ensures Unselected(c) && c.flags == p.flags && c.messageId == p.messageId && c.command == p.command
    ensures HasArgs(p) ==> c.arguments == p.arguments
    ensures !HasArgs(p) ==> c.arguments.None?
  {
    PacketData(p.flags, p.messageId,
      if p.HasFlag(FlagGuaranteed) then p.retryCount else 0,
      if p.HasFlag(FlagMultipartPart) then p.partIndex else 0,
      if p.HasFlag(FlagMultipart) then p.partCount else 0,
      p.command,
      if p.HasFlag(FlagMultipartPart) then p.parentMessageId else 0,
      if HasArgs(p) then p.arguments else None)
  }

  lemma GetByteIfOpt8(present: bool, b: Byte, rest: Bytes)
    ensures GetByteIf(present, Opt8(present, b) + rest) == Ok((if present then b else 0, rest))
  {
    if present {
      assert (Opt8(present, b) + rest)[1..] == rest;
    } else {
      assert Opt8(present, b) + rest == rest;
    }
  }

  lemma GetIntIfOpt32(present: bool, x: Bits32, rest: Bytes)
    ensures GetIntIf(present, Opt32(present, x) + rest) == Ok((if present then x else 0, rest))
  {
    if present {
      Load32BE32(x, rest);
      assert (Opt32(present, x) + rest)[4..] == rest;
    } else {
      assert Opt32(present, x) + rest == rest;
    }
  }

  /** The header reads undo the header writes. */
  lemma HeaderRoundTrip(p: PacketData, rest: Bytes)
    ensures DecodeHeader(Header(p) + rest) == Ok((Canonical(p).(arguments := None), rest))
  {
    var part := p.HasFlag(FlagMultipartPart);
    var g := p.HasFlag(FlagGuaranteed);
    var m := p.HasFlag(FlagMultipart);
    var s6 := [p.command] + rest;
    var s5 := Opt8(part, p.partIndex) + s6;
    var s4 := Opt8(m, p.partCount) + s5;
    var s3 := Opt8(g, p.retryCount) + s4;
    var s2 := Opt32(part, p.parentMessageId) + s3;
    var s1 := BE32(p.messageId) + s2;
    assert Header(p) + rest == [p.flags] + s1;
    assert ([p.flags] + s1)[1..] == s1;
    Load32BE32(p.messageId, s2);
    assert s1[4..] == s2;
    GetIntIfOpt32(part, p.parentMessageId, s3);
    GetByteIfOpt8(g, p.retryCount, s4);
    GetByteIfOpt8(m, p.partCount, s5);
    GetByteIfOpt8(part, p.partIndex, s6);
    assert s6[1..] == rest;
  }

  /** One turn of the argument loop reads back one (length, bytes) pair. */
  lemma GetArgsStep(a: Bytes, rest: Bytes, count: int)
    requires |a| < 0x8000 && count > 0
    ensures GetArgs(BE16(|a|) + a + rest, count) ==
      var tail := GetArgs(rest, count - 1);
      if tail.Ok? then Ok([a] + tail.value) else Throw(tail.fault)
  {
    var s := BE16(|a|) + a + rest;
    Load16BE16(|a|, a + rest);
    assert s == BE16(|a|) + (a + rest);
    assert s[2..2 + |a|] == a;
    assert s[2 + |a|..] == rest;
  }

  lemma {:induction false} ArgsRoundTrip(vs: seq<Bytes>, rest: Bytes)
    requires ArgsSize(vs) < 0x8000
    ensures GetArgs(ArgBytes(vs) + rest, |vs|) == Ok(vs)
  {
    if vs != [] {
      var a, tl := vs[0], vs[1..];
      var t := ArgBytes(tl) + rest;
      assert Short(|a|) == |a|;
      assert ArgBytes(vs) == BE16(|a|) + a + ArgBytes(tl);
      assert ArgBytes(vs) + rest == BE16(|a|) + a + t;
      ArgsRoundTrip(tl, rest);
      assert GetArgs(t, |vs| - 1) == Ok(tl);
      GetArgsStep(a, t, |vs|);
      assert GetArgs(BE16(|a|) + a + t, |vs|) == Ok([a] + tl);
      assert [a] + tl == vs;
    }
  }

  /** Round trip: decoding the frame `encode` builds gives back the packet,
      up to the fields the flags do not carry and an empty argument array,
      which comes back as null. */
  lemma DecodeEncode(p: PacketData)
    requires Encodable(p)
    ensures Encode(p).Ok? && Decode(Encode(p).value) == Ok(Canonical(p))
  {
    EncodeLayout(p);
    var size := BufferSize(p);
    var body := Header(p) + ArgBlock(p);
    var data := Encode(p).value;
    Load16BE16(size, body);
    assert data[2..] == body;
    assert Decode(data) == DecodeBody(body);
    HeaderRoundTrip(p, ArgBlock(p));
    if HasArgs(p) {
      var args := p.arguments.value;
      var vs := Values(args);
      var block := ArgBlock(p);
      assert block[0] == |args| && block[1..] == ArgBytes(vs) + [];
      ArgsRoundTrip(vs, []);
      assert Wrap(vs) == args;
    }
  }

  /** Length rejection: a frame with bytes appended is rejected. */
  lemma DecodeRejectsExtended(p: PacketData, extra: Bytes)
    requires Encodable(p) && extra != []
    ensures Decode(Encode(p).value + extra) == Throw(IllegalArgument)
  {
    EncodeLayout(p);
    var data := Encode(p).value;
    Load16BE16(BufferSize(p), Header(p) + ArgBlock(p));
    assert (data + extra)[0] == data[0] && (data + extra)[1] == data[1];
  }

  /** Length rejection: a frame cut short by at least one byte, but still
      holding its length prefix, is rejected. */
  lemma DecodeRejectsTruncated(p: PacketData, keep: nat)
    requires Encodable(p) && 2 <= keep < |Encode(p).value|
    ensures Decode(Encode(p).value[..keep]) == Throw(IllegalArgument)
  {
    EncodeLayout(p);
    var data := Encode(p).value;
    Load16BE16(BufferSize(p), Header(p) + ArgBlock(p));
    assert data[..keep][0] == data[0] && data[..keep][1] == data[1];
  }

  // ---------------------------------------------------------------------
  // hasPacket

  /** The buffered bytes are exactly one frame: at least the length prefix,
      and as many bytes after it as the prefix declares. */
  predicate Framed(buffered: Bytes) {
    |buffered| >= 2 && |buffered| - 2 == Load16(buffered)
  }

  /** `hasPacket`: when the buffered bytes are exactly one frame it decodes
      them and, on success, moves the bytes behind the frame to the front and
      resets the position to 0; otherwise, and when decoding throws, the
      buffer is left as it was. */
  method HasPacket(data: ByteBuffer) returns (r: Result<Option<PacketData>>)
    requires data.Valid()
    modifies data, data.content
    ensures data.Valid()
    ensures !Framed(old(data.Buffered())) ==>
      r == Ok(None) && data.position == old(data.position) && data.content[..] == old(data.content[..])
    ensures Framed(old(data.Buffered())) && Decode(old(data.Buffered())).Throw? ==>
      && r == Throw(Decode(old(data.Buffered())).fault)
      && data.position == old(data.position) && data.content[..] == old(data.content[..])
    ensures Framed(old(data.Buffered())) && Decode(old(data.Buffered())).Ok? ==>
      && r == Ok(Some(Decode(old(data.Buffered())).value))
      && data.position == 0
      && data.content[..] == old(data.content[data.position..]) + old(data.content[data.content.Length - data.position..])
  {
    if data.position < 2 {
      return Ok(None);
    }
    var packetLength := Load16(data.content[..2]);
    if data.position - 2 != packetLength {
      return Ok(None);
    }
    var positionBefore := data.position;
    var buffer := data.content[..packetLength + 2];
    assert buffer == data.Buffered();
    var packet :- Decode(buffer);
    data.Compact();
    data.SetPosition(positionBefore - packetLength - 2);
    return Ok(Some(packet));
  }

  /** One encoded packet in an otherwise empty buffer is one frame, and it
      decodes to the packet. */
  lemma EncodedIsFramed(p: PacketData)
    requires Encodable(p)
    ensures Framed(Encode(p).value) && Decode(Encode(p).value) == Ok(Canonical(p))
  {
    DecodeEncode(p);
  }

  /** Two frames buffered back to back (one datagram carrying two, or a
      second datagram arriving before the first frame was taken) are never
      a frame: the buffered count exceeds the first length prefix. */
  lemma TwoFramesNotFramed(p: PacketData, more: Bytes)
    requires Encodable(p) && more != []
    ensures !Framed(Encode(p).value + more)
  {
    DecodeRejectsExtended(p, more);
  }

  // ---------------------------------------------------------------------
  // bytesToHex

  /** The uppercase hex digit of a value 0..15. */
  function UpperDigit(n: int): (c: char)
    requires 0 <= n < 16
    ensures ('0' <= c <= '9') || ('A' <= c <= 'F')
  {
    "0123456789ABCDEF"[n]
  }

  /** The value of an uppercase hex digit. */
  function UpperValue(c: char): (n: int)
    ensures 0 <= n < 16
  {
    if '0' <= c <= '9' then c as int - '0' as int
    else if 'A' <= c <= 'F' then c as int - 'A' as int + 10
    else 0
  }

  /** `bytesToHex`: two uppercase hex characters per byte, high nibble first. */
  function BytesToHex(bytes: Bytes): (r: string)
    ensures |r| == 2 * |bytes|
    ensures forall j :: 0 <= j < |bytes| ==>
      r[2 * j] == UpperDigit(bytes[j] / 16) && r[2 * j + 1] == UpperDigit(bytes[j] % 16)
  {
    if bytes == [] then []
    else
      var r := [UpperDigit(bytes[0] / 16), UpperDigit(bytes[0] % 16)] + BytesToHex(bytes[1..]);
      assert forall j :: 1 <= j < |bytes| ==> r[2 * j] == BytesToHex(bytes[1..])[2 * (j - 1)];
      r
  }

  /** Reading the hex text back two characters at a time. */
  function HexToBytes(s: string): Bytes
    decreases |s|
  {
    if |s| < 2 then [] else [UpperValue(s[0]) * 16 + UpperValue(s[1])] + HexToBytes(s[2..])
  }

  lemma UpperDigitValue(n: int)
    requires 0 <= n < 16
    ensures UpperValue(UpperDigit(n)) == n
  {
  }

  /** `bytesToHex` loses nothing: the bytes can be read back from the text. */
  lemma {:induction false} HexToBytesBytesToHex(bytes: Bytes)
    ensures HexToBytes(BytesToHex(bytes)) == bytes
  {
    if bytes != [] {
      var b := bytes[0];
      var s := BytesToHex(bytes);
      UpperDigitValue(b / 16);
      UpperDigitValue(b % 16);
      assert s[2..] == BytesToHex(bytes[1..]);
      HexToBytesBytesToHex(bytes[1..]);
    }
  }
}

=== FILE: delivery.dfy ===
/** What a send does, as `BasePacketReceiver.sendPacket` performs it, and
    the argument readers the command handlers use. These are the
    specification functions the receiver's methods are proved against. */
module Delivery {
  import opened Outcomes
  import opened ByteOrder
  import opened Addressing
  import opened Lists
  import opened Packets
  import opened Codec
  import opened Endpoints
  import opened Tracking
  import opened Transport

  // ---------------------------------------------------------------------
  // Argument readers

  /** `ByteBuffer.wrap(a).getInt()`: the first four bytes, big-endian. */
  function WrapGetInt(a: Arg): (r: Result<Bits32>)
    ensures a.None? <==> r == Throw(NullPointer)
    ensures r == Throw(BufferUnderflow) <==> a.Some? && |a.value| < 4
    ensures r.Ok? ==> a.Some? && |a.value| >= 4 && BE32(r.value) == a.value[..4]
  {
    if a.None? then Throw(NullPointer)
    else if |a.value| < 4 then Throw(BufferUnderflow)
    else
      var four := a.value[..4];
      BE32Load32(four);
      Ok(Load32(four))
  }

  /** `ByteBuffer.wrap(a).get()`: the first byte. */
  function WrapGet(a: Arg): (r: Result<Byte>)
    ensures a.None? <==> r == Throw(NullPointer)
    ensures r == Throw(BufferUnderflow) <==> a == Some([])
    ensures r.Ok? ==> a.Some? && |a.value| >= 1 && [r.value] == a.value[..1]
  {
    if a.None? then Throw(NullPointer)
    else if a.value == [] then Throw(BufferUnderflow)
    else Ok(a.value[0])
  }

  /** An `int` written with `ByteBuffer.allocate(4).putInt(v).array()` reads back. */
  lemma WrapGetIntBE32(v: Bits32)
    ensures WrapGetInt(Some(BE32(v))) == Ok(v)
  {
    Load32BE32(v, []);
    assert BE32(v) + [] == BE32(v);
  }

  // ---------------------------------------------------------------------
  // One send

  /** Whether `sendPacket` records the packet in the sent pool: a
      guaranteed packet that has not been retried. */
  predicate Tracked(p: PacketData) {
    p.retryCount == 0 && p.HasFlag(FlagGuaranteed)
  }

  /** The pair `sendPacket` addresses: the peer's local pair when it has a
      local address and `isLocal` holds for our own local address, its
      external pair otherwise. */
  function Route(ep: EndPoint, ownLocal: Address): (r: (Option<Address>, Bits32))
    reads ep`localAddress, ep`localPort, ep`externalAddress, ep`externalPort
    ensures r != (ep.externalAddress, ep.externalPort) ==>
              && r == (ep.localAddress, ep.localPort) && ep.localAddress.Some?
              && !IsLoopback(ep.localAddress.value) && ep.externalAddress == Some(ownLocal)
    ensures r.0.Some? ==> ep.IsAddress(r.0, r.1)
    ensures r.0.None? ==> ep.externalAddress.None?
  {
    if ep.localAddress.Some? && ep.IsLocal(ownLocal) then (ep.localAddress, ep.localPort)
    else (ep.externalAddress, ep.externalPort)
  }

  /** How `sendPacket` ends: `encode`'s exception comes first, then the one
      from dereferencing a null endpoint. */
  function SendResult(ep: EndPoint?, p: PacketData): (r: Result<()>)
    ensures r.Ok? <==> ep != null && Encode(p).Ok?
    ensures r.Throw? && Encode(p).Ok? ==> r.fault == NullPointer
  {
    if Encode(p).Throw? then Throw(Encode(p).fault)
    else if ep == null then Throw(NullPointer)
    else Ok(())
  }

  /** The datagrams one send queues: the encoded packet, to the routed pair,
      when the send succeeds; nothing otherwise. */
  function Emission(ep: EndPoint?, p: PacketData, ownLocal: Address): (ds: seq<Datagram>)
    reads {ep}`localAddress, {ep}`localPort, {ep}`externalAddress, {ep}`externalPort
    ensures |ds| == if SendResult(ep, p).Ok? then 1 else 0
  {
    if SendResult(ep, p).Ok? then
      var (address, port) := Route(ep, ownLocal);
      [Datagram(address, port, Encode(p).value)]
    else []
  }

  /** What a send queues for an encodable packet decodes to that packet, up
      to the fields the frame does not carry. */
  lemma EmissionDecodes(ep: EndPoint?, p: PacketData, ownLocal: Address)
    requires Encodable(p)
    ensures forall d :: d in Emission(ep, p, ownLocal) ==> Framed(d.data) && Decode(d.data) == Ok(Canonical(p))
  {
    EncodedIsFramed(p);
  }

  /** The (endpoint, packet) entries one send records in the sent pool. */
  function Recorded(ep: EndPoint?, p: PacketData): (adds: seq<(EndPoint, PacketData)>)
    ensures |adds| <= 1
    ensures adds != [] <==> ep != null && Encode(p).Ok? && Tracked(p)
  {
    if ep != null && Encode(p).Ok? && Tracked(p) then [(ep, p)] else []
  }

  /** A `Result<()>` carried over to a handler's boolean result. */
  function Returning(r: Result<()>, b: bool): (s: Result<bool>)
    ensures s.Ok? <==> r.Ok?
    ensures s.Ok? ==> s.value == b
    ensures s.Throw? ==> s.fault == r.fault
  {
    if r.Throw? then Throw(r.fault) else Ok(b)
  }

  // ---------------------------------------------------------------------
  // Pool entries

  /** A pool entry with exactly these fields. */
  ghost predicate Entry(h: HandledPacket, ep: EndPoint, p: PacketData, timeLastSent: int, retryCount: int)
    reads h
  {
    && h.endPoint == ep && h.packet == p && h.timeLastSent == timeLastSent
    && h.retryCount == retryCount && !h.markedForRemoval
  }

  /** `hs` holds one new, unsent, unmarked entry per element of `adds`, in order. */
  ghost predicate Entries(hs: seq<HandledPacket>, adds: seq<(EndPoint, PacketData)>)
    reads hs
  {
    |hs| == |adds| && forall k :: 0 <= k < |adds| ==> Entry(hs[k], adds[k].0, adds[k].1, 0, 0)
  }

  /** `after` is `before` followed by the entries of `adds`. */
  ghost predicate Grown(after: seq<HandledPacket>, before: seq<HandledPacket>, adds: seq<(EndPoint, PacketData)>)
    reads after
  {
    |before| <= |after| && after[..|before|] == before && Entries(after[|before|..], adds)
  }

  /** Two growths in a row are one growth by both lists of entries. */
  lemma GrownTwice(after: seq<HandledPacket>, mid: seq<HandledPacket>, before: seq<HandledPacket>,
                   adds: seq<(EndPoint, PacketData)>, more: seq<(EndPoint, PacketData)>)
    requires |before| <= |mid| && mid[..|before|] == before && Entries(mid[|before|..], adds)
    requires Grown(after, mid, more)
    ensures Grown(after, before, adds + more)
  {
    assert after[|before|..] == mid[|before|..] + after[|mid|..];
    assert after[..|before|] == mid[..|before|];
  }

  /** The packet of an entry after `update` has bumped its retry count
      (a byte, so it wraps). */
  function Bumped(p: PacketData): (q: PacketData)
    ensures q.retryCount == (p.retryCount + 1) % 0x100
    ensures q == p.(retryCount := q.retryCount)
  {
    p.(retryCount := ByteBits(p.retryCount + 1))
  }

  /** The mutable fields of a pool entry, as values. */
  datatype Stamp = Stamp(packet: PacketData, timeLastSent: int, retryCount: int, markedForRemoval: bool)

  function StampOf(h: HandledPacket): Stamp
    reads h`packet, h`timeLastSent, h`retryCount, h`markedForRemoval
  {
    Stamp(h.packet, h.timeLastSent, h.retryCount, h.markedForRemoval)
  }

  /** An entry's fields after one pass of `update`'s loop: stamped with the
      time, both retry counts one higher and the mark left alone. */
  function Retried(s: Stamp, now: int): (t: Stamp)
    ensures t.timeLastSent == now && t.retryCount == Short(s.retryCount + 1)
    ensures t.packet == Bumped(s.packet) && t.markedForRemoval == s.markedForRemoval
  {
    Stamp(Bumped(s.packet), now, Short(s.retryCount + 1), s.markedForRemoval)
  }

  /** An acknowledged-pool entry after its packet came again: a packet
      sent afresh (retry count 0) replaces the stored one; a retried copy
      leaves the entry as it was. */
  function Restored(s: Stamp, p: PacketData): (t: Stamp)
    ensures p.retryCount == 0 ==> t == s.(packet := p)
    ensures p.retryCount != 0 ==> t == s
  {
    if p.retryCount == 0 then s.(packet := p) else s
  }

  /** The mutable fields of each entry, in order. */
  function Stamps(hs: seq<HandledPacket>): (ss: seq<Stamp>)
    reads hs
    ensures |ss| == |hs| && forall i :: 0 <= i < |hs| ==> ss[i] == StampOf(hs[i])
  {
    seq(|hs|, i requires 0 <= i < |hs| reads hs =>
      StampOf(hs[i]))
  }

  /** Every entry after one pass of `update`'s loop. */
  function RetriedAll(ss: seq<Stamp>, now: int): (ts: seq<Stamp>)
    ensures |ts| == |ss| && forall i :: 0 <= i < |ss| ==> ts[i] == Retried(ss[i], now)
  {
    seq(|ss|, i requires 0 <= i < |ss| => Retried(ss[i], now))
  }

  /** Each entry's endpoint is non-null and its bumped packet encodes, so
      that every send of `update`'s loop succeeds. */
  predicate AllSendable(hs: seq<HandledPacket>, ss: seq<Stamp>) {
    |hs| == |ss| && forall i :: 0 <= i < |hs| ==> SendResult(hs[i].endPoint, Bumped(ss[i].packet)).Ok?
  }

  /** One send of `update`'s loop, as values: the endpoint, the pair the
      packet is routed to, the packet and what `encode` made of it. */
  datatype Job = Job(endPoint: EndPoint, route: (Option<Address>, Bits32), packet: PacketData, frame: Result<Bytes>)

  /** The job `sendPacket(ep, p)` performs. */
  function JobFor(ep: EndPoint, p: PacketData, ownLocal: Address): (job: Job)
    reads ep`localAddress, ep`localPort, ep`externalAddress, ep`externalPort
    ensures job.endPoint == ep && job.packet == p && job.route == Route(ep, ownLocal)
  {
    Job(ep, Route(ep, ownLocal), p, Encode(p))
  }

  /** Each entry's job for its current packet, in order. */
  function Jobs(hs: seq<HandledPacket>, ownLocal: Address): (jobs: seq<Job>)
    reads hs, set h | h in hs :: h.endPoint
    ensures |jobs| == |hs|
    ensures forall k :: 0 <= k < |hs| ==> jobs[k] == JobFor(hs[k].endPoint, hs[k].packet, ownLocal)
  {
    seq(|hs|, k requires 0 <= k < |hs| reads hs, (set h | h in hs :: h.endPoint) =>
      JobFor(hs[k].endPoint, hs[k].packet, ownLocal))
  }

  /** The datagram one job queues, when its packet encoded. */
  function Sent(job: Job): (ds: seq<Datagram>)
    ensures |ds| == if job.frame.Ok? then 1 else 0
  {
    if job.frame.Ok? then [Datagram(job.route.0, job.route.1, job.frame.value)] else []
  }

  /** The entry one job records, when its packet encoded and is tracked. */
  function Records(job: Job): (adds: seq<(EndPoint, PacketData)>)
    ensures |adds| <= 1
  {
    if job.frame.Ok? && Tracked(job.packet) then [(job.endPoint, job.packet)] else []
  }

  /** The datagrams a run of jobs queues, in order. */
  function Emissions(jobs: seq<Job>): (ds: seq<Datagram>)
    ensures |ds| <= |jobs|
    decreases |jobs|
  {
    if jobs == [] then [] else Emissions(jobs[..|jobs| - 1]) + Sent(jobs[|jobs| - 1])
  }

  /** The entries the same jobs record in the sent pool, in order. */
  function Recordings(jobs: seq<Job>): (adds: seq<(EndPoint, PacketData)>)
    ensures |adds| <= |jobs|
    decreases |jobs|
  {
    if jobs == [] then [] else Recordings(jobs[..|jobs| - 1]) + Records(jobs[|jobs| - 1])
  }

  /** One more job queues its datagrams after those already queued, and
      records its entry after those already recorded. */
  lemma EmissionsSnoc(queued: seq<Datagram>, jobs: seq<Job>, job: Job)
    ensures queued + Emissions(jobs + [job]) == queued + Emissions(jobs) + Sent(job)
    ensures Recordings(jobs + [job]) == Recordings(jobs) + Records(job)
  {
    assert (jobs + [job])[..|jobs|] == jobs;
  }

  /** A job does what `sendPacket` does for its endpoint: the same datagrams
      and the same recorded entries. */
  lemma JobIsSend(ep: EndPoint, p: PacketData, ownLocal: Address)
    ensures Sent(JobFor(ep, p, ownLocal)) == Emission(ep, p, ownLocal)
    ensures Records(JobFor(ep, p, ownLocal)) == Recorded(ep, p)
  {
  }

  /** Only a wrapped retry count brings a resend back into the sent pool:
      when no packet reads 0 after the bump, nothing is recorded. */
  lemma {:induction false} NothingRetracked(jobs: seq<Job>)
    requires forall k :: 0 <= k < |jobs| ==> !Tracked(jobs[k].packet)
    ensures Recordings(jobs) == []
    decreases |jobs|
  {
    if jobs != [] {
      NothingRetracked(jobs[..|jobs| - 1]);
    }
  }


  // ---------------------------------------------------------------------
  // Packets the receiver builds

  /** The ACKNOWLEDGE answering a guaranteed packet: a new id, the packet's
      id and its retry count widened to an `int`. */
  function AckFor(messageId: Bits32, packet: PacketData): (ack: PacketData)
    ensures ack.flags == 0 && ack.command == CommandAcknowledge && !Tracked(ack)
    ensures ack.Argument(0) == Some(BE32(packet.messageId))
    ensures ack.Argument(1) == Some(BE32(SignExtend(packet.retryCount)))
  {
    var ack := Acknowledge(messageId, packet.messageId, SignExtend(packet.retryCount));
    BE32Load32(ack.Argument(0).value);
    BE32Load32(ack.Argument(1).value);
    assert !ack.HasFlag(FlagGuaranteed) by { FlagSetBits(0, FlagGuaranteed); NoBitsOfZero(0); }
    ack
  }

  /** An acknowledgement always encodes. */
  lemma AckEncodes(messageId: Bits32, packet: PacketData)
    ensures Encode(AckFor(messageId, packet)).Ok?
  {
    var ack := AckFor(messageId, packet);
    var args := ack.arguments.value;
    assert |args| == 2 && NoNulls(args);
    var vs := Values(args);
    assert ArgsSize(vs) == 2 + 4 + ArgsSize(vs[1..]);
    assert ArgsSize(vs[1..]) == 2 + 4 + ArgsSize(vs[2..]);
    assert Encodable(ack);
    EncodeLayout(ack);
  }

  /** The keepalive `new PacketData(0, id, COMMAND_NOP, null)`. */
  function Nop(messageId: Bits32): (p: PacketData)
    ensures p.flags == 0 && p.command == CommandNop && p.arguments.None? && !Tracked(p)
    ensures Encode(p).Ok? && Encodable(p)
  {
    var p := MakeSimple(0, messageId, CommandNop, None);
    assert !p.HasFlag(FlagGuaranteed) by { FlagSetBits(0, FlagGuaranteed); NoBitsOfZero(0); }
    assert Encodable(p);
    EncodeLayout(p);
    p
  }

  /** How many of the endpoints are keepalive peers. */
  function KeepAliveCount(eps: seq<EndPoint>): (n: nat)
    reads eps`keepAlive
    ensures n <= |eps|
  {
    if eps == [] then 0
    else KeepAliveCount(eps[..|eps| - 1]) + (if eps[|eps| - 1].keepAlive then 1 else 0)
  }

  /** The datagrams a keepalive round queues: a NOP to each keepalive
      endpoint, in list order, under consecutive ids from `first`. */
  function Pings(eps: seq<EndPoint>, first: Bits32, ownLocal: Address): (ds: seq<Datagram>)
    reads eps`keepAlive, eps`localAddress, eps`localPort, eps`externalAddress, eps`externalPort
    ensures |ds| <= KeepAliveCount(eps)
  {
    if eps == [] then []
    else
      var k := |eps| - 1;
      Pings(eps[..k], first, ownLocal)
      + (if eps[k].keepAlive then Emission(eps[k], Nop(Add32(first, KeepAliveCount(eps[..k]))), ownLocal) else [])
  }

  /** A keepalive round sends one datagram per keepalive endpoint, and the
      j-th decodes to a NOP with id `first + j` (wrapping). */
  lemma {:induction false} PingsAreNops(eps: seq<EndPoint>, first: Bits32, ownLocal: Address)
    ensures |Pings(eps, first, ownLocal)| == KeepAliveCount(eps)
    ensures forall j :: 0 <= j < |Pings(eps, first, ownLocal)| ==>
      var d := Pings(eps, first, ownLocal)[j].data;
      Framed(d) && Decode(d) == Ok(Nop(Add32(first, j)))
    decreases |eps|
  {
    if eps != [] {
      var k := |eps| - 1;
      PingsAreNops(eps[..k], first, ownLocal);
      if eps[k].keepAlive {
        var id := Add32(first, KeepAliveCount(eps[..k]));
        EmissionDecodes(eps[k], Nop(id), ownLocal);
        assert Canonical(Nop(id)) == Nop(id);
      }
    }
  }

  // ---------------------------------------------------------------------
  // SHOW: the endpoint table and the reader of its reply

  /** The five arguments SHOW lists for one endpoint; the two
      `getAddress()` calls fail on a null address. */
  function Row(e: EndPoint): (r: Result<seq<Arg>>)
    reads e
    ensures r.Throw? <==> e.externalAddress.None? || e.localAddress.None?
    ensures r.Throw? ==> r.fault == NullPointer
    ensures r.Ok? ==>
      && |r.value| == 5 && r.value[0] == e.id && r.value[1] == e.externalAddress
      && r.value[3] == e.localAddress && WrapGetInt(r.value[2]) == Ok(e.externalPort)
      && WrapGetInt(r.value[4]) == Ok(e.localPort)
  {
    if e.externalAddress.None? || e.localAddress.None? then Throw(NullPointer)
    else
      WrapGetIntBE32(e.externalPort);
      WrapGetIntBE32(e.localPort);
      Ok([e.id, e.externalAddress, Some(BE32(e.externalPort)), e.localAddress, Some(BE32(e.localPort))])
  }

  /** The rows of all endpoints in list order, or the first failure. */
  function Rows(eps: seq<EndPoint>): (r: Result<seq<Arg>>)
    reads eps
    ensures r.Ok? ==> |r.value| == 5 * |eps|
    ensures r.Throw? ==> r.fault == NullPointer
    decreases |eps|
  {
    if eps == [] then Ok([])
    else
      var init :- Rows(eps[..|eps| - 1]);
      var row :- Row(eps[|eps| - 1]);
      Ok(init + row)
  }

  /** Row k of the table is the row of endpoint k. */
  lemma {:induction false} RowsAt(eps: seq<EndPoint>, k: nat)
    requires Rows(eps).Ok? && k < |eps|
    ensures Row(eps[k]).Ok? && Rows(eps).value[5 * k..5 * k + 5] == Row(eps[k]).value
    decreases |eps|
  {
    var init := eps[..|eps| - 1];
    if k < |eps| - 1 {
      RowsAt(init, k);
      assert init[k] == eps[k];
    }
  }

  /** Once a prefix of the table fails, the whole table fails. */
  lemma {:induction false} RowsThrowExtends(eps: seq<EndPoint>, k: nat)
    requires k <= |eps| && Rows(eps[..k]).Throw?
    ensures Rows(eps).Throw?
    decreases |eps| - k
  {
    if k < |eps| {
      assert eps[..k + 1][..k] == eps[..k];
      RowsThrowExtends(eps, k + 1);
    } else {
      assert eps[..k] == eps;
    }
  }

  /** What reading one row of a SHOW reply (at index i) can throw, in the
      order the reader meets it: the two ports, then the null id. */
  function ReadRow(packet: PacketData, i: nat): (r: Result<()>)
    ensures r.Ok? ==> packet.Argument(i).Some?
  {
    var externalPort :- WrapGetInt(packet.Argument(i + 2));
    var localPort :- WrapGetInt(packet.Argument(i + 4));
    if packet.Argument(i).None? then Throw(NullPointer) else Ok(())
  }

  /** Reading the rows from index i on, in steps of five, while five remain. */
  function ReadRows(packet: PacketData, i: nat): (r: Result<()>)
    ensures r.Throw? ==> r.fault == NullPointer || r.fault == BufferUnderflow
    ensures r.Ok? ==> forall j :: i <= j && j + 5 <= packet.ArgumentCount() && (j - i) % 5 == 0 ==> packet.Argument(j).Some?
    decreases packet.ArgumentCount() - i
  {
    if i + 5 > packet.ArgumentCount() then Ok(())
    else
      var row :- ReadRow(packet, i);
      ReadRows(packet, i + 5)
  }

  /** The reader accepts the table the SHOW handler sends when every listed
      endpoint has an id: reply and reader agree on the layout. */
  lemma ShowReplyReadable(eps: seq<EndPoint>, messageId: Bits32)
    requires Rows(eps).Ok? && forall e :: e in eps ==> e.id.Some?
    ensures ReadRows(ShowReply(messageId, Rows(eps).value), 2).Ok?
  {
    var rows := Rows(eps).value;
    var reply := ShowReply(messageId, rows);
    assert reply.ArgumentCount() == 2 + 5 * |eps|;
    ShowRowsFrom(eps, reply, 0);
  }

  lemma {:induction false} ShowRowsFrom(eps: seq<EndPoint>, reply: PacketData, k: nat)
    requires Rows(eps).Ok? && forall e :: e in eps ==> e.id.Some?
    requires reply.arguments.Some? && |reply.arguments.value| == 2 + 5 * |eps|
    requires reply.arguments.value[2..] == Rows(eps).value
    requires k <= |eps|
    ensures ReadRows(reply, 2 + 5 * k).Ok?
    decreases |eps| - k
  {
    if k < |eps| {
      RowsAt(eps, k);
      var row := Row(eps[k]).value;
      var i := 2 + 5 * k;
      forall j | 0 <= j < 5 ensures reply.Argument(i + j) == row[j] {
        assert reply.arguments.value[i + j] == Rows(eps).value[5 * k + j];
      }
      assert ReadRow(reply, i).Ok?;
      ShowRowsFrom(eps, reply, k + 1);
    }
  }

  /** The RESPONSE(SHOW) listing the endpoint table: the sub-command, then
      the rows. */
  function ShowReply(messageId: Bits32, rows: seq<Arg>): (p: PacketData)
    ensures p.flags == FlagGuaranteed && p.command == CommandResponse && p.messageId == messageId
    ensures p.ArgumentCount() == 2 + |rows| && p.arguments.value[2..] == rows
    ensures WrapGet(p.Argument(0)) == Ok(CommandShow) && WrapGet(p.Argument(1)) == Ok(CommandShowEndPoints)
  {
    Response(FlagGuaranteed, messageId, CommandShow, Some([Some([CommandShowEndPoints])] + rows))
  }

  // ---------------------------------------------------------------------
  // Identities on the wire

  /** Every known address of the identity resolves: `getByAddress` gives
      it back rather than null. */
  predicate Resolvable(who: Identity) {
    && ByAddress(who.externalAddress) == who.externalAddress
    && ByAddress(who.localAddress) == who.localAddress
  }

  /** The five identity arguments from index i on, as GREET, HELLO and
      RESPONSE(PUNCH) read them: an address that does not resolve becomes
      null, and the external port, then the local port, may throw. */
  function ReadIdentity(packet: PacketData, i: nat): (r: Result<Identity>)
    ensures r.Throw? <==> WrapGetInt(packet.Argument(i + 2)).Throw? || WrapGetInt(packet.Argument(i + 4)).Throw?
    ensures r.Throw? && WrapGetInt(packet.Argument(i + 2)).Throw? ==> r.fault == WrapGetInt(packet.Argument(i + 2)).fault
    ensures r.Ok? ==> Resolvable(r.value) && r.value.id == packet.Argument(i)
  {
    var externalAddress := ByAddress(packet.Argument(i + 1));
    var externalPort :- WrapGetInt(packet.Argument(i + 2));
    var localAddress := ByAddress(packet.Argument(i + 3));
    var localPort :- WrapGetInt(packet.Argument(i + 4));
    Ok(Identity(packet.Argument(i), externalAddress, externalPort, localAddress, localPort))
  }

  /** What GREET and HELLO carry is what the receiver reads: an identity
      whose addresses resolve comes back whole. */
  lemma GreetReadsBack(messageId: Bits32, who: Identity)
    requires Resolvable(who)
    ensures ReadIdentity(Greet(messageId, Some(who)).value, 0) == Ok(who)
    ensures ReadIdentity(Hello(messageId, Some(who)).value, 0) == Ok(who)
  {
    WrapGetIntBE32(who.externalPort);
    WrapGetIntBE32(who.localPort);
  }

  // ---------------------------------------------------------------------
  // REGISTER and its reply

  /** What the introducer reads from a REGISTER that the node sends: its
      id, its local address and its local port. */
  lemma RegisterReadsBack(messageId: Bits32, id: Arg, localAddress: Address, localPort: Bits32)
    requires |localAddress| == 4 || |localAddress| == 16
    ensures var p := Register(messageId, id, Some(localAddress), localPort);
      && p.ArgumentCount() == 3 && p.Argument(0) == id
      && ByAddress(p.Argument(1)) == Some(localAddress) && WrapGetInt(p.Argument(2)) == Ok(localPort)
  {
    WrapGetIntBE32(localPort);
  }

  /** The RESPONSE(REGISTER) the introducer sends back: status 1 and the
      sender's external address and port as the introducer sees them. */
  function RegisterReply(messageId: Bits32, externalAddress: Address, externalPort: Bits32): (p: PacketData)
    ensures p.flags == FlagGuaranteed && p.command == CommandResponse && p.messageId == messageId
    ensures p.ArgumentCount() == 4 && WrapGet(p.Argument(0)) == Ok(CommandRegister)
  {
    Response(FlagGuaranteed, messageId, CommandRegister,
             Some([Some([1]), Some(externalAddress), Some(BE32(externalPort))]))
  }

  /** The RESPONSE(REGISTER) reader after its sub-command: the status byte
      (which throws on a missing argument); for status 1 the raw address
      (whose `wrap` throws on null) and the port. The result is the pair to
      store as the node's external address, if any. */
  function RegisteredAs(packet: PacketData): (r: Result<Option<(Option<Address>, Bits32)>>)
    ensures packet.ArgumentCount() < 2 ==> r == Throw(NullPointer)
    ensures r.Ok? && r.value.Some? ==> WrapGet(packet.Argument(1)) == Ok(1) && ByAddress(packet.Argument(2)) == r.value.value.0
    ensures WrapGet(packet.Argument(1)).Ok? && WrapGet(packet.Argument(1)) != Ok(1) ==> r == Ok(None)
  {
    var status :- WrapGet(packet.Argument(1));
    if status != 1 then Ok(None)
    else if packet.Argument(2).None? then Throw(NullPointer)
    else
      var externalPort :- WrapGetInt(packet.Argument(3));
      Ok(Some((ByAddress(packet.Argument(2)), externalPort)))
  }

  /** The registering node learns exactly the external pair the introducer
      saw. */
  lemma RegisterReplyReadsBack(messageId: Bits32, externalAddress: Address, externalPort: Bits32)
    requires |externalAddress| == 4 || |externalAddress| == 16
    ensures RegisteredAs(RegisterReply(messageId, externalAddress, externalPort)) == Ok(Some((Some(externalAddress), externalPort)))
  {
    WrapGetIntBE32(externalPort);
  }

  // ---------------------------------------------------------------------
  // PUNCH and its reply

  /** The RESPONSE(PUNCH) for a registered target: status 1 and the
      target's row. */
  function PunchFound(messageId: Bits32, row: seq<Arg>): (p: PacketData)
    ensures p.flags == FlagGuaranteed && p.command == CommandResponse && p.messageId == messageId
    ensures p.ArgumentCount() == 2 + |row| && p.arguments.value[2..] == row
    ensures WrapGet(p.Argument(0)) == Ok(CommandPunch) && WrapGet(p.Argument(1)) == Ok(1)
  {
    Response(FlagGuaranteed, messageId, CommandPunch, Some([Some([1])] + row))
  }

  /** The RESPONSE(PUNCH) for an unknown target: status 0 and the id asked for. */
  function PunchMissing(messageId: Bits32, target: Arg): (p: PacketData)
    ensures p.flags == FlagGuaranteed && p.command == CommandResponse && p.messageId == messageId
    ensures p.ArgumentCount() == 3 && p.Argument(2) == target
    ensures WrapGet(p.Argument(0)) == Ok(CommandPunch) && WrapGet(p.Argument(1)) == Ok(0)
  {
    Response(FlagGuaranteed, messageId, CommandPunch, Some([Some([0]), target]))
  }

  /** The RESPONSE(PUNCH) reader after its sub-command: fewer than two
      arguments are ignored; the status byte is read; status 1 with at least
      six arguments reads the identity from index 2 on. The result is the
      peer to greet, if any. */
  function PunchedTo(packet: PacketData): (r: Result<Option<Identity>>)
    ensures packet.ArgumentCount() < 2 ==> r == Ok(None)
    ensures r.Ok? && r.value.Some? ==>
      && WrapGet(packet.Argument(1)) == Ok(1) && packet.ArgumentCount() >= 6
      && ReadIdentity(packet, 2) == Ok(r.value.value)
    ensures packet.ArgumentCount() >= 2 && WrapGet(packet.Argument(1)).Ok? && WrapGet(packet.Argument(1)) != Ok(1) ==> r == Ok(None)
  {
    if packet.ArgumentCount() < 2 then Ok(None)
    else
      var status :- WrapGet(packet.Argument(1));
      if status == 1 && packet.ArgumentCount() >= 6 then
        var who :- ReadIdentity(packet, 2);
        Ok(Some(who))
      else Ok(None)
  }

  /** A node punching through learns the target exactly as the introducer
      has it registered. */
  lemma PunchFoundReadsBack(messageId: Bits32, target: EndPoint)
    requires Row(target).Ok? && Resolvable(target.AsIdentity())
    ensures PunchedTo(PunchFound(messageId, Row(target).value)) == Ok(Some(target.AsIdentity()))
  {
    var p := PunchFound(messageId, Row(target).value);
    assert p.Argument(3) == target.externalAddress && p.Argument(5) == target.localAddress;
    assert p.Argument(2) == target.id;
    assert WrapGetInt(p.Argument(4)) == Ok(target.externalPort) && WrapGetInt(p.Argument(6)) == Ok(target.localPort);
  }

  /** A reply for an unknown target greets nobody. */
  lemma PunchMissingReadsBack(messageId: Bits32, target: Arg)
    ensures PunchedTo(PunchMissing(messageId, target)) == Ok(None)
  {
  }

  /** The reader accepts six arguments but reads the local port at index 6,
      the seventh: a status-1 reply with exactly six arguments and a
      readable external port throws on the missing one. */
  lemma PunchSixArguments(packet: PacketData)
    requires packet.ArgumentCount() == 6 && WrapGet(packet.Argument(1)) == Ok(1)
    requires WrapGetInt(packet.Argument(4)).Ok?
    ensures PunchedTo(packet) == Throw(NullPointer)
  {
  }

  // ---------------------------------------------------------------------
  // ACKNOWLEDGE

  /** The ACKNOWLEDGE reader: fewer than two arguments are ignored;
      otherwise the acknowledged id is read, then the retry-count byte. The
      result is the id to clear from the sent pool, if any. */
  function Acknowledged(packet: PacketData): (r: Result<Option<Bits32>>)
    ensures packet.ArgumentCount() < 2 <==> r == Ok(None)
    ensures r.Ok? && r.value.Some? ==> WrapGetInt(packet.Argument(0)) == Ok(r.value.value)
    ensures r.Throw? ==> packet.Argument(0).None? || |packet.Argument(0).value| < 4 || packet.Argument(1).None? || packet.Argument(1) == Some([])
  {
    if packet.ArgumentCount() < 2 then Ok(None)
    else
      var acknowledgedMessageId :- WrapGetInt(packet.Argument(0));
      var retryCount :- WrapGet(packet.Argument(1));
      Ok(Some(acknowledgedMessageId))
  }

  /** An acknowledgement names the packet it answers. */
  lemma AckReadsBack(messageId: Bits32, packet: PacketData)
    ensures Acknowledged(AckFor(messageId, packet)) == Ok(Some(packet.messageId))
  {
    WrapGetIntBE32(packet.messageId);
  }
}

=== FILE: endpoints.dfy ===
/** `EndPoint` (a peer: its identity, its two address pairs, its receive
    buffer and twenty free attribute slots) and `EndPointHandler` (the
    registry of known peers and the introducer among them). */
module Endpoints {
  import opened Outcomes
  import opened ByteOrder
  import opened Addressing
  import opened Buffers
  import opened Lists

  /** Capacity of an endpoint's receive buffer. */
  const BufferCapacity := 10000
  /** Number of attribute slots of an endpoint. */
  const AttributeSlots := 20

  /** An address and a port. */
  type Pair = (Address, Bits32)

  class EndPoint {
    var id: Option<Bytes>
    var localAddress: Option<Address>
    var externalAddress: Option<Address>
    var localPort: Bits32
    var externalPort: Bits32
    var lastReceive: int
    var keepAlive: bool
    /** Bytes received from this peer and not yet taken as a frame. */
    const data: ByteBuffer
    /** Free slots for the application; a slot holds a number or null. */
    const attributes: array<Option<int>>

    ghost predicate Valid()
      reads data
    {
      data.Valid() && attributes.Length == AttributeSlots
    }

    /** `new EndPoint()`: no identity, null addresses, ports and receive time
        0, no keepalive, an empty buffer of 10000 bytes and 20 null slots. */
    constructor ()
      ensures Valid() && fresh(data) && fresh(data.content) && fresh(attributes)
      ensures id.None? && localAddress.None? && externalAddress.None?
      ensures localPort == 0 && externalPort == 0 && lastReceive == 0 && !keepAlive
      ensures data.position == 0 && data.content.Length == BufferCapacity
      ensures forall i :: 0 <= i < attributes.Length ==> attributes[i].None?
    {
      id := None;
      localAddress := None;
      externalAddress := None;
      localPort := 0;
      externalPort := 0;
      lastReceive := 0;
      keepAlive := false;
      data := new ByteBuffer.Allocate(BufferCapacity);
      attributes := new Option<int>[AttributeSlots](_ => None);
    }

    /** `setAttribute`: an index outside the slots throws and changes nothing. */
    method SetAttribute(index: int, value: Option<int>) returns (r: Result<()>)
      modifies attributes
      ensures !(0 <= index < attributes.Length) ==> r == Throw(IndexOutOfBounds) && attributes[..] == old(attributes[..])
      ensures 0 <= index < attributes.Length ==> r.Ok? && attributes[..] == old(attributes[..])[index := value]
    {
      if index < 0 || index >= attributes.Length {
        return Throw(IndexOutOfBounds);
      }
      attributes[index] := value;
      return Ok(());
    }

    /** `getAttribute(index, defaultValue)`; `getAttribute(index)` is this
        with a null default. */
    function GetAttribute(index: int, defaultValue: Option<int>): (r: Result<Option<int>>)
      reads attributes
      ensures !(0 <= index < attributes.Length) <==> r == Throw(IndexOutOfBounds)
      ensures r.Ok? && attributes[index].Some? ==> r.value == attributes[index]
      ensures r.Ok? && attributes[index].None? ==> r.value == defaultValue
    {
      if index < 0 || index >= attributes.Length then Throw(IndexOutOfBounds)
      else if attributes[index].Some? then Ok(attributes[index])
      else Ok(defaultValue)
    }

    /** The (address, port) pairs this endpoint answers to: the external
        pair and the local pair, each when its address is known. */
    function Pairs(): (ps: set<Pair>)
      reads this`externalAddress, this`externalPort, this`localAddress, this`localPort
      ensures |ps| <= 2
    {
      (if externalAddress.Some? then {(externalAddress.value, externalPort)} else {})
      + (if localAddress.Some? then {(localAddress.value, localPort)} else {})
    }

    /** `isLocal(otherExternalAddress)`: this endpoint has a usable local
        address and sits behind the given external address. */
    function IsLocal(otherExternalAddress: Address): (b: bool)
      reads this`localAddress, this`externalAddress
      ensures localAddress.None? || IsLoopback(localAddress.value) ==> !b
      ensures localAddress.Some? && !IsLoopback(localAddress.value) ==> (b <==> externalAddress == Some(otherExternalAddress))
    {
      && localAddress.Some? && !IsLoopback(localAddress.value)
      && externalAddress == Some(otherExternalAddress)
    }

    /** The identity `greet` and `hello` put on the wire for this endpoint. */
    function AsIdentity(): (who: Identity)
      reads this
      ensures who.id == id && who.externalAddress == externalAddress && who.externalPort == externalPort
      ensures who.localAddress == localAddress && who.localPort == localPort
    {
      Identity(id, externalAddress, externalPort, localAddress, localPort)
    }

    /** `is(byte[] id)`. */
    function IsId(otherId: Option<Bytes>): (b: bool)
      reads this
      ensures b ==> otherId.Some? && id.Some?
      ensures b <==> id.Some? && otherId == id
    {
      id.Some? && otherId == id
    }

    /** `is(address, port)`: the pair is one this endpoint answers to. */
    function IsAddress(address: Option<Address>, port: Bits32): (b: bool)
      reads this`externalAddress, this`externalPort, this`localAddress, this`localPort
      ensures b <==> address.Some? && (address.value, port) in Pairs()
    {
      || (externalAddress.Some? && externalAddress == address && externalPort == port)
      || (localAddress.Some? && localAddress == address && localPort == port)
    }

    /** `is(InetSocketAddress)`: the datagram's source is one of the pairs. */
    function IsSocketAddress(source: SocketAddress): (b: bool)
      reads this`externalAddress, this`externalPort, this`localAddress, this`localPort
      ensures b <==> (source.address, source.port) in Pairs()
    {
      IsAddress(Some(source.address), source.port)
    }

    /** `is(EndPoint)`: the same identity, or a pair both endpoints answer to. */
    function IsEndPoint(other: EndPoint): (b: bool)
      reads this, other
      ensures b <==> (id.Some? && other.id == id) || Pairs() * other.Pairs() != {}
    {
      SharedPairMatches(this, other);
      IsId(other.id) || IsAddress(other.externalAddress, other.externalPort)
        || IsAddress(other.localAddress, other.localPort)
    }
  }

  /** A pair both endpoints answer to is one of the other's two pairs. */
  lemma SharedPairMatches(a: EndPoint, b: EndPoint)
    ensures a.Pairs() * b.Pairs() != {} ==>
      a.IsAddress(b.externalAddress, b.externalPort) || a.IsAddress(b.localAddress, b.localPort)
  {
    if a.Pairs() * b.Pairs() != {} {
      var q :| q in a.Pairs() * b.Pairs();
      assert a.IsAddress(Some(q.0), q.1);
    }
  }

  /** Matching endpoints is symmetric: `a.is(b)` exactly when `b.is(a)`. */
  lemma IsEndPointSymmetric(a: EndPoint, b: EndPoint)
    ensures a.IsEndPoint(b) <==> b.IsEndPoint(a)
  {
    assert a.Pairs() * b.Pairs() == b.Pairs() * a.Pairs();
  }

  // ---------------------------------------------------------------------
  // Linear search in list order

  /** Index of the first endpoint with the given identity, or |eps|. */
  function IndexById(eps: seq<EndPoint>, id: Option<Bytes>): (i: nat)
    reads eps
    ensures i <= |eps|
    ensures i < |eps| ==> eps[i].IsId(id)
    ensures forall j :: 0 <= j < i ==> !eps[j].IsId(id)
  {
    if eps == [] then 0
    else if eps[0].IsId(id) then 0
    else 1 + IndexById(eps[1..], id)
  }

  /** Index of the first endpoint answering to the pair, or |eps|. */
  function IndexByAddress(eps: seq<EndPoint>, address: Option<Address>, port: Bits32): (i: nat)
    reads eps`externalAddress, eps`externalPort, eps`localAddress, eps`localPort
    ensures i <= |eps|
    ensures i < |eps| ==> eps[i].IsAddress(address, port)
    ensures forall j :: 0 <= j < i ==> !eps[j].IsAddress(address, port)
  {
    if eps == [] then 0
    else if eps[0].IsAddress(address, port) then 0
    else 1 + IndexByAddress(eps[1..], address, port)
  }

  /** What `findEndPoint(byte[] id)` finds: nothing for a null or empty id,
      otherwise the first endpoint with that identity. */
  function ById(eps: seq<EndPoint>, id: Option<Bytes>): (r: EndPoint?)
    reads eps
    ensures r != null ==> r in eps && r.IsId(id) && id != Some([])
    ensures r == null && id.Some? && id != Some([]) ==> forall e :: e in eps ==> !e.IsId(id)
  {
    if id.None? || id == Some([]) then null else At(eps, IndexById(eps, id))
  }

  /** The element at index i, or null past the end. */
  function At(eps: seq<EndPoint>, i: nat): EndPoint? {
    if i < |eps| then eps[i] else null
  }

  class EndPointHandler {
    var endPoints: seq<EndPoint>
    var introducer: EndPoint?
    /** The receive buffers of the registered endpoints and their backing
        arrays (with those of endpoints registered before and since removed). */
    ghost var Repr: set<object>

    /** Every registered endpoint's buffer is in range. */
    ghost predicate Valid()
      reads this`endPoints, this`Repr, Repr
    {
      forall e :: e in endPoints ==> e.data in Repr && e.data.content in Repr && e.Valid()
    }

    /** The registry holds only endpoints it held before and new ones,
        and its footprint only old and new objects. */
    twostate predicate Extends()
      reads this`endPoints, this`Repr
    {
      && (forall i :: 0 <= i < |endPoints| ==> endPoints[i] in old(endPoints) || fresh(endPoints[i]))
      && fresh(Repr - old(Repr))
    }

    constructor ()
      ensures Valid() && endPoints == [] && introducer == null
    {
      endPoints := [];
      introducer := null;
      Repr := {};
    }

    /** `findEndPoint(byte[] id)`: null for a null or empty id, otherwise the
        first endpoint with that identity. */
    method FindById(id: Option<Bytes>) returns (r: EndPoint?)
      ensures r == ById(endPoints, id)
    {
      if id.None? || id == Some([]) {
        return null;
      }
      var i := 0;
      while i < |endPoints|
        invariant 0 <= i <= |endPoints|
        invariant forall j :: 0 <= j < i ==> !endPoints[j].IsId(id)
      {
        if endPoints[i].IsId(id) {
          IndexByIdFirst(endPoints, id, i);
          return endPoints[i];
        }
        i := i + 1;
      }
      IndexByIdFirst(endPoints, id, i);
      return null;
    }

    /** `findEndPoint(address, port)`: the first endpoint answering to the pair. */
    method FindByAddress(address: Option<Address>, port: Bits32) returns (r: EndPoint?)
      ensures r == At(endPoints, IndexByAddress(endPoints, address, port))
    {
      var i := 0;
      while i < |endPoints|
        invariant 0 <= i <= |endPoints|
        invariant forall j :: 0 <= j < i ==> !endPoints[j].IsAddress(address, port)
      {
        if endPoints[i].IsAddress(address, port) {
          IndexByAddressFirst(endPoints, address, port, i);
          return endPoints[i];
        }
        i := i + 1;
      }
      IndexByAddressFirst(endPoints, address, port, i);
      return null;
    }

    /** `findEndPoint(InetSocketAddress)`: null for a null source, otherwise
        the first endpoint answering to the source's pair. */
    method FindBySource(source: Option<SocketAddress>) returns (r: EndPoint?)
      ensures source.None? ==> r == null
      ensures source.Some? ==> r == At(endPoints, IndexByAddress(endPoints, Some(source.value.address), source.value.port))
      ensures source.Some? && r != null ==> r.IsSocketAddress(source.value)
    {
      if source.None? {
        return null;
      }
      r := FindByAddress(Some(source.value.address), source.value.port);
    }

    /** `addEndPoint`: appended, with no duplicate check. */
    method AddEndPoint(ep: EndPoint)
      requires Valid() && ep.Valid()
      modifies this`endPoints, this`Repr
      ensures Valid()
      ensures endPoints == old(endPoints) + [ep] && introducer == old(introducer)
      ensures Repr == old(Repr) + {ep.data, ep.data.content}
    {
      endPoints := endPoints + [ep];
      Repr := Repr + {ep.data, ep.data.content};
    }

    /** `removeEndPoint`: the first occurrence of that very object goes. */
    method RemoveEndPoint(ep: EndPoint)
      requires Valid()
      modifies this`endPoints
      ensures Valid()
      ensures endPoints == RemoveFirst(old(endPoints), ep) && introducer == old(introducer)
    {
      RemoveFirstMembers(endPoints, ep);
      endPoints := RemoveFirst(endPoints, ep);
    }

    /** `removeEndPoints`: every occurrence of every given object goes. */
    method RemoveEndPoints(c: seq<EndPoint>)
      requires Valid()
      modifies this`endPoints
      ensures Valid()
      ensures endPoints == RemoveAll(old(endPoints), c) && introducer == old(introducer)
    {
      endPoints := RemoveAll(endPoints, c);
    }

    /** `setIntroducerEndPoint`: an endpoint already answering to the new
        one's external pair becomes the introducer and the list stays as
        it is; otherwise the new endpoint is appended and becomes it. */
    method SetIntroducerEndPoint(ep: EndPoint)
      requires Valid() && ep.Valid()
      modifies this`endPoints, this`Repr, this`introducer
      ensures Valid()
      ensures var i := old(IndexByAddress(endPoints, ep.externalAddress, ep.externalPort));
        && (i < |old(endPoints)| ==> introducer == old(endPoints)[i] && endPoints == old(endPoints))
        && (i == |old(endPoints)| ==> introducer == ep && endPoints == old(endPoints) + [ep])
      ensures Repr <= old(Repr) + {ep.data, ep.data.content}
      ensures ep.externalAddress.Some? ==>
        introducer == At(endPoints, IndexByAddress(endPoints, ep.externalAddress, ep.externalPort))
    {
      var found := FindByAddress(ep.externalAddress, ep.externalPort);
      ghost var i := IndexByAddress(endPoints, ep.externalAddress, ep.externalPort);
      if found != null {
        assert i < |endPoints| && found == endPoints[i];
        introducer := found;
        assert introducer == At(endPoints, i);
      } else {
        assert i == |endPoints|;
        introducer := ep;
        AddEndPoint(ep);
        if ep.externalAddress.Some? {
          IndexByAddressAppended(old(endPoints), ep, ep.externalAddress, ep.externalPort);
          assert introducer == At(endPoints, i);
        }
      }
    }
  }

  /** An endpoint appended to a list where the pair is not found, and
      answering to the pair, is what the search then finds. */
  lemma IndexByAddressAppended(eps: seq<EndPoint>, e: EndPoint, address: Option<Address>, port: Bits32)
    requires IndexByAddress(eps, address, port) == |eps| && e.IsAddress(address, port)
    ensures IndexByAddress(eps + [e], address, port) == |eps|
  {
    IndexByAddressFirst(eps + [e], address, port, |eps|);
  }

  /** The search stops at the first match. */
  lemma {:induction false} IndexByIdFirst(eps: seq<EndPoint>, id: Option<Bytes>, i: nat)
    requires i <= |eps| && forall j :: 0 <= j < i ==> !eps[j].IsId(id)
    requires i < |eps| ==> eps[i].IsId(id)
    ensures IndexById(eps, id) == i
    decreases i
  {
    if i > 0 {
      IndexByIdFirst(eps[1..], id, i - 1);
    }
  }

  lemma {:induction false} IndexByAddressFirst(eps: seq<EndPoint>, address: Option<Address>, port: Bits32, i: nat)
    requires i <= |eps| && forall j :: 0 <= j < i ==> !eps[j].IsAddress(address, port)
    requires i < |eps| ==> eps[i].IsAddress(address, port)
    ensures IndexByAddress(eps, address, port) == i
    decreases i
  {
    if i > 0 {
      IndexByAddressFirst(eps[1..], address, port, i - 1);
    }
  }

  /** A registry that gained at most one new endpoint, with a new buffer,
      extends the one it was. */
  twostate lemma AppendExtends(h: EndPointHandler, new ep: EndPoint)
    requires fresh(ep) && fresh(ep.data) && fresh(ep.data.content)
    requires h.endPoints == old(h.endPoints) || h.endPoints == old(h.endPoints) + [ep]
    requires h.Repr <= old(h.Repr) + {ep.data, ep.data.content}
    ensures h.Extends()
  {
  }

  /** A registry that only lost endpoints, with the same footprint,
      extends the one it was. */
  twostate lemma ShrinkExtends(h: EndPointHandler)
    requires forall e :: e in h.endPoints ==> e in old(h.endPoints)
    requires h.Repr == old(h.Repr)
    ensures h.Extends()
  {
  }
}

=== FILE: image_transfer.dfy ===
/** The test client's packet receiver (`TestPacketReceiver`): it sends
    camera frames as one MULTIPART parent and a run of MULTIPART_PART packets
    of at most 1000 bytes, reassembles the frames it receives, and keeps
    sending frames to an endpoint that asked for a continuous stream. */
module ImageTransfer {
  import opened Outcomes
  import opened ByteOrder
  import opened Buffers
  import opened Endpoints
  import opened Packets
  import opened Tracking
  import opened Delivery
  import opened Node

  /** `COMMAND_IMAGE`: the first custom command. */
  const CommandImage: Byte := CommandCustom
  /** `COMMAND_IMAGE_CONTINUOUS`. */
  const CommandImageContinuous: Byte := CommandCustom + 1
  /** The payload size of one part. */
  const PartSize := 1000
  /** How long a continuous stream lasts after it is asked for, in ms. */
  const StreamDuration := 10000
  /** The least gap between two frames of a stream, in ms. */
  const FrameInterval := 100

  // ---------------------------------------------------------------------
  // Splitting a frame

  /** `ceil(n / 1000)`: the number of parts of an n-byte frame. */
  function PartCount(n: nat): (c: nat)
    ensures (c - 1) * PartSize < n <= c * PartSize || (n == 0 && c == 0)
  {
    (n + PartSize - 1) / PartSize
  }

  /** How much of an n-byte frame the first k parts carry: `min(1000 k, n)`,
      the value of `p` after k rounds of the split loop. */
  function Covered(n: nat, k: nat): (p: nat)
    ensures p <= n
  {
    if k * PartSize < n then k * PartSize else n
  }

  /** The payload of part k: `copyOfRange(data, p, p + min(1000, n - p))`
      with p = 1000 k. */
  function Slice(data: Bytes, k: nat): (s: Bytes)
    requires k < PartCount(|data|)
    ensures 0 < |s| <= PartSize
  {
    data[k * PartSize..Covered(|data|, k + 1)]
  }

  /** The parent: guaranteed, announcing the part count, a RESPONSE whose
      only argument is the one byte COMMAND_IMAGE. */
  function ImageParent(id: Bits32, n: nat): PacketData {
    Multipart(FlagGuaranteed, id, PartCount(n), CommandResponse, Some([Some([CommandImage])]))
  }

  /** Part k: flags 0, the id after the previous packet's, the parent's id,
      index k and the slice as its only argument. */
  function ImagePart(id: Bits32, data: Bytes, k: nat): PacketData
    requires k < PartCount(|data|)
  {
    Part(0, Add32(id, k + 1), id, k, Some([Some(Slice(data, k))]))
  }

  /** Everything one frame queues, in order: the parent, then the parts. */
  function ImagePackets(id: Bits32, data: Bytes): (ps: seq<PacketData>)
    ensures |ps| == PartCount(|data|) + 1
  {
    [ImageParent(id, |data|)] + seq(PartCount(|data|), k requires 0 <= k < PartCount(|data|) => ImagePart(id, data, k))
  }

  /** One round of the split loop: while parts remain, `p` is 1000 times
      the part index and `min(1000, n - p)` more bytes take it to the end of
      the part's slice. */
  lemma SplitStep(data: Bytes, k: nat, p: nat)
    requires k < PartCount(|data|) && p == Covered(|data|, k)
    ensures p == k * PartSize
    ensures p + (if PartSize < |data| - p then PartSize else |data| - p) == Covered(|data|, k + 1)
  {
  }

  /** The part slots a receiver fills for a frame sent in full, in index order. */
  function ImageSlots(id: Bits32, data: Bytes): (slots: seq<Option<PacketData>>)
    ensures |slots| == PartCount(|data|)
  {
    seq(PartCount(|data|), k requires 0 <= k < PartCount(|data|) => Some(ImagePart(id, data, k)))
  }

  /** The slices tile the frame: the first k parts carry its first
      `min(1000 k, n)` bytes. */
  lemma {:induction false} SlicesTile(id: Bits32, data: Bytes, k: nat)
    requires k <= PartCount(|data|)
    ensures Joined(ImageSlots(id, data)[..k]) == Ok(data[..Covered(|data|, k)])
    decreases k
  {
    if k > 0 {
      var slots := ImageSlots(id, data);
      SlicesTile(id, data, k - 1);
      assert slots[..k][..k - 1] == slots[..k - 1];
      assert slots[..k][k - 1].value.Argument(0) == Some(Slice(data, k - 1));
      assert data[..Covered(|data|, k)] == data[..Covered(|data|, k - 1)] + Slice(data, k - 1);
    }
  }

  /** Reassembling every part of a frame gives the frame back. */
  lemma ReassembledFrame(id: Bits32, data: Bytes)
    ensures Joined(ImageSlots(id, data)) == Ok(data)
  {
    var slots := ImageSlots(id, data);
    SlicesTile(id, data, |slots|);
    assert slots[..|slots|] == slots;
    assert Covered(|data|, |slots|) == |data|;
    assert data[..|data|] == data;
  }

  /** A frame of fewer than 128 parts is announced with its true part count,
      and part k carries index k and the parent's id, so a receiver's
      `findPacketParts` puts it in slot k. */
  lemma ImageHeaders(id: Bits32, data: Bytes, k: nat)
    requires k < PartCount(|data|) < 0x80
    ensures Signed8(ImageParent(id, |data|).partCount) == PartCount(|data|)
    ensures ImageParent(id, |data|).messageId == id && ImageParent(id, |data|).command == CommandResponse
    ensures var p := ImagePart(id, data, k);
      && p.HasFlag(FlagMultipartPart) && p.parentMessageId == id && Signed8(p.partIndex) == k
  {
  }

  // ---------------------------------------------------------------------
  // Reassembling a frame

  /** The length `part.getArgument(0).length` adds, where it is defined. */
  function PayloadLength(part: Option<PacketData>): nat {
    if part.None? || part.value.Argument(0).None? then 0 else |part.value.Argument(0).value|
  }

  /** Every slot holds a part with a non-null argument 0. */
  predicate Filled(parts: seq<Option<PacketData>>) {
    forall i :: 0 <= i < |parts| ==> parts[i].Some? && parts[i].value.Argument(0).Some?
  }

  /** Argument 0 of each part, concatenated in slot order; a null part or a
      null argument throws. */
  function Joined(parts: seq<Option<PacketData>>): (r: Result<Bytes>)
    ensures r.Ok? <==> Filled(parts)
    ensures r.Throw? ==> r.fault == NullPointer
    decreases |parts|
  {
    if parts == [] then Ok([])
    else
      var prev := Joined(parts[..|parts| - 1]);
      assert forall i :: 0 <= i < |parts| - 1 ==> parts[..|parts| - 1][i] == parts[i];
      var last := parts[|parts| - 1];
      if prev.Throw? then prev
      else if last.None? || last.value.Argument(0).None? then Throw(NullPointer)
      else Ok(prev.value + last.value.Argument(0).value)
  }

  /** The sum of the payload lengths. */
  function TotalLength(parts: seq<Option<PacketData>>): nat
    decreases |parts|
  {
    if parts == [] then 0 else TotalLength(parts[..|parts| - 1]) + PayloadLength(parts[|parts| - 1])
  }

  /** A prefix of the parts joins to a prefix of the whole, and the whole
      is as long as the payloads together. */
  lemma {:induction false} JoinedPrefix(parts: seq<Option<PacketData>>, k: nat)
    requires k <= |parts| && Joined(parts).Ok?
    ensures Joined(parts[..k]).Ok? && Joined(parts[..k]).value <= Joined(parts).value
    ensures |Joined(parts).value| == TotalLength(parts)
    decreases |parts|
  {
    if parts != [] {
      var init := parts[..|parts| - 1];
      if k == |parts| {
        assert parts[..k] == parts;
        JoinedPrefix(init, |init|);
      } else {
        assert parts[..k] == init[..k];
        JoinedPrefix(init, k);
      }
    }
  }

  /** The reassembly of `handlePacket`: a first pass adds up the payload
      lengths, a buffer of that size is allocated, and a second pass puts
      each payload at the running position. */
  method Reassemble(parts: seq<Option<PacketData>>) returns (r: Result<Bytes>)
    ensures r == Joined(parts)
    ensures r.Ok? ==> |r.value| == TotalLength(parts)
  {
    var bufferLength := 0;
    var k := 0;
    while k < |parts|
      invariant 0 <= k <= |parts|
      invariant Joined(parts[..k]).Ok? && bufferLength == |Joined(parts[..k]).value|
    {
      assert parts[..k + 1][..k] == parts[..k];
      if parts[k].None? || parts[k].value.Argument(0).None? {
        JoinedThrows(parts, k + 1);
        return Throw(NullPointer);
      }
      bufferLength := bufferLength + |parts[k].value.Argument(0).value|;
      k := k + 1;
    }
    assert parts[..k] == parts;
    JoinedPrefix(parts, k);
    var buf := new ByteBuffer.Allocate(bufferLength);
    var bufferPosition := 0;
    k := 0;
    while k < |parts|
      invariant 0 <= k <= |parts|
      invariant buf.Valid() && buf.content.Length == bufferLength
      invariant Joined(parts[..k]).Ok? && buf.Buffered() == Joined(parts[..k]).value
      invariant bufferPosition == buf.position
    {
      JoinedPrefix(parts, k + 1);
      assert parts[..k + 1][..k] == parts[..k];
      buf.SetPosition(bufferPosition);
      var put := buf.Put(parts[k].value.Argument(0).value);
      bufferPosition := bufferPosition + |parts[k].value.Argument(0).value|;
      k := k + 1;
    }
    assert parts[..k] == parts;
    assert buf.content[..] == buf.Buffered();
    r := Ok(buf.content[..]);
  }

  /** Once a prefix throws, the whole throws the same way. */
  lemma {:induction false} JoinedThrows(parts: seq<Option<PacketData>>, k: nat)
    requires k <= |parts| && Joined(parts[..k]).Throw?
    ensures Joined(parts) == Joined(parts[..k])
    decreases |parts| - k
  {
    if k < |parts| {
      assert parts[..k + 1][..k] == parts[..k];
      JoinedThrows(parts, k + 1);
    } else {
      assert parts[..k] == parts;
    }
  }

  // ---------------------------------------------------------------------
  // Queued sends

  /** The packets of a frame, each addressed to the same endpoint. */
  function Addressed(ep: EndPoint, ps: seq<PacketData>): (adds: seq<(EndPoint, PacketData)>)
    ensures |adds| == |ps| && forall k :: 0 <= k < |ps| ==> adds[k] == (ep, ps[k])
  {
    seq(|ps|, k requires 0 <= k < |ps| => (ep, ps[k]))
  }

  lemma AddressedSnoc(ep: EndPoint, ps: seq<PacketData>, k: nat)
    requires k < |ps|
    ensures Addressed(ep, ps[..k]) + [(ep, ps[k])] == Addressed(ep, ps[..k + 1])
  {
  }

  /** `after` is `before` followed by one never-sent entry (time 0, retry
      count -1, as `sendPacketDelayed` makes them) per element of `adds`. */
  ghost predicate Queued(after: seq<HandledPacket>, before: seq<HandledPacket>, adds: seq<(EndPoint, PacketData)>)
    reads after
  {
    && |after| == |before| + |adds| && after[..|before|] == before
    && forall k :: 0 <= k < |adds| ==> Entry(after[|before| + k], adds[k].0, adds[k].1, 0, -1)
  }

  /** One more queued entry extends the queue by its element. */
  lemma QueuedSnoc(after: seq<HandledPacket>, mid: seq<HandledPacket>, before: seq<HandledPacket>,
                   adds: seq<(EndPoint, PacketData)>, ep: EndPoint, p: PacketData)
    requires Queued(mid, before, adds)
    requires |after| == |mid| + 1 && after[..|mid|] == mid && Entry(after[|mid|], ep, p, 0, -1)
    ensures Queued(after, before, adds + [(ep, p)])
  {
    assert after[..|before|] == mid[..|before|];
    forall k | 0 <= k < |adds| + 1
      ensures Entry(after[|before| + k], (adds + [(ep, p)])[k].0, (adds + [(ep, p)])[k].1, 0, -1)
    {
      if k < |adds| {
        assert after[|before| + k] == mid[|before| + k];
      }
    }
  }

  // ---------------------------------------------------------------------
  // Receiving a part

  /** What the MULTIPART_PART branch of `handlePacket` makes of a part, given
      the acknowledged pool: nothing (`None`) without a recorded parent,
      for a parent that is not a RESPONSE with arguments, for a response to
      another command, and while parts are missing; the reassembled frame
      once `findPacketParts` returns every slot; and the exception of
      `ByteBuffer.wrap(null)`, of `get()` on an empty argument, of
      `findPacketParts` or of the reassembly otherwise. */
  function PartOutcome(ps: seq<HandledPacket>, ep: EndPoint, packet: PacketData): (r: Result<Option<Bytes>>)
    reads ps, set h | h in ps :: h.endPoint, ep
    ensures IndexOfPacket(ps, ep, packet.parentMessageId) == |ps| ==> r == Ok(None)
    ensures r.Throw? ==> r.fault in {NullPointer, BufferUnderflow, NegativeArraySize, IndexOutOfBounds}
    ensures r.Ok? && r.value.Some? ==>
              var parent := ps[IndexOfPacket(ps, ep, packet.parentMessageId)].packet;
              && parent.command == CommandResponse && parent.Argument(0).Some?
              && parent.Argument(0).value != [] && parent.Argument(0).value[0] == CommandImage
              && 0 <= Signed8(parent.partCount)
  {
    var i := IndexOfPacket(ps, ep, packet.parentMessageId);
    if i == |ps| then Ok(None) else
      var parent := ps[i].packet;
      if parent.command != CommandResponse || parent.ArgumentCount() == 0 then Ok(None)
      else if parent.Argument(0).None? then Throw(NullPointer)
      else if parent.Argument(0).value == [] then Throw(BufferUnderflow)
      else if parent.Argument(0).value[0] != CommandImage then Ok(None)
      else if Signed8(parent.partCount) < 0 then Throw(NegativeArraySize)
      else
        var placed := Placed(ps, ep, packet.parentMessageId, Signed8(parent.partCount));
        if placed.Throw? then Throw(placed.fault)
        else if placed.value.1 != |placed.value.0| then Ok(None)
        else
          var joined := Joined(placed.value.0);
          if joined.Throw? then Throw(joined.fault) else Ok(Some(joined.value))
  }

  // ---------------------------------------------------------------------
  // Streaming

  /** `(long) getAttribute(i, (long) 0)`: a slot's value, 0 when empty. */
  function Setting(slot: Option<int>): int {
    if slot.Some? then slot.value else 0
  }

  /** Whether `update` sends a frame to an endpoint with these attribute
      slots: its stream is still open (attribute 0 is later than now) and
      more than 100 ms passed since its last frame (attribute 1). */
  function StreamDue(slots: seq<Option<int>>, now: Int64): (b: bool)
    ensures b ==> |slots| >= 2 && now < Setting(slots[0])
    ensures b && 0 <= now ==> slots[0].Some?
    ensures 0 <= now && |slots| >= 2 && slots[0].Some? && now < slots[0].value && slots[1].None? && FrameInterval < now ==> b
  {
    |slots| >= 2 && Setting(slots[0]) > now && Long(now - Setting(slots[1])) > FrameInterval
  }

  /** The slots after the check: stamped with the time when a frame is due. */
  function Throttled(slots: seq<Option<int>>, now: Int64): (t: seq<Option<int>>)
    ensures |t| == |slots|
  {
    if StreamDue(slots, now) then slots[1 := Some(now)] else slots
  }

  /** Stamped slots are not due again at the same time, so a second check
      changes nothing. */
  lemma ThrottledOnce(slots: seq<Option<int>>, now: Int64)
    ensures !StreamDue(Throttled(slots, now), now)
    ensures Throttled(Throttled(slots, now), now) == Throttled(slots, now)
  {
  }

  /** Whether one of the first k endpoints holds the attribute array a. */
  predicate Visited(eps: seq<EndPoint>, k: nat, a: array<Option<int>>)
    requires k <= |eps|
  {
    exists i :: 0 <= i < k && eps[i].attributes == a
  }

  /** Every endpoint has its twenty slots. */
  predicate Sized(eps: seq<EndPoint>) {
    forall j :: 0 <= j < |eps| ==> eps[j].attributes.Length == AttributeSlots
  }

  /** Endpoints that share an attribute array have the same slots. */
  predicate Coherent(eps: seq<EndPoint>, slots: seq<seq<Option<int>>>)
    requires |eps| == |slots|
  {
    forall i, j :: 0 <= i < |eps| && 0 <= j < |eps| && eps[i].attributes == eps[j].attributes ==> slots[i] == slots[j]
  }

  /** The attribute slots of each endpoint. */
  function Slots(eps: seq<EndPoint>): (s: seq<seq<Option<int>>>)
    reads set e | e in eps :: e.attributes
    ensures |s| == |eps| && forall i :: 0 <= i < |eps| ==> s[i] == eps[i].attributes[..]
  {
    seq(|eps|, i requires 0 <= i < |eps| reads set e | e in eps :: e.attributes => eps[i].attributes[..])
  }

  /** The frames `update`'s loop queues over the first k endpoints, whose
      slots were `slots` before the loop. `frames[j]` is what the capture
      of a `sendImage` call for endpoint j would return; it is used only
      when that endpoint is due and is the first holder of its attribute
      array, and a failed capture (`None`) sends nothing. Ids run on from
      `id`. */
  function StreamPlan(eps: seq<EndPoint>, slots: seq<seq<Option<int>>>, k: nat, now: Int64,
                      frames: seq<Option<Bytes>>, id: Bits32)
    : seq<(EndPoint, PacketData)>
    requires k <= |eps| == |slots| && k <= |frames|
    decreases k
  {
    if k == 0 then [] else
      var prev := StreamPlan(eps, slots, k - 1, now, frames, id);
      if !Visited(eps, k - 1, eps[k - 1].attributes) && StreamDue(slots[k - 1], now) && frames[k - 1].Some?
      then prev + Addressed(eps[k - 1], ImagePackets(Add32(id, |prev|), frames[k - 1].value))
      else prev
  }

  /** Two queued runs in a row are one run. */
  lemma QueuedTwice(after: seq<HandledPacket>, mid: seq<HandledPacket>, before: seq<HandledPacket>,
                    adds: seq<(EndPoint, PacketData)>, more: seq<(EndPoint, PacketData)>)
    requires Queued(mid, before, adds) && Queued(after, mid, more)
    ensures Queued(after, before, adds + more)
  {
    assert after[..|before|] == mid[..|before|];
    forall k | 0 <= k < |adds| + |more|
      ensures Entry(after[|before| + k], (adds + more)[k].0, (adds + more)[k].1, 0, -1)
    {
      if k < |adds| {
        assert after[|before| + k] == mid[|before| + k];
      } else {
        assert after[|before| + k] == after[|mid| + (k - |adds|)];
      }
    }
  }

  class TestPacketReceiver {
    /** The receiver this one extends; it owns the pools and the id counter. */
    const base: BasePacketReceiver

    /** `new TestPacketReceiver(natPunch)`. */
    constructor (natPunch: NatPunch)
      ensures fresh(base) && fresh(base.sent) && fresh(base.acked)
      ensures base.Valid() && base.natPunch == natPunch && base.nextMessageId == 0
      ensures base.sent.packets == [] && base.acked.packets == []
    {
      base := new BasePacketReceiver(natPunch);
    }

    /** The effect of `sendImage` with this frame: nothing without one;
        otherwise the parent and the parts, under consecutive ids, queued
        for the endpoint behind the entries already there. */
    twostate predicate FrameQueued(ep: EndPoint, frame: Option<Bytes>)
      reads this, base`nextMessageId, base.sent`packets, base.sent.packets
    {
      && (frame.None? ==> base.nextMessageId == old(base.nextMessageId) && base.sent.packets == old(base.sent.packets))
      && (frame.Some? ==>
            var adds := Addressed(ep, ImagePackets(old(base.nextMessageId), frame.value));
            && base.nextMessageId == Add32(old(base.nextMessageId), |adds|)
            && Queued(base.sent.packets, old(base.sent.packets), adds))
      && (forall k :: |old(base.sent.packets)| <= k < |base.sent.packets| ==> fresh(base.sent.packets[k]))
    }

    /** The split loop of `sendImage` for a captured frame (`None` when no
        frame was captured, and nothing is sent). The parent takes the next
        id and each part the id after it; every packet is queued with
        `sendPacketDelayed`, so the next `update` sends them. */
    method SendImage(ep: EndPoint, frame: Option<Bytes>)
      requires base.Valid()
      modifies base`nextMessageId, base.sent`packets
      ensures base.Valid() && FrameQueued(ep, frame)
    {
      if frame.None? {
        return;
      }
      var data := frame.value;
      ghost var pool := base.sent.packets;
      var partCount := PartCount(|data|);
      var partIndex := 0;
      var messageId := base.NextMessageId();
      ghost var plan := ImagePackets(messageId, data);
      var parent := Multipart(FlagGuaranteed, messageId, partCount, CommandResponse, Some([Some([CommandImage])]));
      var _ := base.SendPacketDelayed(ep, parent);
      QueuedSnoc(base.sent.packets, pool, pool, [], ep, parent);
      ghost var adds := [(ep, parent)];
      assert adds == Addressed(ep, plan[..1]);
      var p := 0;
      while partIndex < partCount
        invariant 0 <= partIndex <= partCount
        invariant p == Covered(|data|, partIndex)
        invariant base.Valid()
        invariant base.nextMessageId == Add32(messageId, partIndex + 1)
        invariant adds == Addressed(ep, plan[..partIndex + 1])
        invariant Queued(base.sent.packets, pool, adds)
        invariant forall k :: |pool| <= k < |base.sent.packets| ==> fresh(base.sent.packets[k])
      {
        ghost var mid := base.sent.packets;
        p := QueuePart(ep, data, messageId, partIndex, p);
        QueuedSnoc(base.sent.packets, mid, pool, adds, ep, plan[partIndex + 1]);
        AddressedSnoc(ep, plan, partIndex + 1);
        adds := adds + [(ep, plan[partIndex + 1])];
        partIndex := partIndex + 1;
      }
      assert plan[..partIndex + 1] == plan;
    }

    /** One round of the split loop: the slice at `p`, under the next id,
        queued as part `partIndex` of the parent; the new `p` is returned. */
    method QueuePart(ep: EndPoint, data: Bytes, messageId: Bits32, partIndex: nat, p: nat) returns (next: nat)
      requires base.Valid()
      requires partIndex < PartCount(|data|) && p == Covered(|data|, partIndex)
      requires base.nextMessageId == Add32(messageId, partIndex + 1)
      modifies base`nextMessageId, base.sent`packets
      ensures base.Valid() && next == Covered(|data|, partIndex + 1)
      ensures base.nextMessageId == Add32(messageId, partIndex + 2)
      ensures |base.sent.packets| == |old(base.sent.packets)| + 1
      ensures base.sent.packets[..|old(base.sent.packets)|] == old(base.sent.packets)
      ensures fresh(base.sent.packets[|old(base.sent.packets)|])
      ensures Entry(base.sent.packets[|old(base.sent.packets)|], ep, ImagePackets(messageId, data)[partIndex + 1], 0, -1)
    {
      SplitStep(data, partIndex, p);
      var partLength := if PartSize < |data| - p then PartSize else |data| - p;
      var partData := data[p..p + partLength];
      next := p + partLength;
      var id := base.NextMessageId();
      Add32Add(messageId, partIndex + 1, 1);
      var part := Part(0, id, messageId, partIndex, Some([Some(partData)]));
      assert part == ImagePart(messageId, data, partIndex);
      var _ := base.SendPacketDelayed(ep, part);
    }

    /** The MULTIPART_PART branch of `handlePacket`: the parent is looked
        up in the acknowledged pool and, for a response to COMMAND_IMAGE
        whose parts are all there, the parts are reassembled. A part that
        gets this far is consumed (true) unless something throws. */
    method HandlePart(ep: EndPoint, packet: PacketData) returns (r: Result<bool>, assembled: Option<Bytes>)
      ensures var outcome := PartOutcome(base.acked.packets, ep, packet);
        && (outcome.Throw? ==> r == Throw(outcome.fault) && assembled.None?)
        && (outcome.Ok? ==> r == Ok(true) && assembled == outcome.value)
    {
      var pool := base.acked;
      var parent := pool.FindPacket(ep, packet.parentMessageId);
      assembled := None;
      r := Ok(true);
      if parent != null {
        var pp := parent.packet;
        if pp.command == CommandResponse && pp.ArgumentCount() != 0 {
          var arg := pp.Argument(0);
          if arg.None? {
            r := Throw(NullPointer);
          } else if arg.value == [] {
            r := Throw(BufferUnderflow);
          } else if arg.value[0] == CommandImage {
            var parts := pool.FindPacketParts(ep, pp.messageId);
            if parts.Throw? {
              r := Throw(parts.fault);
            } else if parts.value.Some? {
              var joined := Reassemble(parts.value.value);
              if joined.Throw? {
                r := Throw(joined.fault);
              } else {
                assembled := Some(joined.value);
              }
            }
          }
        }
      }
    }

    /** The command switch after the part check: IMAGE_CONTINUOUS opens a
        stream for the next 10 s (attribute 0) with no frame sent yet
        (attribute 1); IMAGE sends one frame; other commands do nothing. */
    method HandleCommand(ep: EndPoint, packet: PacketData, now: Int64, frame: Option<Bytes>)
      requires base.Valid() && ep.attributes.Length == AttributeSlots
      modifies ep.attributes, base`nextMessageId, base.sent`packets
      ensures base.Valid()
      ensures packet.command == CommandImageContinuous ==>
        && ep.attributes[..] == old(ep.attributes[..])[0 := Some(Long(now + StreamDuration))][1 := Some(0)]
        && base.nextMessageId == old(base.nextMessageId) && base.sent.packets == old(base.sent.packets)
      ensures packet.command == CommandImage ==> ep.attributes[..] == old(ep.attributes[..]) && FrameQueued(ep, frame)
      ensures packet.command != CommandImageContinuous && packet.command != CommandImage ==>
        && ep.attributes[..] == old(ep.attributes[..])
        && base.nextMessageId == old(base.nextMessageId) && base.sent.packets == old(base.sent.packets)
    {
      if packet.command == CommandImageContinuous {
        var _ := ep.SetAttribute(0, Some(Long(now + StreamDuration)));
        var _ := ep.SetAttribute(1, Some(0));
      } else if packet.command == CommandImage {
        SendImage(ep, frame);
      }
    }

    /** `handlePacket`: the base handler first (its result is `handled`);
        a packet it consumed, or one whose handling threw, goes no further;
        anything else goes to `HandleOwn`. `imageId` is the id the frame of
        an IMAGE command starts from. */
    method HandlePacket(ep: EndPoint, packet: PacketData, now: Int64, frame: Option<Bytes>)
      returns (r: Result<bool>, assembled: Option<Bytes>, ghost handled: Result<bool>, ghost imageId: Bits32)
      requires base.Valid() && base.natPunch.endPointHandler.Valid() && ep.attributes.Length == AttributeSlots
      modifies base`nextMessageId, base.acked`packets, base.acked.packets, base.sent`packets
      modifies base.natPunch.networkLayer`outbox, base.natPunch`externalAddress, base.natPunch`externalPort
      modifies base.natPunch.endPointHandler`endPoints, base.natPunch.endPointHandler`Repr
      modifies ep`id, ep`localAddress, ep`localPort, ep`keepAlive, ep.attributes
      modifies base.natPunch.endPointHandler.endPoints`externalAddress, base.natPunch.endPointHandler.endPoints`externalPort,
               base.natPunch.endPointHandler.endPoints`localAddress, base.natPunch.endPointHandler.endPoints`localPort,
               base.natPunch.endPointHandler.endPoints`keepAlive
      ensures base.natPunch.endPointHandler.Extends()
      ensures base.Valid() && base.natPunch.endPointHandler.Valid()
      ensures old(base.Repeated(ep, packet)) ==> handled == Ok(true)
      ensures !old(base.Repeated(ep, packet)) && packet.command !in {CommandRegister, CommandReRegister, CommandPunch,
                CommandGreet, CommandHello, CommandAcknowledge, CommandShow, CommandResponse} ==>
        handled == Ok(false)
      ensures handled != Ok(false) ==> r == handled && assembled.None? && ep.attributes[..] == old(ep.attributes[..])
      ensures handled == Ok(false) && packet.HasFlag(FlagMultipartPart) ==>
        var outcome := PartOutcome(base.acked.packets, ep, packet);
        && ep.attributes[..] == old(ep.attributes[..])
        && (outcome.Throw? ==> r == Throw(outcome.fault) && assembled.None?)
        && (outcome.Ok? ==> r == Ok(true) && assembled == outcome.value)
      ensures handled == Ok(false) && !packet.HasFlag(FlagMultipartPart) ==> r == Ok(false) && assembled.None?
      ensures handled == Ok(false) && !packet.HasFlag(FlagMultipartPart) && packet.command == CommandImageContinuous ==>
        ep.attributes[..] == old(ep.attributes[..])[0 := Some(Long(now + StreamDuration))][1 := Some(0)]
      ensures handled == Ok(false) && !packet.HasFlag(FlagMultipartPart) && packet.command == CommandImage ==>
        && ep.attributes[..] == old(ep.attributes[..])
        && (frame.Some? ==>
              var adds := Addressed(ep, ImagePackets(imageId, frame.value));
              && base.nextMessageId == Add32(imageId, |adds|)
              && Queued(base.sent.packets, old(base.sent.packets), adds))
    {
      imageId := base.nextMessageId;
      assembled := None;
      ghost var attributes := ep.attributes[..];
      r := base.HandlePacket(ep, packet);
      handled := r;
      assert ep.attributes[..] == attributes;
      if r.Throw? || r.value {
        return;
      }
      r, assembled, imageId := HandleOwn(ep, packet, now, frame);
    }

    /** What `handlePacket` does with a packet the base handler did not
        consume: a part is handed to the reassembly (and consumed), anything
        else to the command switch (and not consumed). */
    method HandleOwn(ep: EndPoint, packet: PacketData, now: Int64, frame: Option<Bytes>)
      returns (r: Result<bool>, assembled: Option<Bytes>, ghost imageId: Bits32)
      requires base.Valid() && ep.attributes.Length == AttributeSlots
      modifies ep.attributes, base`nextMessageId, base.sent`packets
      ensures base.Valid()
      ensures packet.HasFlag(FlagMultipartPart) ==>
        var outcome := PartOutcome(base.acked.packets, ep, packet);
        && ep.attributes[..] == old(ep.attributes[..])
        && (outcome.Throw? ==> r == Throw(outcome.fault) && assembled.None?)
        && (outcome.Ok? ==> r == Ok(true) && assembled == outcome.value)
      ensures !packet.HasFlag(FlagMultipartPart) ==> r == Ok(false) && assembled.None?
      ensures !packet.HasFlag(FlagMultipartPart) && packet.command == CommandImageContinuous ==>
        ep.attributes[..] == old(ep.attributes[..])[0 := Some(Long(now + StreamDuration))][1 := Some(0)]
      ensures !packet.HasFlag(FlagMultipartPart) && packet.command == CommandImage ==>
        && ep.attributes[..] == old(ep.attributes[..])
        && (frame.Some? ==>
              var adds := Addressed(ep, ImagePackets(imageId, frame.value));
              && base.nextMessageId == Add32(imageId, |adds|)
              && Queued(base.sent.packets, old(base.sent.packets), adds))
    {
      imageId := base.nextMessageId;
      if packet.HasFlag(FlagMultipartPart) {
        r, assembled := HandlePart(ep, packet);
        return;
      }
      HandleCommand(ep, packet, now, frame);
      r, assembled := Ok(false), None;
    }

    /** The body of `update`'s loop for one endpoint: when its stream is
        due, attribute 1 takes the time and a frame is sent. */
    method StreamTo(ep: EndPoint, now: Int64, frame: Option<Bytes>)
      requires base.Valid() && ep.attributes.Length == AttributeSlots
      modifies ep.attributes, base`nextMessageId, base.sent`packets
      ensures base.Valid()
      ensures ep.attributes[..] == Throttled(old(ep.attributes[..]), now)
      ensures StreamDue(old(ep.attributes[..]), now) ==> FrameQueued(ep, frame)
      ensures !StreamDue(old(ep.attributes[..]), now) ==>
        base.nextMessageId == old(base.nextMessageId) && base.sent.packets == old(base.sent.packets)
    {
      var until := ep.GetAttribute(0, Some(0));
      if until.value.value > now {
        var last := ep.GetAttribute(1, Some(0));
        if Long(now - last.value.value) > FrameInterval {
          var _ := ep.SetAttribute(1, Some(now));
          SendImage(ep, frame);
        }
      }
    }

    /** `update(now)`: the base pass (`BasePacketReceiver.Update`, whose
        due entries are `due`), then the streaming loop, which queues its
        frames behind the sent pool the base pass left (`pool`). An
        exception from the base pass ends `update` before the loop. Each
        `sendImage` call of the loop captures a frame of its own: the one
        for the endpoint at index j is `frames[j]`. */
    method Update(now: Int64, frames: seq<Option<Bytes>>)
      returns (r: Result<()>, ghost due: seq<HandledPacket>, ghost pool: seq<HandledPacket>)
      requires base.Valid()
      requires forall e :: e in base.natPunch.endPointHandler.endPoints ==> e.attributes.Length == AttributeSlots
      requires |frames| == |base.natPunch.endPointHandler.endPoints|
      modifies base.sent`packets, base.acked`packets, base.natPunch.networkLayer`outbox, Resent(base.sent.packets, now)
      modifies set e | e in base.natPunch.endPointHandler.endPoints :: e.attributes, base`nextMessageId
      ensures base.Valid()
      ensures due == old(Resent(base.sent.packets, now))
      ensures AllSendable(due, old(Stamps(due))) ==> r.Ok?
      ensures var eps := old(base.natPunch.endPointHandler.endPoints);
        forall j :: 0 <= j < |eps| ==>
          eps[j].attributes[..] == if r.Ok? then Throttled(old(eps[j].attributes[..]), now) else old(eps[j].attributes[..])
      ensures r.Throw? ==> base.nextMessageId == old(base.nextMessageId) && base.sent.packets == pool
      ensures r.Ok? ==>
        var eps := old(base.natPunch.endPointHandler.endPoints);
        var plan := StreamPlan(eps, old(Slots(eps)), |eps|, now, frames, old(base.nextMessageId));
        && base.nextMessageId == Add32(old(base.nextMessageId), |plan|)
        && Queued(base.sent.packets, pool, plan)
    {
      var eps := base.natPunch.endPointHandler.endPoints;
      ghost var slots := Slots(eps);
      r, due := base.Update(now);
      pool := base.sent.packets;
      assert forall j :: 0 <= j < |eps| ==> eps[j].attributes[..] == slots[j];
      assert Slots(eps) == slots;
      if r.Ok? {
        Throttle(now, frames);
      }
    }

    /** The loop of `update` over the registered endpoints, in list order.
        Every endpoint ends with its slots checked once against their value
        before the loop; frames go out as `StreamPlan` says, each from the
        capture of its own `sendImage` call. */
    method Throttle(now: Int64, frames: seq<Option<Bytes>>)
      requires base.Valid()
      requires forall e :: e in base.natPunch.endPointHandler.endPoints ==> e.attributes.Length == AttributeSlots
      requires |frames| == |base.natPunch.endPointHandler.endPoints|
      modifies set e | e in base.natPunch.endPointHandler.endPoints :: e.attributes
      modifies base`nextMessageId, base.sent`packets
      ensures base.Valid()
      ensures var eps := old(base.natPunch.endPointHandler.endPoints);
        forall j :: 0 <= j < |eps| ==> eps[j].attributes[..] == Throttled(old(eps[j].attributes[..]), now)
      ensures var eps := old(base.natPunch.endPointHandler.endPoints);
        var plan := StreamPlan(eps, old(Slots(eps)), |eps|, now, frames, old(base.nextMessageId));
        && base.nextMessageId == Add32(old(base.nextMessageId), |plan|)
        && Queued(base.sent.packets, old(base.sent.packets), plan)
    {
      var eps := base.natPunch.endPointHandler.endPoints;
      ghost var slots := Slots(eps);
      ghost var pool := base.sent.packets;
      ghost var id := base.nextMessageId;
      assert Sized(eps) by {
        forall j | 0 <= j < |eps|
          ensures eps[j].attributes.Length == AttributeSlots
        {
          assert eps[j] in eps;
        }
      }
      var k := 0;
      while k < |eps|
        invariant 0 <= k <= |eps|
        invariant base.Valid()
        invariant Coherent(eps, slots)
        invariant Sized(eps)
        invariant Checked(eps, slots, k, now) && Streamed(eps, slots, k, now, frames, id, pool)
      {
        assert eps[k] in eps;
        StreamStep(eps, slots, k, now, frames, id, pool);
        k := k + 1;
      }
      Finished(eps, slots, k, now, frames, id, pool);
    }

    /** After the last round every endpoint's array has been visited. */
    lemma Finished(eps: seq<EndPoint>, slots: seq<seq<Option<int>>>, k: nat, now: Int64, frames: seq<Option<Bytes>>,
                   id: Bits32, pool: seq<HandledPacket>)
      requires k == |eps| == |slots| == |frames|
      requires Checked(eps, slots, k, now) && Streamed(eps, slots, k, now, frames, id, pool)
      ensures forall j :: 0 <= j < |eps| ==> eps[j].attributes[..] == Throttled(slots[j], now)
      ensures var plan := StreamPlan(eps, slots, |eps|, now, frames, id);
        base.nextMessageId == Add32(id, |plan|) && Queued(base.sent.packets, pool, plan)
    {
      forall j | 0 <= j < |eps|
        ensures eps[j].attributes[..] == Throttled(slots[j], now)
      {
        assert Visited(eps, |eps|, eps[j].attributes);
      }
    }

    /** The attribute arrays after `Throttle`'s loop has visited the first
        k endpoints: those held by them are checked, the others are as before. */
    ghost predicate Checked(eps: seq<EndPoint>, slots: seq<seq<Option<int>>>, k: nat, now: Int64)
      requires k <= |eps| == |slots|
      reads set e | e in eps :: e.attributes
    {
      forall j :: 0 <= j < |eps| ==>
        eps[j].attributes[..] == if Visited(eps, k, eps[j].attributes) then Throttled(slots[j], now) else slots[j]
    }

    /** The sends after `Throttle`'s loop has visited the first k endpoints:
        the frames of `StreamPlan`, queued under consecutive ids. */
    ghost predicate Streamed(eps: seq<EndPoint>, slots: seq<seq<Option<int>>>, k: nat, now: Int64,
                             frames: seq<Option<Bytes>>, id: Bits32, pool: seq<HandledPacket>)
      requires k <= |eps| == |slots| && k <= |frames|
      reads this, base`nextMessageId, base.sent`packets, base.sent.packets
    {
      var plan := StreamPlan(eps, slots, k, now, frames, id);
      base.nextMessageId == Add32(id, |plan|) && Queued(base.sent.packets, pool, plan)
    }

    /** One round of `Throttle`'s loop, with the loop's invariant as its
        contract. */
    method StreamStep(eps: seq<EndPoint>, ghost slots: seq<seq<Option<int>>>, k: nat, now: Int64,
                      frames: seq<Option<Bytes>>, ghost id: Bits32, ghost pool: seq<HandledPacket>)
      requires k < |eps| == |slots| == |frames|
      requires base.Valid() && eps[k].attributes.Length == AttributeSlots
      requires Coherent(eps, slots)
      requires Checked(eps, slots, k, now) && Streamed(eps, slots, k, now, frames, id, pool)
      modifies eps[k].attributes, base`nextMessageId, base.sent`packets
      ensures base.Valid()
      ensures Checked(eps, slots, k + 1, now) && Streamed(eps, slots, k + 1, now, frames, id, pool)
    {
      var ep := eps[k];
      ghost var before := ep.attributes[..];
      ghost var mid := base.sent.packets;
      ghost var first := !Visited(eps, k, ep.attributes);
      if !first {
        ThrottledOnce(slots[k], now);
      }
      StreamTo(ep, now, frames[k]);
      forall j | 0 <= j < |eps|
        ensures eps[j].attributes[..] == if Visited(eps, k + 1, eps[j].attributes) then Throttled(slots[j], now) else slots[j]
      {
        if eps[j].attributes == ep.attributes {
          assert Visited(eps, k + 1, eps[j].attributes);
        } else {
          assert Visited(eps, k + 1, eps[j].attributes) == Visited(eps, k, eps[j].attributes);
        }
      }
      assert Checked(eps, slots, k + 1, now);
      ghost var plan := StreamPlan(eps, slots, k, now, frames, id);
      if first && StreamDue(slots[k], now) && frames[k].Some? {
        QueuedTwice(base.sent.packets, mid, pool, plan, Addressed(ep, ImagePackets(Add32(id, |plan|), frames[k].value)));
        Add32Add(id, |plan|, PartCount(|frames[k].value|) + 1);
      } else {
        assert StreamPlan(eps, slots, k + 1, now, frames, id) == plan;
      }
    }
  }
}

=== FILE: legacy_packet.dfy ===
/** The legacy text packet (`Packet`): a line-oriented message with an id,
    a resend counter and a resend timer. Its texts are built with
    `String.format("%d")`, so the decimal rendering of Java integers and its
    parser are modelled here too. */
module LegacyPacket {
  import opened Outcomes
  import opened ByteOrder
  import opened Endpoints

  /** `RESEND_INTERVAL_MS`. */
  const ResendInterval := 100

  // ---------------------------------------------------------------------
  // Decimal text, as `%d` writes it

  function DigitChar(d: int): (c: char)
    requires 0 <= d < 10
    ensures '0' <= c <= '9'
  {
    '0' + d as char
  }

  function DigitValue(c: char): int {
    c as int - '0' as int
  }

  predicate IsDigits(s: string) {
    forall i :: 0 <= i < |s| ==> '0' <= s[i] <= '9'
  }

  /** The digits of a natural number, most significant first, no leading zero. */
  function Digits(n: nat): (s: string)
    ensures s != [] && IsDigits(s)
    decreases n
  {
    if n < 10 then [DigitChar(n)] else Digits(n / 10) + [DigitChar(n % 10)]
  }

  /** `%d`: a minus sign for a negative value, then the digits. */
  function Decimal(n: int): (s: string)
    ensures s != [] && ' ' !in s
  {
    if n < 0 then "-" + Digits(-n) else Digits(n)
  }

  /** The value of a run of digits. */
  function ValueOf(s: string): nat
    decreases |s|
  {
    if s == [] then 0 else
      var d := DigitValue(s[|s| - 1]);
      ValueOf(s[..|s| - 1]) * 10 + (if 0 <= d < 10 then d else 0)
  }

  /** Reading a decimal number back: an optional minus sign and at least
      one digit. */
  function ParseDecimal(s: string): Option<int> {
    if s != [] && s[0] == '-' && |s| > 1 && IsDigits(s[1..]) then Some(-(ValueOf(s[1..]) as int))
    else if s != [] && IsDigits(s) then Some(ValueOf(s))
    else None
  }

  lemma {:induction false} ValueOfDigits(n: nat)
    ensures ValueOf(Digits(n)) == n
    decreases n
  {
    if n >= 10 {
      ValueOfDigits(n / 10);
      var s := Digits(n);
      assert s[..|s| - 1] == Digits(n / 10);
    }
  }

  /** Reading back the text `%d` writes gives the number. */
  lemma ParseDecimalDecimal(n: int)
    ensures ParseDecimal(Decimal(n)) == Some(n)
  {
    var s := Decimal(n);
    if n < 0 {
      assert s[0] == '-' && s[1..] == Digits(-n);
      ValueOfDigits(-n);
    } else {
      assert '0' <= s[0] <= '9';
      ValueOfDigits(n);
    }
  }

  // ---------------------------------------------------------------------
  // Splitting at the first space

  /** The index of the first space in s, or |s| when there is none. */
  function FirstSpace(s: string): (k: nat)
    ensures k <= |s|
    decreases |s|
  {
    if s == [] || s[0] == ' ' then 0 else 1 + FirstSpace(s[1..])
  }

  lemma {:induction false} FirstSpaceAfter(u: string, v: string)
    requires ' ' !in u
    ensures FirstSpace(u + " " + v) == |u|
    decreases |u|
  {
    if u != [] {
      assert (u + " " + v)[1..] == u[1..] + " " + v;
      FirstSpaceAfter(u[1..], v);
    }
  }

  /** The text before the first space and the text after it, when there is one. */
  function SplitSpace(s: string): Option<(string, string)> {
    var k := FirstSpace(s);
    if k < |s| then Some((s[..k], s[k + 1..])) else None
  }

  lemma SplitSpaceAfter(u: string, v: string)
    requires ' ' !in u
    ensures SplitSpace(u + " " + v) == Some((u, v))
  {
    FirstSpaceAfter(u, v);
    var s := u + " " + v;
    assert s[..|u|] == u && s[|u| + 1..] == v;
  }

  // ---------------------------------------------------------------------
  // The two texts

  /** How `%s` writes a string reference: a null one as "null". */
  function Shown(data: Option<string>): string {
    if data.None? then "null" else data.value
  }

  /** Reading an acknowledgement line back. */
  function ParseAck(s: string): Option<(int, int)> {
    if |s| < 6 || s[..4] != "ACK " || s[|s| - 2..] != "\r\n" then None else
      match SplitSpace(s[4..|s| - 2])
      case None => None
      case Some((a, b)) =>
        match (ParseDecimal(a), ParseDecimal(b))
        case (Some(id), Some(count)) => Some((id, count))
        case _ => None
  }

  /** `ack`'s text: "ACK <id> <resendCount>\r\n". Reading it back gives
      exactly the id and the count it was made from. */
  function AckText(messageId: int, resendCount: int): (s: string)
    ensures ParseAck(s) == Some((messageId, resendCount))
  {
    var a, b := Decimal(messageId), Decimal(resendCount);
    var s := "ACK " + a + " " + b + "\r\n";
    assert s[..4] == "ACK " && s[|s| - 2..] == "\r\n";
    assert s[4..|s| - 2] == a + " " + b;
    SplitSpaceAfter(a, b);
    ParseDecimalDecimal(messageId);
    ParseDecimalDecimal(resendCount);
    s
  }

  /** Reading a data line back; the payload is everything after the second
      space, spaces included. */
  function ParseGtd(s: string): Option<(int, int, string)> {
    if |s| < 4 || s[..4] != "GTD " then None else
      match SplitSpace(s[4..])
      case None => None
      case Some((a, rest)) =>
        match SplitSpace(rest)
        case None => None
        case Some((b, payload)) =>
          match (ParseDecimal(a), ParseDecimal(b))
          case (Some(id), Some(count)) => Some((id, count, payload))
          case _ => None
  }

  /** `getData`'s text: "GTD <id> <resendCount> <data>". Reading it back
      gives the id, the count and the payload it was made from, whatever the
      payload holds. */
  function GtdText(messageId: int, resendCount: int, data: Option<string>): (s: string)
    ensures ParseGtd(s) == Some((messageId, resendCount, Shown(data)))
  {
    var a, b, c := Decimal(messageId), Decimal(resendCount), Shown(data);
    var s := "GTD " + a + " " + b + " " + c;
    assert s[..4] == "GTD ";
    assert s[4..] == a + " " + (b + " " + c);
    SplitSpaceAfter(a, b + " " + c);
    SplitSpaceAfter(b, c);
    ParseDecimalDecimal(messageId);
    ParseDecimalDecimal(resendCount);
    s
  }

  // ---------------------------------------------------------------------
  // The packet

  class Packet {
    var data: Option<string>
    const messageId: Int64
    var resendCount: Int16
    var destination: EndPoint?
    var lastSent: Int64

    /** `new Packet(messageId, data, destination)` at time `now`. */
    constructor (messageId: Int64, data: Option<string>, destination: EndPoint?, now: Int64)
      ensures this.messageId == messageId && this.data == data && this.destination == destination
      ensures resendCount == 0 && lastSent == now
    {
      this.messageId := messageId;
      this.data := data;
      this.destination := destination;
      resendCount := 0;
      lastSent := now;
    }

    /** `Packet.ack`: a fresh packet whose text acknowledges `messageId` at
        the given resend count; its own counter starts at 0. */
    static method Ack(messageId: Int64, resendCount: Int16, destination: EndPoint?, now: Int64) returns (p: Packet)
      ensures fresh(p)
      ensures p.messageId == messageId && p.destination == destination
      ensures p.data == Some(AckText(messageId, resendCount))
      ensures p.resendCount == 0 && p.lastSent == now
    {
      p := new Packet(messageId, Some(AckText(messageId, resendCount)), destination, now);
    }

    /** `Packet.delayed`: a packet that has never been sent, so that the
        first resend check fires (counter -1, last sent at time 0). */
    static method Delayed(messageId: Int64, destination: EndPoint?, data: Option<string>) returns (p: Packet)
      ensures fresh(p)
      ensures p.messageId == messageId && p.destination == destination && p.data == data
      ensures p.resendCount == -1 && p.lastSent == 0
    {
      p := new Packet(messageId, data, destination, 0);
      p.resendCount := -1;
      p.lastSent := 0;
    }

    /** `getData`. */
    function GetData(): (s: string)
      reads this`data, this`resendCount
      ensures ParseGtd(s) == Some((messageId, resendCount, Shown(data)))
    {
      GtdText(messageId, resendCount, data)
    }

    /** `shouldResend(now)`: more than the resend interval has passed since
        the last send, the difference taken as a `long`. A delayed packet
        (last sent at time 0) is due at any time past the interval; one sent
        just now is not. */
    function ShouldResend(now: Int64): (b: bool)
      reads this`lastSent
      ensures lastSent == 0 && ResendInterval < now ==> b
      ensures now == lastSent ==> !b
    {
      Long(now - lastSent) > ResendInterval
    }

    /** `hasResent` at time `now`: the timer restarts and the counter goes up
        by one, wrapping as a `short`. */
    method HasResent(now: Int64)
      modifies this`lastSent, this`resendCount
      ensures lastSent == now && resendCount == Short(old(resendCount) + 1)
      ensures !ShouldResend(now)
    {
      lastSent := now;
      resendCount := Short(resendCount + 1);
    }
  }

  /** Without overflow, the resend check is exactly "more than 100 ms since
      the last send". */
  lemma ShouldResendWhen(p: Packet, now: Int64)
    requires -0x8000_0000_0000_0000 <= now - p.lastSent < 0x8000_0000_0000_0000
    ensures p.ShouldResend(now) <==> now - p.lastSent > 100
  {
  }
}

=== FILE: lists.dfy ===
/** The two `java.util.ArrayList` removals the library relies on. Neither
    `EndPoint` nor `HandledPacket` overrides `equals`, so both compare
    elements by identity, which is Dafny's `==` on class references. */
module Lists {

  /** `list.remove(x)`: the first occurrence of x, if any, is dropped. */
  function RemoveFirst<T(==)>(s: seq<T>, x: T): (r: seq<T>)
    ensures x !in s ==> r == s
    ensures x in s ==> |r| == |s| - 1
  {
    if s == [] then []
    else if s[0] == x then
      assert s == [s[0]] + s[1..];
      s[1..]
    else
      assert s == [s[0]] + s[1..];
      [s[0]] + RemoveFirst(s[1..], x)
  }

  /** Exactly one occurrence of x goes, and nothing else. */
  lemma {:induction false} RemoveFirstMultiset<T>(s: seq<T>, x: T)
    ensures multiset(RemoveFirst(s, x)) == multiset(s) - multiset{x}
  {
    if s != [] {
      assert s == [s[0]] + s[1..];
      RemoveFirstMultiset(s[1..], x);
    }
  }

  /** Only x can go missing, and nothing is added. */
  lemma {:induction false} RemoveFirstMembers<T>(s: seq<T>, x: T)
    ensures forall y :: y in RemoveFirst(s, x) ==> y in s
    ensures forall y :: y in s && y != x ==> y in RemoveFirst(s, x)
  {
    if s != [] {
      assert s == [s[0]] + s[1..];
      RemoveFirstMembers(s[1..], x);
    }
  }

  /** Removing the first occurrence keeps everything before and after it, in order. */
  lemma {:induction false} RemoveFirstAt<T>(s: seq<T>, x: T, i: nat)
    requires i < |s| && s[i] == x && forall j :: 0 <= j < i ==> s[j] != x
    ensures RemoveFirst(s, x) == s[..i] + s[i + 1..]
    decreases i
  {
    if i > 0 {
      RemoveFirstAt(s[1..], x, i - 1);
      assert s[1..][..i - 1] == s[1..i];
      assert s[1..][i..] == s[i + 1..];
      assert [s[0]] + s[1..i] == s[..i];
    }
  }

  /** `list.removeAll(c)`: every element that occurs in c is dropped. */
  function RemoveAll<T(==)>(s: seq<T>, c: seq<T>): (r: seq<T>)
    ensures forall x :: x in r ==> x in s && x !in c
    ensures forall x :: x in s && x !in c ==> x in r
    ensures |r| <= |s|
  {
    if s == [] then []
    else
      assert s == [s[0]] + s[1..];
      (if s[0] in c then [] else [s[0]]) + RemoveAll(s[1..], c)
  }

  /** `removeAll` keeps the survivors in their order: it works piecewise. */
  lemma {:induction false} RemoveAllAppend<T>(a: seq<T>, b: seq<T>, c: seq<T>)
    ensures RemoveAll(a + b, c) == RemoveAll(a, c) + RemoveAll(b, c)
    decreases |a|
  {
    if a != [] {
      assert (a + b)[1..] == a[1..] + b;
      RemoveAllAppend(a[1..], b, c);
    } else {
      assert a + b == b;
    }
  }

  /** No element occurs twice. */
  predicate Distinct<T(==)>(s: seq<T>) {
    forall i, j :: 0 <= i < j < |s| ==> s[i] != s[j]
  }

  /** Deleting one position keeps the elements distinct. */
  lemma DistinctWithout<T>(s: seq<T>, i: nat)
    requires Distinct(s) && i < |s|
    ensures Distinct(s[..i] + s[i + 1..])
  {
    var r := s[..i] + s[i + 1..];
    forall a, b | 0 <= a < b < |r| ensures r[a] != r[b] {
      var a' := if a < i then a else a + 1;
      var b' := if b < i then b else b + 1;
      assert r[a] == s[a'] && r[b] == s[b'];
    }
  }

  /** Appending an element that does not occur keeps the elements distinct. */
  lemma DistinctSnoc<T>(s: seq<T>, x: T)
    requires Distinct(s) && x !in s
    ensures Distinct(s + [x])
  {
  }
}

=== FILE: md5_hex.dfy ===
/** `MD5.hex`: the lower-case hexadecimal text of a byte range. (The digest
    itself, `MD5.hash`, is a call into the Java runtime and is not part of
    this model.) */
module Md5Hex {
  import opened Outcomes
  import opened ByteOrder

  /** The lower-case hexadecimal digit of a nibble. */
  function LowerDigit(n: int): (c: char)
    requires 0 <= n < 16
    ensures '0' <= c <= '9' || 'a' <= c <= 'f'
  {
    if n < 10 then '0' + n as char else 'a' + (n - 10) as char
  }

  /** The value of a lower-case hexadecimal digit. */
  function LowerValue(c: char): nat {
    if '0' <= c <= '9' then (c - '0') as nat
    else if 'a' <= c <= 'f' then (c - 'a') as nat + 10
    else 0
  }

  lemma LowerDigitValue(n: int)
    requires 0 <= n < 16
    ensures LowerValue(LowerDigit(n)) == n
  {
  }

  /** `Integer.toHexString((b & 0xFF) | 0x100).substring(1, 3)`: the two
      digits of a byte, high nibble first, the leading zero kept. */
  function ByteHex(b: Byte): (s: string)
    ensures |s| == 2
  {
    [LowerDigit(b / 16), LowerDigit(b % 16)]
  }

  /** The text of a run of bytes, two digits per byte in order. */
  function HexText(bytes: Bytes): (s: string)
    ensures |s| == 2 * |bytes|
    decreases |bytes|
  {
    if bytes == [] then "" else HexText(bytes[..|bytes| - 1]) + ByteHex(bytes[|bytes| - 1])
  }

  /** Reading the text back two digits at a time. */
  function HexBytes(s: string): Bytes
    decreases |s|
  {
    if |s| < 2 then [] else
      var v := LowerValue(s[0]) * 16 + LowerValue(s[1]);
      [if v < 0x100 then v else 0] + HexBytes(s[2..])
  }

  /** What `hex(data, offset, length)` returns or throws: the loop runs
      from `offset` up to, but excluding, `length`, so with `offset >=
      length` nothing is read and the text is empty, even for a null array.
      Otherwise a null array throws, and so does an index outside it. */
  function HexRange(data: Option<Bytes>, offset: int, length: int): (r: Result<string>)
    ensures r.Ok? ==> |r.value| == if offset < length then 2 * (length - offset) else 0
    ensures r.Ok? && offset < length ==>
              data.Some? && 0 <= offset && length <= |data.value| && HexBytes(r.value) == data.value[offset..length]
  {
    if offset >= length then Ok("")
    else if data.None? then Throw(NullPointer)
    else if offset < 0 || length > |data.value| then Throw(IndexOutOfBounds)
    else
      HexBytesHexText(data.value[offset..length]);
      Ok(HexText(data.value[offset..length]))
  }

  /** `hex(data, offset, length)`. */
  method Hex(data: Option<Bytes>, offset: int, length: int) returns (r: Result<string>)
    ensures r == HexRange(data, offset, length)
  {
    if offset >= length {
      return Ok("");
    }
    if data.None? {
      return Throw(NullPointer);
    }
    var d := data.value;
    var sb := "";
    ghost var done: Bytes := [];
    var i := offset;
    while i < length
      invariant offset <= i <= length
      invariant offset < i ==> 0 <= offset && i <= |d| && done == d[offset..i]
      invariant offset == i ==> done == []
      invariant sb == HexText(done)
      decreases length - i
    {
      if i < 0 || i >= |d| {
        return Throw(IndexOutOfBounds);
      }
      HexTextSnoc(done, d[i]);
      done := done + [d[i]];
      sb := sb + ByteHex(d[i]);
      i := i + 1;
    }
    assert offset < i;
    r := Ok(sb);
  }

  /** `hex(data)`: `data.length` is read first, so a null array throws;
      otherwise the whole array is rendered. */
  method HexAll(data: Option<Bytes>) returns (r: Result<string>)
    ensures data.None? ==> r == Throw(NullPointer)
    ensures data.Some? ==> r == Ok(HexText(data.value)) && |r.value| == 2 * |data.value|
  {
    if data.None? {
      return Throw(NullPointer);
    }
    r := Hex(data, 0, |data.value|);
    assert data.value[0..|data.value|] == data.value;
  }

  /** The text holds only lower-case hexadecimal digits, and digits 2j and
      2j+1 are the high and low nibble of byte j. */
  lemma {:induction false} HexTextDigits(bytes: Bytes)
    ensures forall j :: 0 <= j < |bytes| ==>
      HexText(bytes)[2 * j] == LowerDigit(bytes[j] / 16) && HexText(bytes)[2 * j + 1] == LowerDigit(bytes[j] % 16)
    decreases |bytes|
  {
    if bytes != [] {
      var init, last := bytes[..|bytes| - 1], bytes[|bytes| - 1];
      HexTextDigits(init);
      var s, t := HexText(bytes), HexText(init);
      assert s == t + ByteHex(last);
      forall j | 0 <= j < |bytes|
        ensures s[2 * j] == LowerDigit(bytes[j] / 16) && s[2 * j + 1] == LowerDigit(bytes[j] % 16)
      {
        if j < |init| {
          assert bytes[j] == init[j];
          assert s[2 * j] == t[2 * j] && s[2 * j + 1] == t[2 * j + 1];
        } else {
          assert s[2 * j] == ByteHex(last)[0] && s[2 * j + 1] == ByteHex(last)[1];
        }
      }
    }
  }

  /** One more byte adds its two digits at the end. */
  lemma HexTextSnoc(bytes: Bytes, b: Byte)
    ensures HexText(bytes + [b]) == HexText(bytes) + ByteHex(b)
  {
    assert (bytes + [b])[..|bytes|] == bytes;
  }

  /** The text is a faithful rendering: reading it back gives the bytes. */
  lemma {:induction false} HexBytesHexText(bytes: Bytes)
    ensures HexBytes(HexText(bytes)) == bytes
    decreases |bytes|
  {
    if bytes != [] {
      HexTextOfCons(bytes[0], bytes[1..]);
      assert [bytes[0]] + bytes[1..] == bytes;
      var s := HexText(bytes);
      LowerDigitValue(bytes[0] / 16);
      LowerDigitValue(bytes[0] % 16);
      assert s[2..] == HexText(bytes[1..]);
      HexBytesHexText(bytes[1..]);
    }
  }

  /** The text of a byte followed by more bytes starts with that byte's digits. */
  lemma {:induction false} HexTextOfCons(b: Byte, rest: Bytes)
    ensures HexText([b] + rest) == ByteHex(b) + HexText(rest)
    decreases |rest|
  {
    if rest == [] {
      assert [b] + rest == [b];
      assert [b][..0] == [];
    } else {
      var init := rest[..|rest| - 1];
      HexTextOfCons(b, init);
      assert ([b] + rest)[..|rest|] == [b] + init;
    }
  }
}

=== FILE: node.dfy ===
/** A node of the network: `BasePacketReceiver` (message ids, the
    acknowledge-then-deduplicate rule, the sent and acknowledged pools, the
    retry tick and the command handlers) and `NatPunch` (the introducer,
    the node's own identity and one pass of the worker loop). */
module Node {
  import opened Outcomes
  import opened ByteOrder
  import opened Addressing
  import opened Buffers
  import opened Lists
  import opened Packets
  import opened Codec
  import opened Endpoints
  import opened Tracking
  import opened Transport
  import opened Delivery

  /** Size of the worker loop's receive buffer. */
  const ReceiveBufferLength := 2048
  /** Milliseconds between two keepalive rounds. */
  const PingInterval := 30000

  /** The registry after REGISTER: the first endpoint holding the id is
      dropped unless it is the sender itself. */
  function Unregistered(eps: seq<EndPoint>, id: Option<Bytes>, ep: EndPoint): (r: seq<EndPoint>)
    reads eps
    ensures forall e :: e in r ==> e in eps
    ensures forall e :: e in eps && e != ById(eps, id) ==> e in r
    ensures ById(eps, id) != null && ById(eps, id) != ep ==> |r| == |eps| - 1
    ensures ById(eps, id) == null || ById(eps, id) == ep ==> r == eps
  {
    var other := ById(eps, id);
    if other != null && other != ep then
      var o: EndPoint := other;
      RemoveFirstMembers(eps, o);
      RemoveFirst(eps, o)
    else eps
  }

  /** The reading loop of RESPONSE(SHOW): the rows from index 2 on, in
      steps of five while five arguments remain; each row's ports are read
      and its id is used, so a short port or a null id ends the loop with
      an exception. */
  method ReadTable(packet: PacketData) returns (r: Result<()>)
    ensures r == ReadRows(packet, 2)
  {
    var i := 2;
    while i + 5 <= packet.ArgumentCount()
      invariant 2 <= i && ReadRows(packet, i) == ReadRows(packet, 2)
      decreases packet.ArgumentCount() - i
    {
      var row := ReadRow(packet, i);
      if row.Throw? {
        return Throw(row.fault);
      }
      i := i + 5;
    }
    return Ok(());
  }

  /** What the worker loop's receive phase leaves in the inbox when nothing
      throws: every datagram up to and including the first empty one is
      taken (`receive` then returns 0 and the phase ends); with no empty one
      the inbox is drained. */
  function Pending(inbox: seq<Incoming>): seq<Incoming>
  {
    if inbox == [] then []
    else if inbox[0].data == [] then inbox[1..]
    else Pending(inbox[1..])
  }

  /** The datagrams left are a suffix of the inbox: everything before them
      is taken, the last one taken is the empty one that ended the phase,
      and none taken before it is empty. Without an empty datagram the
      inbox is drained. */
  lemma {:induction false} PendingSuffix(inbox: seq<Incoming>)
    ensures var rest := Pending(inbox);
      && (|rest| < |inbox| || inbox == [])
      && rest == inbox[|inbox| - |rest|..]
      && (rest != [] ==> inbox[|inbox| - |rest| - 1].data == [])
      && (forall j :: 0 <= j < |inbox| - |rest| - 1 ==> inbox[j].data != [])
      && ((forall j :: 0 <= j < |inbox| ==> inbox[j].data != []) ==> rest == [])
  {
    if inbox != [] && inbox[0].data != [] {
      PendingSuffix(inbox[1..]);
      var rest := Pending(inbox);
      assert inbox[1..][|inbox| - 1 - |rest|..] == inbox[|inbox| - |rest|..];
      forall j | 0 <= j < |inbox| - |rest| - 1
        ensures inbox[j].data != []
      {
        if j > 0 {
          assert inbox[j] == inbox[1..][j - 1];
        }
      }
    }
  }

  /** `new EndPoint()` given an external pair, as `setIntroducer` and the
      receive loop build one for a peer not yet known. */
  method Stranger(address: Option<Address>, port: Bits32) returns (ep: EndPoint)
    ensures fresh(ep) && fresh(ep.data) && fresh(ep.data.content) && ep.Valid()
    ensures ep.AsIdentity() == Identity(None, address, port, None, 0)
    ensures ep.lastReceive == 0 && !ep.keepAlive && ep.data.position == 0 && ep.data.content.Length == BufferCapacity
  {
    ep := new EndPoint();
    ep.externalAddress := address;
    ep.externalPort := port;
  }

  /** Pools that only lost entries extend the ones they were. */
  twostate lemma PoolsShrink(rx: BasePacketReceiver)
    requires forall p :: p in rx.sent.packets ==> p in old(rx.sent.packets)
    requires forall p :: p in rx.acked.packets ==> p in old(rx.acked.packets)
    ensures rx.PoolsExtend()
  {
  }

  class BasePacketReceiver {
    const natPunch: NatPunch
    var nextMessageId: Bits32
    /** Packets sent (or queued) and not yet acknowledged. */
    const sent: PacketHandler
    /** Packets received, kept for deduplication and reassembly. */
    const acked: PacketHandler

    /** The two pools are distinct objects and no pool entry occurs twice. */
    ghost predicate Valid()
      reads sent`packets, acked`packets
    {
      sent != acked && Distinct(sent.packets) && Distinct(acked.packets)
    }

    /** Both pools hold only entries they held before and new ones. */
    twostate predicate PoolsExtend()
      reads sent`packets, acked`packets
    {
      && (forall i :: 0 <= i < |sent.packets| ==> sent.packets[i] in old(sent.packets) || fresh(sent.packets[i]))
      && (forall i :: 0 <= i < |acked.packets| ==> acked.packets[i] in old(acked.packets) || fresh(acked.packets[i]))
    }

    constructor (natPunch: NatPunch)
      ensures Valid() && this.natPunch == natPunch && nextMessageId == 0
      ensures fresh(sent) && fresh(acked) && sent.packets == [] && acked.packets == []
    {
      this.natPunch := natPunch;
      nextMessageId := 0;
      sent := new PacketHandler();
      acked := new PacketHandler();
    }

    /** `getAndIncrementNextMessageId`: the current id, then the counter
        moves on (an `int`, so it wraps). */
    method NextMessageId() returns (id: Bits32)
      modifies this`nextMessageId
      ensures id == old(nextMessageId) && nextMessageId == Add32(id, 1)
    {
      id := nextMessageId;
      nextMessageId := Add32(nextMessageId, 1);
    }

    /** `sendPacket`: encode, route, record a guaranteed first send in the
        sent pool, then hand the datagram to the network layer. */
    method SendPacket(ep: EndPoint?, packet: PacketData) returns (r: Result<()>)
      requires Valid()
      modifies sent`packets, natPunch.networkLayer`outbox
      ensures PoolsExtend()
      ensures Valid()
      ensures r == SendResult(ep, packet)
      ensures natPunch.networkLayer.outbox
              == old(natPunch.networkLayer.outbox) + Emission(ep, packet, natPunch.networkLayer.localAddress)
      ensures Grown(sent.packets, old(sent.packets), Recorded(ep, packet))
      ensures forall k :: |old(sent.packets)| <= k < |sent.packets| ==> fresh(sent.packets[k])
    {
      var data :- Encode(packet);
      if ep == null {
        return Throw(NullPointer);
      }
      var address, port := ep.externalAddress, ep.externalPort;
      if ep.localAddress.Some? && ep.IsLocal(natPunch.networkLayer.localAddress) {
        address, port := ep.localAddress, ep.localPort;
      }
      if packet.retryCount == 0 && packet.HasFlag(FlagGuaranteed) {
        var h := new HandledPacket(ep, packet);
        DistinctSnoc(sent.packets, h);
        sent.AddPacket(h);
      }
      var _ := natPunch.networkLayer.Send(address, port, data);
      return Ok(());
    }

    /** One step of the keepalive round: a keepalive endpoint gets a NOP
        under a new id; any other endpoint gets nothing. */
    method Ping(ep: EndPoint)
      requires Valid()
      modifies this`nextMessageId, sent`packets, natPunch.networkLayer`outbox
      ensures Valid() && sent.packets == old(sent.packets)
      ensures nextMessageId == Add32(old(nextMessageId), if ep.keepAlive then 1 else 0)
      ensures natPunch.networkLayer.outbox == old(natPunch.networkLayer.outbox)
        + (if ep.keepAlive then Emission(ep, Nop(old(nextMessageId)), natPunch.networkLayer.localAddress) else [])
    {
      if ep.keepAlive {
        var id := NextMessageId();
        var _ := SendPacket(ep, Nop(id));
      } else {
        assert Add32(nextMessageId, 0) == nextMessageId;
      }
    }

    /** `sendPacketDelayed`: nothing is sent; an entry with time 0 and retry
        count -1 is queued, so the next `update` sends it. */
    method SendPacketDelayed(ep: EndPoint?, packet: PacketData) returns (r: Result<()>)
      requires Valid()
      modifies sent`packets
      ensures Valid()
      ensures ep == null ==> r == Throw(IllegalArgument) && sent.packets == old(sent.packets)
      ensures ep != null ==>
        && r.Ok? && |sent.packets| == |old(sent.packets)| + 1
        && sent.packets[..|old(sent.packets)|] == old(sent.packets)
        && fresh(sent.packets[|old(sent.packets)|])
        && Entry(sent.packets[|old(sent.packets)|], ep, packet, 0, -1)
    {
      if ep == null {
        return Throw(IllegalArgument);
      }
      var h := new HandledPacket(ep, packet);
      h.timeLastSent := 0;
      h.retryCount := -1;
      DistinctSnoc(sent.packets, h);
      sent.AddPacket(h);
      return Ok(());
    }

    /** The acknowledge-then-deduplicate step of `handlePacket`. A
        guaranteed packet is acknowledged and deduplicated (`Acknowledge`);
        a non-guaranteed MULTIPART or MULTIPART_PART packet is only recorded.
        The result says whether the command is processed. */
    method Admit(ep: EndPoint, packet: PacketData) returns (r: Result<bool>)
      requires Valid()
      modifies this`nextMessageId, acked`packets, acked.packets, sent`packets, natPunch.networkLayer`outbox
      ensures PoolsExtend()
      ensures Valid()
      ensures !packet.HasFlag(FlagGuaranteed) ==>
        && r == Ok(true) && nextMessageId == old(nextMessageId)
        && natPunch.networkLayer.outbox == old(natPunch.networkLayer.outbox)
        && sent.packets == old(sent.packets)
        && Stamps(old(acked.packets)) == old(Stamps(acked.packets))
        && if packet.HasFlag(FlagMultipart) || packet.HasFlag(FlagMultipartPart)
           then Grown(acked.packets, old(acked.packets), [(ep, packet)]) && fresh(acked.packets[|old(acked.packets)|])
           else acked.packets == old(acked.packets)
      ensures packet.HasFlag(FlagGuaranteed) ==>
        var i := old(IndexOfPacket(acked.packets, ep, packet.messageId));
        && nextMessageId == Add32(old(nextMessageId), 1)
        && natPunch.networkLayer.outbox
           == old(natPunch.networkLayer.outbox) + Emission(ep, AckFor(old(nextMessageId), packet), natPunch.networkLayer.localAddress)
        && sent.packets == old(sent.packets)
        && r == Ok(i == |old(acked.packets)| || packet.retryCount == 0)
        && (i == |old(acked.packets)| ==>
              && Grown(acked.packets, old(acked.packets), [(ep, packet)]) && fresh(acked.packets[i])
              && Stamps(old(acked.packets)) == old(Stamps(acked.packets)))
        && (i < |old(acked.packets)| ==>
              && acked.packets == old(acked.packets)
              && Stamps(acked.packets) == old(Stamps(acked.packets))[i := Restored(old(StampOf(acked.packets[i])), packet)])
    {
      if packet.HasFlag(FlagGuaranteed) {
        var proceed := Acknowledge(ep, packet);
        return Ok(proceed);
      } else if packet.HasFlag(FlagMultipart) || packet.HasFlag(FlagMultipartPart) {
        var h := new HandledPacket(ep, packet);
        DistinctSnoc(acked.packets, h);
        acked.AddPacket(h);
      }
      return Ok(true);
    }

    /** A guaranteed packet: a new id for its ACKNOWLEDGE, the lookup in
        the acknowledged pool (`Deduplicate`), then the ACKNOWLEDGE itself.
        The result says whether the command is processed. */
    method Acknowledge(ep: EndPoint, packet: PacketData) returns (proceed: bool)
      requires Valid()
      modifies this`nextMessageId, acked`packets, acked.packets`packet, sent`packets, natPunch.networkLayer`outbox
      ensures PoolsExtend()
      ensures Valid()
      ensures var i := old(IndexOfPacket(acked.packets, ep, packet.messageId));
        && nextMessageId == Add32(old(nextMessageId), 1)
        && natPunch.networkLayer.outbox
           == old(natPunch.networkLayer.outbox) + Emission(ep, AckFor(old(nextMessageId), packet), natPunch.networkLayer.localAddress)
        && sent.packets == old(sent.packets)
        && proceed == (i == |old(acked.packets)| || packet.retryCount == 0)
        && (i == |old(acked.packets)| ==>
              && Grown(acked.packets, old(acked.packets), [(ep, packet)]) && fresh(acked.packets[i])
              && Stamps(old(acked.packets)) == old(Stamps(acked.packets)))
        && (i < |old(acked.packets)| ==>
              && acked.packets == old(acked.packets)
              && Stamps(acked.packets) == old(Stamps(acked.packets))[i := Restored(old(StampOf(acked.packets[i])), packet)])
    {
      proceed := Deduplicate(ep, packet);
      ghost var pool, stamps := acked.packets, Stamps(acked.packets);
      SendAck(ep, packet);
      assert acked.packets == pool && Stamps(acked.packets) == stamps;
    }

    /** The acknowledged-pool side of `handlePacket` for a guaranteed
        packet: a packet not seen before is recorded, a packet seen before
        and sent afresh (retry count 0) replaces the stored one. The result
        says whether the packet is processed. */
    method Deduplicate(ep: EndPoint, packet: PacketData) returns (proceed: bool)
      requires Valid()
      modifies acked`packets, acked.packets`packet
      ensures Valid()
      ensures var i := old(IndexOfPacket(acked.packets, ep, packet.messageId));
        && proceed == (i == |old(acked.packets)| || packet.retryCount == 0)
        && (i == |old(acked.packets)| ==>
              && Grown(acked.packets, old(acked.packets), [(ep, packet)]) && fresh(acked.packets[i])
              && Stamps(old(acked.packets)) == old(Stamps(acked.packets)))
        && (i < |old(acked.packets)| ==>
              && acked.packets == old(acked.packets)
              && Stamps(acked.packets) == old(Stamps(acked.packets))[i := Restored(old(StampOf(acked.packets[i])), packet)])
    {
      ghost var i := IndexOfPacket(acked.packets, ep, packet.messageId);
      ghost var before := Stamps(acked.packets);
      var found := acked.FindPacket(ep, packet.messageId);
      proceed := false;
      if found == null {
        proceed := true;
        var h := new HandledPacket(ep, packet);
        DistinctSnoc(acked.packets, h);
        acked.AddPacket(h);
      } else if packet.retryCount == 0 {
        proceed := true;
        found.packet := packet;
        forall j | 0 <= j < |acked.packets|
          ensures Stamps(acked.packets)[j] == before[i := Restored(before[i], packet)][j]
        {
          if j != i {
            assert acked.packets[j] != found;
          }
        }
      }
    }

    /** The ACKNOWLEDGE of a guaranteed packet, under a new id, back to its
        sender; it always encodes and is never tracked. */
    method SendAck(ep: EndPoint, packet: PacketData)
      requires Valid()
      modifies this`nextMessageId, sent`packets, natPunch.networkLayer`outbox
      ensures PoolsExtend()
      ensures Valid()
      ensures nextMessageId == Add32(old(nextMessageId), 1)
      ensures natPunch.networkLayer.outbox
              == old(natPunch.networkLayer.outbox) + Emission(ep, AckFor(old(nextMessageId), packet), natPunch.networkLayer.localAddress)
      ensures sent.packets == old(sent.packets)
    {
      var id := NextMessageId();
      AckEncodes(id, packet);
      ghost var pool := sent.packets;
      var sending := SendPacket(ep, AckFor(id, packet));
      assert sent.packets == sent.packets[..|pool|] == pool;
    }

    /** One pass of `update`'s loop: the entry is stamped, both retry counts
        go up by one and its packet is sent again. */
    method Retry(h: HandledPacket, now: int) returns (r: Result<()>)
      requires Valid()
      modifies h`timeLastSent, h`retryCount, h`packet, sent`packets, natPunch.networkLayer`outbox
      ensures Valid()
      ensures StampOf(h) == Retried(old(StampOf(h)), now)
      ensures r == SendResult(h.endPoint, h.packet)
      ensures natPunch.networkLayer.outbox
              == old(natPunch.networkLayer.outbox) + Emission(h.endPoint, h.packet, natPunch.networkLayer.localAddress)
      ensures Grown(sent.packets, old(sent.packets), Recorded(h.endPoint, h.packet))
      ensures forall k :: |old(sent.packets)| <= k < |sent.packets| ==> fresh(sent.packets[k])
    {
      h.timeLastSent := now;
      h.retryCount := Short(h.retryCount + 1);
      h.packet := Bumped(h.packet);
      r := SendPacket(h.endPoint, h.packet);
    }

    /** How far `update`'s loop has got: the entries before `|jobs|` have
        been retried (their jobs are `jobs`, their datagrams were queued
        after `outbox0` and their recordings appended to `pool0`), the rest
        still hold the values `before` recorded. */
    ghost predicate Progress(due: seq<HandledPacket>, before: seq<Stamp>, now: int, jobs: seq<Job>,
                             outbox0: seq<Datagram>, pool0: seq<HandledPacket>)
      reads due, set h | h in due :: h.endPoint, sent, natPunch.networkLayer
    {
      && |jobs| <= |due| == |before|
      && (forall j :: 0 <= j < |jobs| ==> StampOf(due[j]) == Retried(before[j], now))
      && (forall j :: 0 <= j < |jobs| ==> jobs[j] == JobFor(due[j].endPoint, due[j].packet, natPunch.networkLayer.localAddress))
      && (forall j :: |jobs| <= j < |due| ==> StampOf(due[j]) == before[j])
      && natPunch.networkLayer.outbox == outbox0 + Emissions(jobs)
      && |sent.packets| == |pool0| + |Recordings(jobs)| && sent.packets[..|pool0|] == pool0
    }

    /** Retrying entry `|jobs|` with `job` moves the loop on by one. */
    lemma Advance(due: seq<HandledPacket>, before: seq<Stamp>, now: int, jobs: seq<Job>, job: Job,
                  outbox0: seq<Datagram>, pool0: seq<HandledPacket>)
      requires |jobs| < |due| == |before|
      requires forall j :: 0 <= j < |jobs| ==> StampOf(due[j]) == Retried(before[j], now)
      requires forall j :: 0 <= j < |jobs| ==> jobs[j] == JobFor(due[j].endPoint, due[j].packet, natPunch.networkLayer.localAddress)
      requires StampOf(due[|jobs|]) == Retried(before[|jobs|], now)
      requires job == JobFor(due[|jobs|].endPoint, due[|jobs|].packet, natPunch.networkLayer.localAddress)
      requires forall j :: |jobs| < j < |due| ==> StampOf(due[j]) == before[j]
      requires natPunch.networkLayer.outbox == outbox0 + Emissions(jobs) + Sent(job)
      requires |sent.packets| == |pool0| + |Recordings(jobs)| + |Records(job)| && sent.packets[..|pool0|] == pool0
      ensures Progress(due, before, now, jobs + [job], outbox0, pool0)
    {
      var jobs' := jobs + [job];
      forall j | 0 <= j < |jobs'|
        ensures StampOf(due[j]) == Retried(before[j], now)
        ensures jobs'[j] == JobFor(due[j].endPoint, due[j].packet, natPunch.networkLayer.localAddress)
      {
        if j < |jobs| {
          assert jobs'[j] == jobs[j];
        }
      }
      EmissionsSnoc(outbox0, jobs, job);
    }

    /** One pass of `update`'s loop: the next entry is retried. */
    method RetryNext(due: seq<HandledPacket>, i: nat, now: int, ghost before: seq<Stamp>, ghost jobs: seq<Job>,
                     ghost outbox0: seq<Datagram>, ghost pool0: seq<HandledPacket>)
      returns (r: Result<()>, ghost jobs': seq<Job>)
      requires Valid() && Distinct(due) && i == |jobs| < |due|
      requires Progress(due, before, now, jobs, outbox0, pool0)
      modifies due
      modifies sent`packets, natPunch.networkLayer`outbox
      ensures Valid()
      ensures r == SendResult(due[i].endPoint, Bumped(before[i].packet))
      ensures r.Ok? ==> |jobs'| == i + 1 && jobs'[..i] == jobs && Progress(due, before, now, jobs', outbox0, pool0)
    {
      var h := due[i];
      ghost var mid := sent.packets;
      r := Retry(h, now);
      jobs' := jobs + [JobFor(h.endPoint, h.packet, natPunch.networkLayer.localAddress)];
      if r.Throw? {
        return;
      }
      assert sent.packets[..|pool0|] == mid[..|pool0|];
      JobIsSend(h.endPoint, h.packet, natPunch.networkLayer.localAddress);
      forall j | 0 <= j < |due| && j != i
        ensures StampOf(due[j]) == old(StampOf(due[j]))
      {
        assert due[j] != h;
      }
      Advance(due, before, now, jobs, jobs'[i], outbox0, pool0);
      assert jobs'[..i] == jobs;
    }

    /** `update`'s loop over the entries due for a retry: each is retried
        in turn, and the first failing send ends the loop. */
    method RetryAll(due: seq<HandledPacket>, now: int) returns (r: Result<()>)
      requires Valid() && Distinct(due)
      modifies due, sent`packets, natPunch.networkLayer`outbox
      ensures Valid()
      ensures AllSendable(due, old(Stamps(due))) ==> r.Ok?
      ensures r.Ok? ==>
        && Stamps(due) == RetriedAll(old(Stamps(due)), now)
        && natPunch.networkLayer.outbox
           == old(natPunch.networkLayer.outbox) + Emissions(Jobs(due, natPunch.networkLayer.localAddress))
        && |sent.packets| == |old(sent.packets)| + |Recordings(Jobs(due, natPunch.networkLayer.localAddress))|
        && sent.packets[..|old(sent.packets)|] == old(sent.packets)
      ensures r.Ok? && (forall i :: 0 <= i < |due| ==> !Tracked(due[i].packet)) ==> sent.packets == old(sent.packets)
    {
      ghost var before := Stamps(due);
      ghost var jobs: seq<Job> := [];
      assert sent.packets[..|old(sent.packets)|] == old(sent.packets);
      var i := 0;
      while i < |due|
        invariant i == |jobs| && Valid() && before == old(Stamps(due))
        invariant Progress(due, before, now, jobs, old(natPunch.networkLayer.outbox), old(sent.packets))
      {
        r, jobs := RetryNext(due, i, now, before, jobs, old(natPunch.networkLayer.outbox), old(sent.packets));
        if r.Throw? {
          return;
        }
        i := i + 1;
      }
      assert Jobs(due, natPunch.networkLayer.localAddress) == jobs;
      assert Stamps(due) == RetriedAll(before, now);
      if forall i :: 0 <= i < |due| ==> !Tracked(due[i].packet) {
        NothingRetracked(jobs);
        assert sent.packets == sent.packets[..|old(sent.packets)|];
      }
      return Ok(());
    }

    /** The first step of `update`: `getPacketsToResend` returns the due
        entries, which stay in the sent pool, and removes from the pool only
        the entries the resend sweep drops (retries used up, or sent and not
        guaranteed). */
    method TakeDue(now: int) returns (due: seq<HandledPacket>)
      requires Valid()
      modifies sent`packets
      ensures Valid() && Distinct(due)
      ensures due == old(Resent(sent.packets, now))
      ensures sent.packets == old(Kept(sent.packets, now, Resend))
      ensures forall i :: 0 <= i < |due| ==> due[i] in old(sent.packets) && old(allocated(due[i]))
      ensures Stamps(due) == old(Stamps(due))
    {
      ResentDistinct(sent.packets, now);
      KeptDistinct(sent.packets, now, Resend);
      ResentWithin(sent.packets, now);
      due := sent.GetPacketsToResend(now);
    }

    /** The last step of `update`: both pools drop what the eviction sweep
        drops; the retried entries are left as they are. */
    method Evict(now: int, ghost due: seq<HandledPacket>)
      requires Valid()
      modifies sent`packets, acked`packets
      ensures Valid()
      ensures Jobs(due, natPunch.networkLayer.localAddress) == old(Jobs(due, natPunch.networkLayer.localAddress))
      ensures Stamps(due) == old(Stamps(due))
      ensures sent.packets == Kept(old(sent.packets), now, Eviction)
      ensures acked.packets == Kept(old(acked.packets), now, Eviction)
    {
      KeptDistinct(sent.packets, now, Eviction);
      KeptDistinct(acked.packets, now, Eviction);
      sent.RemoveOldPackets(now);
      acked.RemoveOldPackets(now);
    }

    /** The retry loop and the eviction sweeps of `update`, given the due
        entries (`due`) that `getPacketsToResend` returned; they are still
        in the sent pool. */
    method RetryAndEvict(due: seq<HandledPacket>, now: int) returns (r: Result<()>)
      requires Valid() && Distinct(due)
      modifies due, sent`packets, acked`packets, natPunch.networkLayer`outbox
      ensures Valid()
      ensures AllSendable(due, old(Stamps(due))) ==> r.Ok?
      ensures r.Ok? ==>
        && Stamps(due) == RetriedAll(old(Stamps(due)), now)
        && natPunch.networkLayer.outbox
           == old(natPunch.networkLayer.outbox) + Emissions(Jobs(due, natPunch.networkLayer.localAddress))
        && acked.packets == Kept(old(acked.packets), now, Eviction)
      ensures r.Ok? && (forall i :: 0 <= i < |due| ==> !Tracked(due[i].packet)) ==>
        sent.packets == Kept(old(sent.packets), now, Eviction)
    {
      r := RetryAll(due, now);
      if r.Throw? {
        return;
      }
      Evict(now, due);
    }

    /** `update(now)`: every entry `getPacketsToResend` returns (`due`) is
        retried in list order, then both pools drop what the eviction sweep
        drops. A failing send ends the pass before the eviction sweeps. */
    method Update(now: int) returns (r: Result<()>, ghost due: seq<HandledPacket>)
      requires Valid()
      modifies sent`packets, acked`packets, natPunch.networkLayer`outbox, Resent(sent.packets, now)
      ensures Valid()
      ensures due == old(Resent(sent.packets, now))
      ensures forall i :: 0 <= i < |due| ==> due[i] in old(sent.packets) && old(allocated(due[i]))
      ensures AllSendable(due, old(Stamps(due))) ==> r.Ok?
      ensures r.Ok? ==>
        && Stamps(due) == RetriedAll(old(Stamps(due)), now)
        && natPunch.networkLayer.outbox
           == old(natPunch.networkLayer.outbox) + Emissions(Jobs(due, natPunch.networkLayer.localAddress))
        && acked.packets == Kept(old(acked.packets), now, Eviction)
      ensures r.Ok? && (forall i :: 0 <= i < |due| ==> !Tracked(due[i].packet)) ==>
        sent.packets == Kept(old(Kept(sent.packets, now, Resend)), now, Eviction)
    {
      var toResend := TakeDue(now);
      due := toResend;
      r := RetryAndEvict(toResend, now);
    }

    // -------------------------------------------------------------------
    // Command handlers. Each returns `handlePacket`'s value for its
    // command: false after a `break`, or the exception it raises.

    /** `register` to the registry's introducer, carrying the node's id and
        its local pair, under a new id. */
    method SendRegister() returns (r: Result<()>)
      requires Valid()
      modifies this`nextMessageId, sent`packets, natPunch.networkLayer`outbox
      ensures PoolsExtend()
      ensures Valid()
      ensures nextMessageId == Add32(old(nextMessageId), 1)
      ensures var register := Register(old(nextMessageId), natPunch.id, Some(natPunch.networkLayer.localAddress),
                                       natPunch.networkLayer.localPort);
        var to := natPunch.endPointHandler.introducer;
        && r == SendResult(to, register)
        && natPunch.networkLayer.outbox
           == old(natPunch.networkLayer.outbox) + Emission(to, register, natPunch.networkLayer.localAddress)
        && Grown(sent.packets, old(sent.packets), Recorded(to, register))
    {
      var id := NextMessageId();
      r := SendPacket(natPunch.endPointHandler.introducer,
                      Register(id, natPunch.id, Some(natPunch.networkLayer.localAddress), natPunch.networkLayer.localPort));
    }

    /** The first step of REGISTER: the endpoint holding the id, when it is
        not the sender, leaves the registry. */
    method Unregister(id: Option<Bytes>, ep: EndPoint)
      requires natPunch.endPointHandler.Valid()
      modifies natPunch.endPointHandler`endPoints
      ensures natPunch.endPointHandler.Valid() && natPunch.endPointHandler.Repr == old(natPunch.endPointHandler.Repr)
      ensures natPunch.endPointHandler.endPoints == old(Unregistered(natPunch.endPointHandler.endPoints, id, ep))
    {
      ghost var remaining := Unregistered(natPunch.endPointHandler.endPoints, id, ep);
      var other := natPunch.endPointHandler.FindById(id);
      if other != null && other != ep {
        natPunch.endPointHandler.RemoveEndPoint(other);
      }
      assert natPunch.endPointHandler.endPoints == remaining;
    }

    /** The registry side of REGISTER (arguments: id, local address, local
        port). An endpoint other than the sender that holds the id is
        dropped; the sender takes the id, then the local address when it
        resolves (a failed lookup keeps the old one), then the local port,
        whose read may throw, and only after that becomes a keepalive peer. */
    method Enrol(ep: EndPoint, packet: PacketData) returns (r: Result<()>)
      requires natPunch.endPointHandler.Valid()
      modifies natPunch.endPointHandler`endPoints, ep`id, ep`localAddress, ep`localPort, ep`keepAlive
      ensures natPunch.endPointHandler.Extends()
      ensures natPunch.endPointHandler.Valid()
      ensures natPunch.endPointHandler.endPoints == old(Unregistered(natPunch.endPointHandler.endPoints, packet.Argument(0), ep))
      ensures ep.id == packet.Argument(0)
      ensures ep.localAddress == if ByAddress(packet.Argument(1)).Some? then ByAddress(packet.Argument(1)) else old(ep.localAddress)
      ensures r.Throw? <==> WrapGetInt(packet.Argument(2)).Throw?
      ensures r.Throw? ==> r.fault == WrapGetInt(packet.Argument(2)).fault
                           && ep.localPort == old(ep.localPort) && ep.keepAlive == old(ep.keepAlive)
      ensures r.Ok? ==> ep.localPort == WrapGetInt(packet.Argument(2)).value && ep.keepAlive
    {
      var id := packet.Argument(0);
      Unregister(id, ep);
      ep.id := id;
      var localAddress := ByAddress(packet.Argument(1));
      if localAddress.Some? {
        ep.localAddress := localAddress;
      }
      ShrinkExtends(natPunch.endPointHandler);
      var localPort :- WrapGetInt(packet.Argument(2));
      ep.localPort := localPort;
      ep.keepAlive := true;
      return Ok(());
    }

    /** REGISTER: fewer than three arguments are ignored. Otherwise the
        sender is enrolled; the reply then takes a new id, and a sender
        without an external address makes it throw. The reply tells the
        sender its external pair. */
    method HandleRegister(ep: EndPoint, packet: PacketData) returns (r: Result<bool>)
      requires Valid() && natPunch.endPointHandler.Valid()
      modifies natPunch.endPointHandler`endPoints, ep`id, ep`localAddress, ep`localPort, ep`keepAlive
      modifies this`nextMessageId, sent`packets, natPunch.networkLayer`outbox
      ensures natPunch.endPointHandler.Extends()
      ensures PoolsExtend()
      ensures Valid() && natPunch.endPointHandler.Valid()
      ensures packet.ArgumentCount() < 3 ==>
        r == Ok(false) && unchanged(this, sent, ep, natPunch.endPointHandler, natPunch.networkLayer)
      ensures packet.ArgumentCount() >= 3 ==>
        && natPunch.endPointHandler.endPoints == old(Unregistered(natPunch.endPointHandler.endPoints, packet.Argument(0), ep))
        && ep.id == packet.Argument(0)
        && ep.localAddress == (if ByAddress(packet.Argument(1)).Some? then ByAddress(packet.Argument(1)) else old(ep.localAddress))
      ensures packet.ArgumentCount() >= 3 && WrapGetInt(packet.Argument(2)).Throw? ==>
        && r == Throw(WrapGetInt(packet.Argument(2)).fault)
        && ep.localPort == old(ep.localPort) && ep.keepAlive == old(ep.keepAlive)
        && unchanged(this, sent, natPunch.networkLayer)
      ensures packet.ArgumentCount() >= 3 && WrapGetInt(packet.Argument(2)).Ok? ==>
        && ep.localPort == WrapGetInt(packet.Argument(2)).value && ep.keepAlive
        && nextMessageId == Add32(old(nextMessageId), 1)
        && (ep.externalAddress.None? ==> r == Throw(NullPointer) && unchanged(sent, natPunch.networkLayer))
        && (ep.externalAddress.Some? ==>
              var reply := RegisterReply(old(nextMessageId), ep.externalAddress.value, ep.externalPort);
              && r == Returning(SendResult(ep, reply), false)
              && natPunch.networkLayer.outbox
                 == old(natPunch.networkLayer.outbox) + Emission(ep, reply, natPunch.networkLayer.localAddress)
              && Grown(sent.packets, old(sent.packets), Recorded(ep, reply)))
    {
      if packet.ArgumentCount() < 3 {
        return Ok(false);
      }
      var _ :- Enrol(ep, packet);
      var id := NextMessageId();
      if ep.externalAddress.None? {
        return Throw(NullPointer);
      }
      var sending := SendPacket(ep, RegisterReply(id, ep.externalAddress.value, ep.externalPort));
      return Returning(sending, false);
    }

    /** The find-or-add step of GREET, HELLO and RESPONSE(PUNCH): the
        endpoint registered under the identity's id, or a new endpoint with
        that id appended when there is none, takes the identity's two pairs. */
    method Upsert(who: Identity) returns (e: EndPoint)
      requires natPunch.endPointHandler.Valid()
      modifies natPunch.endPointHandler`endPoints, natPunch.endPointHandler`Repr
      modifies {ById(natPunch.endPointHandler.endPoints, who.id)}`externalAddress,
               {ById(natPunch.endPointHandler.endPoints, who.id)}`externalPort,
               {ById(natPunch.endPointHandler.endPoints, who.id)}`localAddress,
               {ById(natPunch.endPointHandler.endPoints, who.id)}`localPort
      ensures natPunch.endPointHandler.Extends()
      ensures natPunch.endPointHandler.Valid()
      ensures e.AsIdentity() == who
      ensures old(ById(natPunch.endPointHandler.endPoints, who.id)) != null ==>
        e == old(ById(natPunch.endPointHandler.endPoints, who.id))
        && natPunch.endPointHandler.endPoints == old(natPunch.endPointHandler.endPoints)
      ensures old(ById(natPunch.endPointHandler.endPoints, who.id)) == null ==>
        && fresh(e) && natPunch.endPointHandler.endPoints == old(natPunch.endPointHandler.endPoints) + [e]
        && e.lastReceive == 0 && !e.keepAlive
    {
      var found := natPunch.endPointHandler.FindById(who.id);
      if found == null {
        e := new EndPoint();
        e.id := who.id;
        natPunch.endPointHandler.AddEndPoint(e);
        AppendExtends(natPunch.endPointHandler, e);
      } else {
        e := found;
      }
      e.externalAddress := who.externalAddress;
      e.externalPort := who.externalPort;
      e.localAddress := who.localAddress;
      e.localPort := who.localPort;
    }

    /** What GREET and a successful RESPONSE(PUNCH) share: the peer is
        found or added with the identity's pairs, and a HELLO carrying the
        node's own identity goes to it under a new id. */
    method Greeted(who: Identity) returns (r: Result<bool>, ghost peer: EndPoint)
      requires Valid() && natPunch.endPointHandler.Valid()
      modifies natPunch.endPointHandler`endPoints, natPunch.endPointHandler`Repr
      modifies {ById(natPunch.endPointHandler.endPoints, who.id)}`externalAddress,
               {ById(natPunch.endPointHandler.endPoints, who.id)}`externalPort,
               {ById(natPunch.endPointHandler.endPoints, who.id)}`localAddress,
               {ById(natPunch.endPointHandler.endPoints, who.id)}`localPort
      modifies this`nextMessageId, sent`packets, natPunch.networkLayer`outbox
      ensures natPunch.endPointHandler.Extends()
      ensures PoolsExtend()
      ensures Valid() && natPunch.endPointHandler.Valid()
      ensures peer.AsIdentity() == who
      ensures old(ById(natPunch.endPointHandler.endPoints, who.id)) != null ==>
        peer == old(ById(natPunch.endPointHandler.endPoints, who.id))
        && natPunch.endPointHandler.endPoints == old(natPunch.endPointHandler.endPoints)
      ensures old(ById(natPunch.endPointHandler.endPoints, who.id)) == null ==>
        fresh(peer) && natPunch.endPointHandler.endPoints == old(natPunch.endPointHandler.endPoints) + [peer]
      ensures nextMessageId == Add32(old(nextMessageId), 1)
      ensures var hello := Hello(old(nextMessageId), Some(natPunch.LocalIdentity())).value;
        && r == Returning(SendResult(peer, hello), false)
        && natPunch.networkLayer.outbox
           == old(natPunch.networkLayer.outbox) + Emission(peer, hello, natPunch.networkLayer.localAddress)
        && Grown(sent.packets, old(sent.packets), Recorded(peer, hello))
    {
      var e := Upsert(who);
      peer := e;
      var id := NextMessageId();
      var hello := Hello(id, Some(natPunch.LocalIdentity())).value;
      var sending := SendPacket(e, hello);
      r := Returning(sending, false);
    }

    /** GREET (arguments: the identity of a peer that wants to reach this
        node): fewer than five arguments are ignored; otherwise the peer is
        greeted. */
    method HandleGreet(packet: PacketData) returns (r: Result<bool>, ghost peer: EndPoint?)
      requires Valid() && natPunch.endPointHandler.Valid()
      modifies natPunch.endPointHandler`endPoints, natPunch.endPointHandler`Repr
      modifies {ById(natPunch.endPointHandler.endPoints, packet.Argument(0))}`externalAddress,
               {ById(natPunch.endPointHandler.endPoints, packet.Argument(0))}`externalPort,
               {ById(natPunch.endPointHandler.endPoints, packet.Argument(0))}`localAddress,
               {ById(natPunch.endPointHandler.endPoints, packet.Argument(0))}`localPort
      modifies this`nextMessageId, sent`packets, natPunch.networkLayer`outbox
      ensures natPunch.endPointHandler.Extends()
      ensures PoolsExtend()
      ensures Valid() && natPunch.endPointHandler.Valid()
      ensures packet.ArgumentCount() < 5 || ReadIdentity(packet, 0).Throw? ==>
        && r == (if packet.ArgumentCount() < 5 then Ok(false) else Throw(ReadIdentity(packet, 0).fault))
        && peer == null
        && unchanged(this, sent, natPunch.endPointHandler, natPunch.networkLayer)
        && var k := ById(natPunch.endPointHandler.endPoints, packet.Argument(0)); k != null ==> unchanged(k)
      ensures packet.ArgumentCount() >= 5 && ReadIdentity(packet, 0).Ok? ==>
        && peer != null && peer.AsIdentity() == ReadIdentity(packet, 0).value
        && (old(ById(natPunch.endPointHandler.endPoints, packet.Argument(0))) != null ==>
              peer == old(ById(natPunch.endPointHandler.endPoints, packet.Argument(0)))
              && natPunch.endPointHandler.endPoints == old(natPunch.endPointHandler.endPoints))
        && (old(ById(natPunch.endPointHandler.endPoints, packet.Argument(0))) == null ==>
              fresh(peer) && natPunch.endPointHandler.endPoints == old(natPunch.endPointHandler.endPoints) + [peer])
        && nextMessageId == Add32(old(nextMessageId), 1)
        && var hello := Hello(old(nextMessageId), Some(natPunch.LocalIdentity())).value;
           && r == Returning(SendResult(peer, hello), false)
           && natPunch.networkLayer.outbox
              == old(natPunch.networkLayer.outbox) + Emission(peer, hello, natPunch.networkLayer.localAddress)
           && Grown(sent.packets, old(sent.packets), Recorded(peer, hello))
    {
      peer := null;
      if packet.ArgumentCount() < 5 {
        r := Ok(false);
        return;
      }
      var who :- ReadIdentity(packet, 0);
      r, peer := Greeted(who);
    }

    /** HELLO (arguments: the identity of a peer that has been greeted):
        fewer than five arguments are ignored; otherwise the peer is found
        or added with the identity's pairs and becomes a keepalive peer.
        Nothing is sent. */
    method HandleHello(packet: PacketData) returns (r: Result<bool>, ghost peer: EndPoint?)
      requires natPunch.endPointHandler.Valid()
      modifies natPunch.endPointHandler`endPoints, natPunch.endPointHandler`Repr
      modifies {ById(natPunch.endPointHandler.endPoints, packet.Argument(0))}`externalAddress,
               {ById(natPunch.endPointHandler.endPoints, packet.Argument(0))}`externalPort,
               {ById(natPunch.endPointHandler.endPoints, packet.Argument(0))}`localAddress,
               {ById(natPunch.endPointHandler.endPoints, packet.Argument(0))}`localPort,
               {ById(natPunch.endPointHandler.endPoints, packet.Argument(0))}`keepAlive
      ensures natPunch.endPointHandler.Extends()
      ensures natPunch.endPointHandler.Valid()
      ensures packet.ArgumentCount() < 5 || ReadIdentity(packet, 0).Throw? ==>
        && r == (if packet.ArgumentCount() < 5 then Ok(false) else Throw(ReadIdentity(packet, 0).fault))
        && peer == null
        && unchanged(natPunch.endPointHandler)
        && var k := ById(natPunch.endPointHandler.endPoints, packet.Argument(0)); k != null ==> unchanged(k)
      ensures packet.ArgumentCount() >= 5 && ReadIdentity(packet, 0).Ok? ==>
        && r == Ok(false)
        && peer != null && peer.AsIdentity() == ReadIdentity(packet, 0).value && peer.keepAlive
        && (old(ById(natPunch.endPointHandler.endPoints, packet.Argument(0))) != null ==>
              peer == old(ById(natPunch.endPointHandler.endPoints, packet.Argument(0)))
              && natPunch.endPointHandler.endPoints == old(natPunch.endPointHandler.endPoints))
        && (old(ById(natPunch.endPointHandler.endPoints, packet.Argument(0))) == null ==>
              fresh(peer) && natPunch.endPointHandler.endPoints == old(natPunch.endPointHandler.endPoints) + [peer])
    {
      peer := null;
      if packet.ArgumentCount() < 5 {
        r := Ok(false);
        return;
      }
      var who :- ReadIdentity(packet, 0);
      var e := Upsert(who);
      e.keepAlive := true;
      peer := e;
      r := Ok(false);
    }

    /** REREGISTER: the node registers again with its introducer. (The
        source's test of the node's id only guards a log line.) */
    method HandleReRegister() returns (r: Result<bool>)
      requires Valid()
      modifies this`nextMessageId, sent`packets, natPunch.networkLayer`outbox
      ensures PoolsExtend()
      ensures Valid()
      ensures nextMessageId == Add32(old(nextMessageId), 1)
      ensures var register := Register(old(nextMessageId), natPunch.id, Some(natPunch.networkLayer.localAddress),
                                       natPunch.networkLayer.localPort);
        var to := natPunch.endPointHandler.introducer;
        && r == Returning(SendResult(to, register), false)
        && natPunch.networkLayer.outbox
           == old(natPunch.networkLayer.outbox) + Emission(to, register, natPunch.networkLayer.localAddress)
        && Grown(sent.packets, old(sent.packets), Recorded(to, register))
    {
      var sending := SendRegister();
      return Returning(sending, false);
    }

    /** The second half of an introduction: the sender gets the target's
        row in a status-1 PUNCH reply. The reply's id is taken before the
        row is built, so a target without an address throws after the id
        is spent. */
    method AnswerPunch(ep: EndPoint, target: EndPoint) returns (r: Result<bool>)
      requires Valid()
      modifies this`nextMessageId, sent`packets, natPunch.networkLayer`outbox
      ensures PoolsExtend()
      ensures Valid()
      ensures nextMessageId == Add32(old(nextMessageId), 1)
      ensures Row(target).Throw? ==>
        r == Throw(NullPointer) && unchanged(sent, natPunch.networkLayer)
      ensures Row(target).Ok? ==>
        var reply := PunchFound(old(nextMessageId), Row(target).value);
        && r == Returning(SendResult(ep, reply), false)
        && natPunch.networkLayer.outbox
           == old(natPunch.networkLayer.outbox) + Emission(ep, reply, natPunch.networkLayer.localAddress)
        && Grown(sent.packets, old(sent.packets), Recorded(ep, reply))
    {
      var id := NextMessageId();
      var row :- Row(target);
      var sending := SendPacket(ep, PunchFound(id, row));
      return Returning(sending, false);
    }

    /** The first half of an introduction: the target gets a GREET,
        under a new id, carrying the sender's identity. */
    method GreetTarget(ep: EndPoint, target: EndPoint) returns (r: Result<bool>)
      requires Valid()
      modifies this`nextMessageId, sent`packets, natPunch.networkLayer`outbox
      ensures PoolsExtend()
      ensures Valid()
      ensures nextMessageId == Add32(old(nextMessageId), 1)
      ensures var greeting := Greet(old(nextMessageId), Some(ep.AsIdentity())).value;
        && r == Returning(SendResult(target, greeting), false)
        && natPunch.networkLayer.outbox
           == old(natPunch.networkLayer.outbox) + Emission(target, greeting, natPunch.networkLayer.localAddress)
        && Grown(sent.packets, old(sent.packets), Recorded(target, greeting))
    {
      var id := NextMessageId();
      var greeting := Greet(id, Some(ep.AsIdentity())).value;
      var sending := SendPacket(target, greeting);
      return Returning(sending, false);
    }

    /** The introduction PUNCH asks the introducer for: the target gets a
        GREET carrying the sender's identity, and then the sender gets the
        target's row. Each packet takes a new id; a GREET that cannot be
        sent ends the introduction. */
    method Introduce(ep: EndPoint, target: EndPoint) returns (r: Result<bool>)
      requires Valid()
      modifies this`nextMessageId, sent`packets, natPunch.networkLayer`outbox
      ensures PoolsExtend()
      ensures Valid()
      ensures var greeting := Greet(old(nextMessageId), Some(ep.AsIdentity())).value;
        var greeted := SendResult(target, greeting);
        && (greeted.Throw? ==>
              && r == Throw(greeted.fault) && nextMessageId == Add32(old(nextMessageId), 1)
              && natPunch.networkLayer.outbox == old(natPunch.networkLayer.outbox)
              && sent.packets == old(sent.packets))
        && (greeted.Ok? && Row(target).Throw? ==>
              && r == Throw(NullPointer) && nextMessageId == Add32(Add32(old(nextMessageId), 1), 1)
              && natPunch.networkLayer.outbox
                 == old(natPunch.networkLayer.outbox) + Emission(target, greeting, natPunch.networkLayer.localAddress)
              && Grown(sent.packets, old(sent.packets), Recorded(target, greeting)))
        && (greeted.Ok? && Row(target).Ok? ==>
              var reply := PunchFound(Add32(old(nextMessageId), 1), Row(target).value);
              && r == Returning(SendResult(ep, reply), false)
              && nextMessageId == Add32(Add32(old(nextMessageId), 1), 1)
              && natPunch.networkLayer.outbox
                 == old(natPunch.networkLayer.outbox) + Emission(target, greeting, natPunch.networkLayer.localAddress)
                    + Emission(ep, reply, natPunch.networkLayer.localAddress)
              && Grown(sent.packets, old(sent.packets), Recorded(target, greeting) + Recorded(ep, reply)))
    {
      ghost var pool := sent.packets;
      ghost var greeting := Greet(nextMessageId, Some(ep.AsIdentity())).value;
      ghost var row := Row(target);
      r := GreetTarget(ep, target);
      if r.Ok? {
        ghost var mid := sent.packets;
        ghost var out1 := natPunch.networkLayer.outbox;
        ghost var id := nextMessageId;
        assert Entries(mid[|pool|..], Recorded(target, greeting));
        r := AnswerPunch(ep, target);
        assert Entries(mid[|pool|..], Recorded(target, greeting));
        if row.Ok? {
          GrownTwice(sent.packets, mid, pool, Recorded(target, greeting), Recorded(ep, PunchFound(id, row.value)));
        } else {
          assert sent.packets == mid && natPunch.networkLayer.outbox == out1;
        }
      }
    }

    /** PUNCH (argument: the id of the peer to reach), at the introducer. A
        sender without an id is told to register again, under a new id, and
        the packet counts as handled. Otherwise a missing argument is
        ignored, a registered target is introduced to the sender, and for
        an unknown target the sender gets a status-0 reply naming it. A
        null target id is never registered, and logging it throws. */
    method HandlePunch(ep: EndPoint, packet: PacketData) returns (r: Result<bool>)
      requires Valid()
      modifies this`nextMessageId, sent`packets, natPunch.networkLayer`outbox
      ensures PoolsExtend()
      ensures Valid()
      ensures ep.id.None? ==>
        var reRegister := ReRegister(old(nextMessageId));
        && nextMessageId == Add32(old(nextMessageId), 1)
        && r == Returning(SendResult(ep, reRegister), true)
        && natPunch.networkLayer.outbox
           == old(natPunch.networkLayer.outbox) + Emission(ep, reRegister, natPunch.networkLayer.localAddress)
        && Grown(sent.packets, old(sent.packets), Recorded(ep, reRegister))
      ensures ep.id.Some? && packet.ArgumentCount() == 0 ==>
        r == Ok(false) && unchanged(this, sent, natPunch.networkLayer)
      ensures ep.id.Some? && packet.ArgumentCount() > 0 && packet.Argument(0).None? ==>
        r == Throw(NullPointer) && unchanged(this, sent, natPunch.networkLayer)
      ensures ep.id.Some? && packet.ArgumentCount() > 0 && packet.Argument(0).Some?
              && ById(natPunch.endPointHandler.endPoints, packet.Argument(0)) == null ==>
        var reply := PunchMissing(old(nextMessageId), packet.Argument(0));
        && nextMessageId == Add32(old(nextMessageId), 1)
        && r == Returning(SendResult(ep, reply), false)
        && natPunch.networkLayer.outbox
           == old(natPunch.networkLayer.outbox) + Emission(ep, reply, natPunch.networkLayer.localAddress)
        && Grown(sent.packets, old(sent.packets), Recorded(ep, reply))
      ensures ep.id.Some? && packet.ArgumentCount() > 0
              && ById(natPunch.endPointHandler.endPoints, packet.Argument(0)) != null ==>
        var target := ById(natPunch.endPointHandler.endPoints, packet.Argument(0));
        var greeting := Greet(old(nextMessageId), Some(ep.AsIdentity())).value;
        var greeted := SendResult(target, greeting);
        && (greeted.Throw? ==>
              && r == Throw(greeted.fault) && nextMessageId == Add32(old(nextMessageId), 1)
              && natPunch.networkLayer.outbox == old(natPunch.networkLayer.outbox)
              && sent.packets == old(sent.packets))
        && (greeted.Ok? && Row(target).Throw? ==>
              && r == Throw(NullPointer) && nextMessageId == Add32(Add32(old(nextMessageId), 1), 1)
              && natPunch.networkLayer.outbox
                 == old(natPunch.networkLayer.outbox) + Emission(target, greeting, natPunch.networkLayer.localAddress)
              && Grown(sent.packets, old(sent.packets), Recorded(target, greeting)))
        && (greeted.Ok? && Row(target).Ok? ==>
              var reply := PunchFound(Add32(old(nextMessageId), 1), Row(target).value);
              && r == Returning(SendResult(ep, reply), false)
              && nextMessageId == Add32(Add32(old(nextMessageId), 1), 1)
              && natPunch.networkLayer.outbox
                 == old(natPunch.networkLayer.outbox) + Emission(target, greeting, natPunch.networkLayer.localAddress)
                    + Emission(ep, reply, natPunch.networkLayer.localAddress)
              && Grown(sent.packets, old(sent.packets), Recorded(target, greeting) + Recorded(ep, reply)))
    {
      if ep.id.None? {
        var id := NextMessageId();
        var sending := SendPacket(ep, ReRegister(id));
        return Returning(sending, true);
      }
      if packet.ArgumentCount() == 0 {
        return Ok(false);
      }
      var target := natPunch.endPointHandler.FindById(packet.Argument(0));
      if target != null {
        r := Introduce(ep, target);
      } else if packet.Argument(0).None? {
        // the log line formats the requested id with `MD5.hex`, which
        // dereferences it
        r := Throw(NullPointer);
      } else {
        var id := NextMessageId();
        var sending := SendPacket(ep, PunchMissing(id, packet.Argument(0)));
        r := Returning(sending, false);
      }
    }

    /** The rows of SHOW's reply, endpoint by endpoint in list order; the
        first endpoint with a null address ends the listing with an
        exception. */
    method Table() returns (r: Result<seq<Arg>>)
      ensures r == Rows(natPunch.endPointHandler.endPoints)
    {
      var eps := natPunch.endPointHandler.endPoints;
      var rows: seq<Arg> := [];
      var k := 0;
      while k < |eps|
        invariant 0 <= k <= |eps| && Rows(eps[..k]) == Ok(rows)
      {
        assert eps[..k + 1][..k] == eps[..k];
        var row := Row(eps[k]);
        if row.Throw? {
          RowsThrowExtends(eps, k + 1);
          return Throw(NullPointer);
        }
        rows := rows + row.value;
        k := k + 1;
      }
      assert eps[..k] == eps;
      return Ok(rows);
    }

    /** SHOW (argument: the sub-command): a missing argument is ignored;
        SHOW_ENDPOINTS answers the sender with the endpoint table, built
        before the reply takes its id; other sub-commands are ignored. */
    method HandleShow(ep: EndPoint, packet: PacketData) returns (r: Result<bool>)
      requires Valid()
      modifies this`nextMessageId, sent`packets, natPunch.networkLayer`outbox
      ensures PoolsExtend()
      ensures Valid()
      ensures packet.ArgumentCount() == 0 ==> r == Ok(false) && unchanged(this, sent, natPunch.networkLayer)
      ensures packet.ArgumentCount() > 0 && WrapGet(packet.Argument(0)).Throw? ==>
        r == Throw(WrapGet(packet.Argument(0)).fault) && unchanged(this, sent, natPunch.networkLayer)
      ensures packet.ArgumentCount() > 0 && WrapGet(packet.Argument(0)).Ok?
              && WrapGet(packet.Argument(0)).value != CommandShowEndPoints ==>
        r == Ok(false) && unchanged(this, sent, natPunch.networkLayer)
      ensures packet.ArgumentCount() > 0 && WrapGet(packet.Argument(0)) == Ok(CommandShowEndPoints) ==>
        var rows := Rows(natPunch.endPointHandler.endPoints);
        && (rows.Throw? ==> r == Throw(NullPointer) && unchanged(this, sent, natPunch.networkLayer))
        && (rows.Ok? ==>
              var reply := ShowReply(old(nextMessageId), rows.value);
              && nextMessageId == Add32(old(nextMessageId), 1)
              && r == Returning(SendResult(ep, reply), false)
              && natPunch.networkLayer.outbox
                 == old(natPunch.networkLayer.outbox) + Emission(ep, reply, natPunch.networkLayer.localAddress)
              && Grown(sent.packets, old(sent.packets), Recorded(ep, reply)))
    {
      if packet.ArgumentCount() == 0 {
        return Ok(false);
      }
      var subCommand :- WrapGet(packet.Argument(0));
      if subCommand == CommandShowEndPoints {
        var rows :- Table();
        var id := NextMessageId();
        var sending := SendPacket(ep, ShowReply(id, rows));
        return Returning(sending, false);
      }
      return Ok(false);
    }

    /** RESPONSE(REGISTER) (arguments: REGISTER, status, external address,
        external port): status 1 sets the node's external pair; any other
        status is ignored. */
    method RespondRegister(packet: PacketData) returns (r: Result<bool>)
      modifies natPunch`externalAddress, natPunch`externalPort
      ensures var learned := RegisteredAs(packet);
        && r == (if learned.Throw? then Throw(learned.fault) else Ok(false))
        && (learned.Ok? && learned.value.Some? ==>
              natPunch.externalAddress == learned.value.value.0 && natPunch.externalPort == learned.value.value.1)
        && (learned.Throw? || learned.value.None? ==> unchanged(natPunch))
    {
      var learned :- RegisteredAs(packet);
      if learned.Some? {
        natPunch.SetExternalAddress(learned.value.0, learned.value.1);
      }
      return Ok(false);
    }

    /** RESPONSE(PUNCH) (arguments: PUNCH, status, then the target's row):
        status 1 with a full row greets the target with a HELLO; anything
        else is ignored. */
    method RespondPunch(packet: PacketData) returns (r: Result<bool>, ghost peer: EndPoint?)
      requires Valid() && natPunch.endPointHandler.Valid()
      modifies natPunch.endPointHandler`endPoints, natPunch.endPointHandler`Repr
      modifies {ById(natPunch.endPointHandler.endPoints, packet.Argument(2))}`externalAddress,
               {ById(natPunch.endPointHandler.endPoints, packet.Argument(2))}`externalPort,
               {ById(natPunch.endPointHandler.endPoints, packet.Argument(2))}`localAddress,
               {ById(natPunch.endPointHandler.endPoints, packet.Argument(2))}`localPort
      modifies this`nextMessageId, sent`packets, natPunch.networkLayer`outbox
      ensures natPunch.endPointHandler.Extends()
      ensures PoolsExtend()
      ensures Valid() && natPunch.endPointHandler.Valid()
      ensures PunchedTo(packet).Throw? || PunchedTo(packet).value.None? ==>
        && r == (if PunchedTo(packet).Throw? then Throw(PunchedTo(packet).fault) else Ok(false))
        && peer == null
        && unchanged(this, sent, natPunch.endPointHandler, natPunch.networkLayer)
        && var k := ById(natPunch.endPointHandler.endPoints, packet.Argument(2)); k != null ==> unchanged(k)
      ensures PunchedTo(packet).Ok? && PunchedTo(packet).value.Some? ==>
        && peer != null && peer.AsIdentity() == PunchedTo(packet).value.value
        && (old(ById(natPunch.endPointHandler.endPoints, packet.Argument(2))) != null ==>
              peer == old(ById(natPunch.endPointHandler.endPoints, packet.Argument(2)))
              && natPunch.endPointHandler.endPoints == old(natPunch.endPointHandler.endPoints))
        && (old(ById(natPunch.endPointHandler.endPoints, packet.Argument(2))) == null ==>
              fresh(peer) && natPunch.endPointHandler.endPoints == old(natPunch.endPointHandler.endPoints) + [peer])
        && nextMessageId == Add32(old(nextMessageId), 1)
        && var hello := Hello(old(nextMessageId), Some(natPunch.LocalIdentity())).value;
           && r == Returning(SendResult(peer, hello), false)
           && natPunch.networkLayer.outbox
              == old(natPunch.networkLayer.outbox) + Emission(peer, hello, natPunch.networkLayer.localAddress)
           && Grown(sent.packets, old(sent.packets), Recorded(peer, hello))
    {
      peer := null;
      var target :- PunchedTo(packet);
      if target.None? {
        r := Ok(false);
        return;
      }
      r, peer := Greeted(target.value);
    }

    /** RESPONSE(SHOW) (arguments: SHOW, sub-command, then the rows): for
        SHOW_ENDPOINTS the rows are read (and only logged); other
        sub-commands are ignored. Nothing changes. */
    method RespondShow(packet: PacketData) returns (r: Result<bool>)
      ensures WrapGet(packet.Argument(1)).Throw? ==> r == Throw(WrapGet(packet.Argument(1)).fault)
      ensures WrapGet(packet.Argument(1)).Ok? && WrapGet(packet.Argument(1)).value != CommandShowEndPoints ==>
        r == Ok(false)
      ensures WrapGet(packet.Argument(1)) == Ok(CommandShowEndPoints) ==>
        r == Returning(ReadRows(packet, 2), false)
    {
      var subCommand :- WrapGet(packet.Argument(1));
      if subCommand == CommandShowEndPoints {
        var read := ReadTable(packet);
        return Returning(read, false);
      }
      return Ok(false);
    }

    /** RESPONSE (first argument: the command answered): no arguments are
        ignored; REGISTER, PUNCH and SHOW replies are handled as above and
        replies to anything else ignored. */
    method HandleResponse(packet: PacketData) returns (r: Result<bool>, ghost peer: EndPoint?)
      requires Valid() && natPunch.endPointHandler.Valid()
      modifies natPunch`externalAddress, natPunch`externalPort
      modifies natPunch.endPointHandler`endPoints, natPunch.endPointHandler`Repr
      modifies {ById(natPunch.endPointHandler.endPoints, packet.Argument(2))}`externalAddress,
               {ById(natPunch.endPointHandler.endPoints, packet.Argument(2))}`externalPort,
               {ById(natPunch.endPointHandler.endPoints, packet.Argument(2))}`localAddress,
               {ById(natPunch.endPointHandler.endPoints, packet.Argument(2))}`localPort
      modifies this`nextMessageId, sent`packets, natPunch.networkLayer`outbox
      ensures natPunch.endPointHandler.Extends()
      ensures PoolsExtend()
      ensures Valid() && natPunch.endPointHandler.Valid()
      ensures packet.ArgumentCount() == 0 || WrapGet(packet.Argument(0)).Throw?
              || WrapGet(packet.Argument(0)).value !in {CommandRegister, CommandPunch} ==>
        && peer == null
        && unchanged(this, sent, natPunch, natPunch.endPointHandler, natPunch.networkLayer)
        && var k := ById(natPunch.endPointHandler.endPoints, packet.Argument(2)); k != null ==> unchanged(k)
      ensures packet.ArgumentCount() == 0 ==> r == Ok(false)
      ensures packet.ArgumentCount() > 0 && WrapGet(packet.Argument(0)).Throw? ==>
        r == Throw(WrapGet(packet.Argument(0)).fault)
      ensures packet.ArgumentCount() > 0 && WrapGet(packet.Argument(0)).Ok?
              && WrapGet(packet.Argument(0)).value !in {CommandRegister, CommandPunch, CommandShow} ==>
        r == Ok(false)
      ensures packet.ArgumentCount() > 0 && WrapGet(packet.Argument(0)) == Ok(CommandShow) ==>
        var show := WrapGet(packet.Argument(1));
        r == (if show.Throw? then Throw(show.fault)
              else if show.value == CommandShowEndPoints then Returning(ReadRows(packet, 2), false)
              else Ok(false))
      ensures packet.ArgumentCount() > 0 && WrapGet(packet.Argument(0)) == Ok(CommandRegister) ==>
        var learned := RegisteredAs(packet);
        && peer == null
        && unchanged(this, sent, natPunch.endPointHandler, natPunch.networkLayer)
        && r == (if learned.Throw? then Throw(learned.fault) else Ok(false))
        && (learned.Ok? && learned.value.Some? ==>
              natPunch.externalAddress == learned.value.value.0 && natPunch.externalPort == learned.value.value.1)
        && (learned.Throw? || learned.value.None? ==> unchanged(natPunch))
      ensures packet.ArgumentCount() > 0 && WrapGet(packet.Argument(0)) == Ok(CommandPunch) ==>
        var target := PunchedTo(packet);
        && unchanged(natPunch)
        && (target.Throw? || target.value.None? ==>
              && r == (if target.Throw? then Throw(target.fault) else Ok(false))
              && peer == null
              && unchanged(this, sent, natPunch.endPointHandler, natPunch.networkLayer))
        && (target.Ok? && target.value.Some? ==>
              && peer != null && peer.AsIdentity() == target.value.value
              && (old(ById(natPunch.endPointHandler.endPoints, packet.Argument(2))) != null ==>
                    peer == old(ById(natPunch.endPointHandler.endPoints, packet.Argument(2)))
                    && natPunch.endPointHandler.endPoints == old(natPunch.endPointHandler.endPoints))
              && (old(ById(natPunch.endPointHandler.endPoints, packet.Argument(2))) == null ==>
                    fresh(peer) && natPunch.endPointHandler.endPoints == old(natPunch.endPointHandler.endPoints) + [peer])
              && nextMessageId == Add32(old(nextMessageId), 1)
              && var hello := Hello(old(nextMessageId), Some(natPunch.LocalIdentity())).value;
                 && r == Returning(SendResult(peer, hello), false)
                 && natPunch.networkLayer.outbox
                    == old(natPunch.networkLayer.outbox) + Emission(peer, hello, natPunch.networkLayer.localAddress)
                 && Grown(sent.packets, old(sent.packets), Recorded(peer, hello)))
    {
      peer := null;
      if packet.ArgumentCount() == 0 {
        r := Ok(false);
        return;
      }
      var answered :- WrapGet(packet.Argument(0));
      if answered == CommandRegister {
        r := RespondRegister(packet);
      } else if answered == CommandPunch {
        r, peer := RespondPunch(packet);
      } else if answered == CommandShow {
        r := RespondShow(packet);
      } else {
        r := Ok(false);
      }
    }

    /** A guaranteed packet found in the acknowledged pool and re-sent with
        a non-zero retry count: it is acknowledged again and not processed. */
    ghost function Repeated(ep: EndPoint, packet: PacketData): (b: bool)
      reads acked`packets, acked.packets, set h | h in acked.packets :: h.endPoint, ep
      ensures b ==> exists h :: h in acked.packets && h.Is(ep, packet.messageId)
      ensures packet.retryCount == 0 ==> !b
    {
      && packet.HasFlag(FlagGuaranteed) && packet.retryCount != 0
      && IndexOfPacket(acked.packets, ep, packet.messageId) < |acked.packets|
    }

    /** `handlePacket`: the packet is admitted (acknowledged and
        deduplicated, or recorded as a fragment), and a packet that is
        processed is dispatched on its command. The result says whether the
        packet was consumed: true only for a repeated packet and for a PUNCH
        from a sender without an id. */
    method HandlePacket(ep: EndPoint, packet: PacketData) returns (r: Result<bool>)
      requires Valid() && natPunch.endPointHandler.Valid()
      modifies this`nextMessageId, acked`packets, acked.packets, sent`packets, natPunch.networkLayer`outbox
      modifies natPunch`externalAddress, natPunch`externalPort
      modifies natPunch.endPointHandler`endPoints, natPunch.endPointHandler`Repr
      modifies ep`id, ep`localAddress, ep`localPort, ep`keepAlive
      modifies natPunch.endPointHandler.endPoints`externalAddress, natPunch.endPointHandler.endPoints`externalPort,
               natPunch.endPointHandler.endPoints`localAddress, natPunch.endPointHandler.endPoints`localPort,
               natPunch.endPointHandler.endPoints`keepAlive
      ensures natPunch.endPointHandler.Extends()
      ensures PoolsExtend()
      ensures Valid() && natPunch.endPointHandler.Valid()
      ensures old(Repeated(ep, packet)) ==>
        && r == Ok(true)
        && nextMessageId == Add32(old(nextMessageId), 1)
        && natPunch.networkLayer.outbox
           == old(natPunch.networkLayer.outbox + Emission(ep, AckFor(nextMessageId, packet), natPunch.networkLayer.localAddress))
        && sent.packets == old(sent.packets) && acked.packets == old(acked.packets)
        && unchanged(natPunch, natPunch.endPointHandler, ep)
      ensures !old(Repeated(ep, packet))
              && packet.command !in {CommandRegister, CommandReRegister, CommandPunch, CommandGreet,
                                     CommandHello, CommandAcknowledge, CommandShow, CommandResponse} ==>
        && r == Ok(false)
        && sent.packets == old(sent.packets)
        && unchanged(natPunch, natPunch.endPointHandler, ep)
      ensures r == Ok(true) ==> old(Repeated(ep, packet)) || (packet.command == CommandPunch && old(ep.id).None?)
    {
      var admitted := Admit(ep, packet);
      if !admitted.value {
        return Ok(true);
      }
      r := Dispatch(ep, packet);
    }

    /** The command switch of `handlePacket`, for a packet that is
        processed. Commands without a case are ignored. */
    method Dispatch(ep: EndPoint, packet: PacketData) returns (r: Result<bool>)
      requires Valid() && natPunch.endPointHandler.Valid()
      modifies this`nextMessageId, sent`packets, natPunch.networkLayer`outbox
      modifies natPunch`externalAddress, natPunch`externalPort
      modifies natPunch.endPointHandler`endPoints, natPunch.endPointHandler`Repr
      modifies ep`id, ep`localAddress, ep`localPort, ep`keepAlive
      modifies natPunch.endPointHandler.endPoints`externalAddress, natPunch.endPointHandler.endPoints`externalPort,
               natPunch.endPointHandler.endPoints`localAddress, natPunch.endPointHandler.endPoints`localPort,
               natPunch.endPointHandler.endPoints`keepAlive
      ensures natPunch.endPointHandler.Extends()
      ensures PoolsExtend()
      ensures Valid() && natPunch.endPointHandler.Valid()
      ensures packet.command !in {CommandRegister, CommandReRegister, CommandPunch, CommandGreet,
                                  CommandHello, CommandAcknowledge, CommandShow, CommandResponse} ==>
        r == Ok(false) && unchanged(this, sent, natPunch, natPunch.endPointHandler, natPunch.networkLayer, ep)
      ensures r == Ok(true) ==> packet.command == CommandPunch && old(ep.id).None?
    {
      if packet.command in {CommandRegister, CommandReRegister, CommandPunch, CommandShow} {
        r := DispatchIntroducer(ep, packet);
      } else {
        r := DispatchPeer(ep, packet);
      }
    }

    /** The commands an introducer serves: REGISTER, REREGISTER, PUNCH and SHOW. */
    method DispatchIntroducer(ep: EndPoint, packet: PacketData) returns (r: Result<bool>)
      requires Valid() && natPunch.endPointHandler.Valid()
      requires packet.command in {CommandRegister, CommandReRegister, CommandPunch, CommandShow}
      modifies this`nextMessageId, sent`packets, natPunch.networkLayer`outbox
      modifies natPunch.endPointHandler`endPoints, ep`id, ep`localAddress, ep`localPort, ep`keepAlive
      ensures natPunch.endPointHandler.Extends()
      ensures PoolsExtend()
      ensures Valid() && natPunch.endPointHandler.Valid()
      ensures r == Ok(true) ==> packet.command == CommandPunch && old(ep.id).None?
    {
      if packet.command == CommandRegister {
        r := HandleRegister(ep, packet);
      } else if packet.command == CommandReRegister {
        r := HandleReRegister();
      } else if packet.command == CommandPunch {
        r := HandlePunch(ep, packet);
      } else {
        r := HandleShow(ep, packet);
      }
    }

    /** The commands between peers: GREET, HELLO, ACKNOWLEDGE and RESPONSE;
        anything else is ignored. */
    method DispatchPeer(ep: EndPoint, packet: PacketData) returns (r: Result<bool>)
      requires Valid() && natPunch.endPointHandler.Valid()
      modifies this`nextMessageId, sent`packets, natPunch.networkLayer`outbox
      modifies natPunch`externalAddress, natPunch`externalPort
      modifies natPunch.endPointHandler`endPoints, natPunch.endPointHandler`Repr
      modifies natPunch.endPointHandler.endPoints`externalAddress, natPunch.endPointHandler.endPoints`externalPort,
               natPunch.endPointHandler.endPoints`localAddress, natPunch.endPointHandler.endPoints`localPort,
               natPunch.endPointHandler.endPoints`keepAlive
      ensures natPunch.endPointHandler.Extends()
      ensures PoolsExtend()
      ensures Valid() && natPunch.endPointHandler.Valid()
      ensures packet.command !in {CommandGreet, CommandHello, CommandAcknowledge, CommandResponse} ==>
        r == Ok(false) && unchanged(this, sent, natPunch, natPunch.endPointHandler, natPunch.networkLayer, ep)
      ensures r != Ok(true)
    {
      ghost var peer: EndPoint?;
      if packet.command == CommandGreet {
        r, peer := HandleGreet(packet);
      } else if packet.command == CommandHello {
        r, peer := HandleHello(packet);
      } else if packet.command == CommandAcknowledge {
        r := HandleAcknowledge(ep, packet);
      } else if packet.command == CommandResponse {
        r, peer := HandleResponse(packet);
      } else {
        r := Ok(false);
      }
    }

    /** The sent-pool side of ACKNOWLEDGE: the first entry for the message
        from the sender is deleted, unless it is a MULTIPART head. */
    method Release(ep: EndPoint, messageId: Bits32)
      requires Valid()
      modifies sent`packets
      ensures PoolsExtend()
      ensures Valid()
      ensures var i := old(IndexOfPacket(sent.packets, ep, messageId));
        sent.packets == if i < |old(sent.packets)| && !old(sent.packets[i].packet).HasFlag(FlagMultipart)
                        then old(sent.packets[..i] + sent.packets[i + 1..])
                        else old(sent.packets)
    {
      ghost var before := sent.packets;
      ghost var i := IndexOfPacket(before, ep, messageId);
      var found := sent.FindPacket(ep, messageId);
      if found != null && !found.packet.HasFlag(FlagMultipart) {
        sent.RemovePacket(ep, messageId);
        assert sent.packets == before[..i] + before[i + 1..];
        DistinctWithout(before, i);
        assert forall p :: p in sent.packets ==> p in before;
      } else {
        assert sent.packets == before;
      }
      PoolsShrink(this);
    }

    /** ACKNOWLEDGE (arguments: the acknowledged id and the retry count):
        fewer than two arguments are ignored; once both are read, the
        acknowledged packet is released from the sent pool. */
    method HandleAcknowledge(ep: EndPoint, packet: PacketData) returns (r: Result<bool>)
      requires Valid()
      modifies sent`packets
      ensures PoolsExtend()
      ensures Valid()
      ensures Acknowledged(packet).Throw? ==> r == Throw(Acknowledged(packet).fault) && sent.packets == old(sent.packets)
      ensures Acknowledged(packet) == Ok(None) ==> r == Ok(false) && sent.packets == old(sent.packets)
      ensures Acknowledged(packet).Ok? && Acknowledged(packet).value.Some? ==>
        var i := old(IndexOfPacket(sent.packets, ep, Acknowledged(packet).value.value));
        && r == Ok(false)
        && sent.packets == if i < |old(sent.packets)| && !old(sent.packets[i].packet).HasFlag(FlagMultipart)
                           then old(sent.packets[..i] + sent.packets[i + 1..])
                           else old(sent.packets)
    {
      var acknowledged :- Acknowledged(packet);
      if acknowledged.Some? {
        Release(ep, acknowledged.value);
      }
      return Ok(false);
    }
  }

  class NatPunch {
    const endPointHandler: EndPointHandler
    const networkLayer: NetworkLayer
    var receiver: BasePacketReceiver?
    var introducerAddress: Option<Address>
    var introducerPort: Bits32
    var externalAddress: Option<Address>
    var externalPort: Bits32
    var id: Option<Bytes>

    /** The identity `getLocalEndPoint` gives the node: its id, the
        external pair the introducer reported and the network layer's local
        pair. */
    function LocalIdentity(): (who: Identity)
      reads this`id, this`externalAddress, this`externalPort
      ensures who.id == id && who.externalAddress == externalAddress && who.externalPort == externalPort
      ensures who.localAddress == Some(networkLayer.localAddress) && who.localPort == networkLayer.localPort
    {
      Identity(id, externalAddress, externalPort, Some(networkLayer.localAddress), networkLayer.localPort)
    }

    /** The receive buffers the registry owns are none of the objects the
        node, its registry, its receiver and its network layer keep their
        state in. */
    ghost predicate Separate()
      reads this`receiver, endPointHandler`Repr
    {
      && receiver != null
      && this !in endPointHandler.Repr && endPointHandler !in endPointHandler.Repr
      && receiver !in endPointHandler.Repr && receiver.sent !in endPointHandler.Repr
      && receiver.acked !in endPointHandler.Repr && networkLayer !in endPointHandler.Repr
    }

    /** `new NatPunch()` followed by `setNetworkLayer`: an empty registry,
        no introducer, no external address, no id and no receiver yet. */
    constructor (networkLayer: NetworkLayer)
      ensures fresh(endPointHandler) && endPointHandler.Valid()
      ensures endPointHandler.endPoints == [] && endPointHandler.introducer == null
      ensures this.networkLayer == networkLayer && receiver == null
      ensures introducerAddress.None? && introducerPort == 0
      ensures externalAddress.None? && externalPort == 0 && id.None?
    {
      endPointHandler := new EndPointHandler();
      this.networkLayer := networkLayer;
      receiver := null;
      introducerAddress := None;
      introducerPort := 0;
      externalAddress := None;
      externalPort := 0;
      id := None;
    }

    /** `setIntroducer`: the introducer's pair and the node's id are stored,
        and an endpoint with that external pair is handed to the registry,
        which keeps an endpoint already answering to the pair instead. Either
        way the introducer endpoint is then what `getIntroducerEndPoint`
        finds. */
    method SetIntroducer(address: Option<Address>, port: Bits32, id: Option<Bytes>)
      requires endPointHandler.Valid()
      modifies this`introducerAddress, this`introducerPort, this`id
      modifies endPointHandler`endPoints, endPointHandler`Repr, endPointHandler`introducer
      ensures introducerAddress == address && introducerPort == port && this.id == id
      ensures endPointHandler.Valid() && endPointHandler.Extends()
      ensures endPointHandler.introducer != null && endPointHandler.introducer in endPointHandler.endPoints
      ensures !fresh(endPointHandler.introducer) ==> endPointHandler.endPoints == old(endPointHandler.endPoints)
      ensures fresh(endPointHandler.introducer) ==>
        && endPointHandler.endPoints == old(endPointHandler.endPoints) + [endPointHandler.introducer]
        && endPointHandler.introducer.AsIdentity() == Identity(None, address, port, None, 0)
        && !endPointHandler.introducer.keepAlive
      ensures address.None? ==> fresh(endPointHandler.introducer)
      ensures address.Some? ==>
        endPointHandler.introducer == At(endPointHandler.endPoints, IndexByAddress(endPointHandler.endPoints, address, port))
    {
      introducerAddress := address;
      introducerPort := port;
      this.id := id;
      var ep := Stranger(introducerAddress, introducerPort);
      endPointHandler.SetIntroducerEndPoint(ep);
      AppendExtends(endPointHandler, ep);
    }

    /** `getIntroducerEndPoint`: nothing without an introducer address,
        otherwise the first endpoint answering to the introducer's pair. */
    method GetIntroducerEndPoint() returns (r: EndPoint?)
      ensures introducerAddress.None? ==> r == null
      ensures r != null ==> r in endPointHandler.endPoints && r.IsAddress(introducerAddress, introducerPort)
      ensures r == null && introducerAddress.Some? ==>
        forall e :: e in endPointHandler.endPoints ==> !e.IsAddress(introducerAddress, introducerPort)
      ensures r != null ==>
        r == endPointHandler.endPoints[IndexByAddress(endPointHandler.endPoints, introducerAddress, introducerPort)]
    {
      if introducerAddress.None? {
        return null;
      }
      r := endPointHandler.FindByAddress(introducerAddress, introducerPort);
    }

    /** `getLocalEndPoint`: a new endpoint carrying the node's own identity. */
    method GetLocalEndPoint() returns (ep: EndPoint)
      ensures fresh(ep) && fresh(ep.data) && ep.Valid()
      ensures ep.AsIdentity() == LocalIdentity() && ep.lastReceive == 0 && !ep.keepAlive
    {
      ep := new EndPoint();
      ep.id := id;
      ep.externalAddress := externalAddress;
      ep.externalPort := externalPort;
      ep.localAddress := Some(networkLayer.localAddress);
      ep.localPort := networkLayer.localPort;
    }

    /** `setExternalAddress`: the pair the introducer reported. */
    method SetExternalAddress(externalAddress: Option<Address>, externalPort: Bits32)
      modifies this`externalAddress, this`externalPort
      ensures this.externalAddress == externalAddress && this.externalPort == externalPort
    {
      this.externalAddress := externalAddress;
      this.externalPort := externalPort;
    }

    // -------------------------------------------------------------------
    // The worker loop (`run`)

    /** The start of `run`: with an introducer address, a REGISTER carrying
        the node's id and local pair goes to the introducer endpoint under a
        new id. */
    method Start() returns (r: Result<()>)
      requires receiver != null && receiver.natPunch == this && receiver.Valid()
      modifies receiver`nextMessageId, receiver.sent`packets, networkLayer`outbox
      ensures receiver.Valid() && receiver.PoolsExtend()
      ensures introducerAddress.None? ==>
        && r == Ok(()) && receiver.nextMessageId == old(receiver.nextMessageId)
        && networkLayer.outbox == old(networkLayer.outbox) && receiver.sent.packets == old(receiver.sent.packets)
      ensures introducerAddress.Some? ==>
        var register := Register(old(receiver.nextMessageId), id, Some(networkLayer.localAddress), networkLayer.localPort);
        && receiver.nextMessageId == Add32(old(receiver.nextMessageId), 1)
        && r == SendResult(endPointHandler.introducer, register)
        && networkLayer.outbox
           == old(networkLayer.outbox) + Emission(endPointHandler.introducer, register, networkLayer.localAddress)
        && Grown(receiver.sent.packets, old(receiver.sent.packets), Recorded(endPointHandler.introducer, register))
    {
      if introducerAddress.None? {
        return Ok(());
      }
      r := receiver.SendRegister();
    }

    /** The endpoint a datagram's source belongs to: the first registered
        endpoint answering to it, or else a new endpoint with the source as
        its external pair, appended to the registry. */
    method Locate(source: SocketAddress) returns (ep: EndPoint)
      requires endPointHandler.Valid()
      modifies endPointHandler`endPoints, endPointHandler`Repr
      ensures endPointHandler.Valid() && endPointHandler.Extends()
      ensures ep in endPointHandler.endPoints && endPointHandler.introducer == old(endPointHandler.introducer)
      ensures var i := old(IndexByAddress(endPointHandler.endPoints, Some(source.address), source.port));
        && (i < |old(endPointHandler.endPoints)| ==>
              ep == old(endPointHandler.endPoints[i]) && unchanged(endPointHandler))
        && (i == |old(endPointHandler.endPoints)| ==>
              && fresh(ep) && fresh(ep.data) && ep.data.position == 0 && ep.data.content.Length == BufferCapacity
              && endPointHandler.endPoints == old(endPointHandler.endPoints) + [ep]
              && ep.AsIdentity() == Identity(None, Some(source.address), source.port, None, 0) && !ep.keepAlive)
    {
      var found := endPointHandler.FindBySource(Some(source));
      if found != null {
        return found;
      }
      ep := Stranger(Some(source.address), source.port);
      endPointHandler.AddEndPoint(ep);
      AppendExtends(endPointHandler, ep);
    }

    /** The rest of a receive-loop turn once a datagram has arrived from
        `source`: the sender's endpoint is located, its receive time set and
        the payload appended to its buffer, which throws when it does not
        fit. */
    method Deliver(source: SocketAddress, payload: Bytes, now: int) returns (r: Result<()>, ep: EndPoint)
      requires endPointHandler.Valid() && |payload| <= ReceiveBufferLength
      modifies endPointHandler`endPoints, endPointHandler`Repr
      modifies endPointHandler.endPoints`lastReceive, endPointHandler.Repr
      ensures endPointHandler.Valid() && endPointHandler.Extends()
      ensures ep in endPointHandler.endPoints && ep.lastReceive == now && ep.Valid()
      ensures networkLayer.inbox == old(networkLayer.inbox)
      ensures var i := old(IndexByAddress(endPointHandler.endPoints, Some(source.address), source.port));
        && (i < |old(endPointHandler.endPoints)| ==>
              && ep == old(endPointHandler.endPoints[i]) && endPointHandler.endPoints == old(endPointHandler.endPoints)
              && (old(ep.data.position) + |payload| > ep.data.content.Length ==>
                    r == Throw(BufferOverflow) && ep.data.Buffered() == old(ep.data.Buffered()))
              && (old(ep.data.position) + |payload| <= ep.data.content.Length ==>
                    r.Ok? && ep.data.Buffered() == old(ep.data.Buffered()) + payload))
        && (i == |old(endPointHandler.endPoints)| ==>
              && fresh(ep) && endPointHandler.endPoints == old(endPointHandler.endPoints) + [ep]
              && ep.AsIdentity() == Identity(None, Some(source.address), source.port, None, 0) && !ep.keepAlive
              && r.Ok? && ep.data.Buffered() == payload)
    {
      ep := Locate(source);
      ep.lastReceive := now;
      r := ep.data.Put(payload);
    }

    /** One turn of the receive loop: the oldest waiting datagram is taken
        (at most 2048 bytes of it); an empty one, or none, ends the loop
        (false). Otherwise the sender's endpoint is located, its receive time
        set and the bytes appended to its buffer, which throws when they do
        not fit. */
    method Accept(now: int) returns (r: Result<bool>, ep: EndPoint?)
      requires endPointHandler.Valid()
      modifies networkLayer`inbox, endPointHandler`endPoints, endPointHandler`Repr
      modifies endPointHandler.endPoints`lastReceive, endPointHandler.Repr
      ensures endPointHandler.Valid() && endPointHandler.Extends()
      ensures networkLayer.inbox == if old(networkLayer.inbox) == [] then [] else old(networkLayer.inbox[1..])
      ensures r == Ok(false) <==> old(networkLayer.inbox) == [] || old(networkLayer.inbox[0].data) == []
      ensures r == Ok(false) ==> ep == null && unchanged(endPointHandler)
      ensures r != Ok(false) ==>
        var d := old(networkLayer.inbox[0]);
        var payload := d.data[..if |d.data| < ReceiveBufferLength then |d.data| else ReceiveBufferLength];
        var i := old(IndexByAddress(endPointHandler.endPoints, Some(d.source.address), d.source.port));
        && ep != null && ep in endPointHandler.endPoints && ep.lastReceive == now && ep.Valid()
        && (i < |old(endPointHandler.endPoints)| ==>
              && ep == old(endPointHandler.endPoints[i]) && endPointHandler.endPoints == old(endPointHandler.endPoints)
              && (old(endPointHandler.endPoints[i].data.position) + |payload| > ep.data.content.Length ==>
                    r == Throw(BufferOverflow) && ep.data.Buffered() == old(endPointHandler.endPoints[i].data.Buffered()))
              && (old(endPointHandler.endPoints[i].data.position) + |payload| <= ep.data.content.Length ==>
                    r == Ok(true) && ep.data.Buffered() == old(endPointHandler.endPoints[i].data.Buffered()) + payload))
        && (i == |old(endPointHandler.endPoints)| ==>
              && fresh(ep) && endPointHandler.endPoints == old(endPointHandler.endPoints) + [ep]
              && ep.AsIdentity() == Identity(None, Some(d.source.address), d.source.port, None, 0) && !ep.keepAlive
              && r == Ok(true) && ep.data.Buffered() == payload)
    {
      var n, source, payload := networkLayer.Receive(ReceiveBufferLength);
      if n == 0 {
        return Ok(false), null;
      }
      var delivered;
      delivered, ep := Deliver(source.value, payload, now);
      r := if delivered.Throw? then Throw(delivered.fault) else Ok(true);
    }

    /** One test of the inner receive loop's condition and, when the
        endpoint's buffer holds one frame that decodes, the handling of that
        packet. The result says whether a packet was handled; the frame
        taken leaves the buffer empty. */
    method HandleNext(ep: EndPoint) returns (r: Result<bool>)
      requires receiver != null && receiver.natPunch == this && receiver.Valid()
      requires endPointHandler.Valid() && ep.Valid()
      modifies ep.data, ep.data.content
      modifies receiver`nextMessageId, receiver.acked`packets, receiver.acked.packets, receiver.sent`packets
      modifies networkLayer`outbox, this`externalAddress, this`externalPort
      modifies endPointHandler`endPoints, endPointHandler`Repr
      modifies ep`id, ep`localAddress, ep`localPort, ep`keepAlive
      modifies endPointHandler.endPoints`externalAddress, endPointHandler.endPoints`externalPort,
               endPointHandler.endPoints`localAddress, endPointHandler.endPoints`localPort,
               endPointHandler.endPoints`keepAlive
      ensures receiver.Valid() && receiver.PoolsExtend()
      ensures endPointHandler.Valid() && endPointHandler.Extends() && ep.data.Valid()
      ensures !Framed(old(ep.data.Buffered())) ==>
        && r == Ok(false) && ep.data.Buffered() == old(ep.data.Buffered())
        && receiver.nextMessageId == old(receiver.nextMessageId) && networkLayer.outbox == old(networkLayer.outbox)
      ensures Framed(old(ep.data.Buffered())) && Decode(old(ep.data.Buffered())).Throw? ==>
        && r == Throw(Decode(old(ep.data.Buffered())).fault) && ep.data.Buffered() == old(ep.data.Buffered())
        && receiver.nextMessageId == old(receiver.nextMessageId) && networkLayer.outbox == old(networkLayer.outbox)
      ensures Framed(old(ep.data.Buffered())) && Decode(old(ep.data.Buffered())).Ok? ==>
        ep.data.position == 0 && r != Ok(false)
    {
      var rx: BasePacketReceiver := receiver;
      var next := HasPacket(ep.data);
      if next.Ok? && next.value.Some? {
        var handled := rx.HandlePacket(ep, next.value.value);
        r := if handled.Throw? then Throw(handled.fault) else Ok(true);
      } else {
        r := if next.Throw? then Throw(next.fault) else Ok(false);
      }
    }

    /** The inner loop of a receive: while the endpoint's buffer holds one
        frame, it is taken out and handled. An exception from decoding or
        from the handler ends the loop. A frame taken leaves the buffer
        empty, so the loop handles at most one packet. */
    method Drain(ep: EndPoint) returns (r: Result<()>)
      requires receiver != null && receiver.natPunch == this && receiver.Valid()
      requires endPointHandler.Valid() && ep.Valid()
      modifies ep.data, ep.data.content
      modifies receiver`nextMessageId, receiver.acked`packets, receiver.acked.packets, receiver.sent`packets
      modifies networkLayer`outbox, this`externalAddress, this`externalPort
      modifies endPointHandler`endPoints, endPointHandler`Repr
      modifies ep`id, ep`localAddress, ep`localPort, ep`keepAlive
      modifies endPointHandler.endPoints`externalAddress, endPointHandler.endPoints`externalPort,
               endPointHandler.endPoints`localAddress, endPointHandler.endPoints`localPort,
               endPointHandler.endPoints`keepAlive
      ensures networkLayer.inbox == old(networkLayer.inbox)
      ensures receiver.Valid() && receiver.PoolsExtend()
      ensures endPointHandler.Valid() && endPointHandler.Extends() && ep.data.Valid()
      ensures !Framed(old(ep.data.Buffered())) ==>
        && r == Ok(()) && ep.data.Buffered() == old(ep.data.Buffered())
        && receiver.nextMessageId == old(receiver.nextMessageId) && networkLayer.outbox == old(networkLayer.outbox)
      ensures Framed(old(ep.data.Buffered())) && Decode(old(ep.data.Buffered())).Throw? ==>
        && r == Throw(Decode(old(ep.data.Buffered())).fault) && ep.data.Buffered() == old(ep.data.Buffered())
        && receiver.nextMessageId == old(receiver.nextMessageId) && networkLayer.outbox == old(networkLayer.outbox)
      ensures Framed(old(ep.data.Buffered())) && Decode(old(ep.data.Buffered())).Ok? ==> ep.data.Buffered() == []
      ensures r.Ok? ==> !Framed(ep.data.Buffered())
    {
      ghost var buffered := ep.data.Buffered();
      ghost var next0, queued := receiver.nextMessageId, networkLayer.outbox;
      while true
        invariant receiver.Valid() && receiver.PoolsExtend()
        invariant endPointHandler.Valid() && endPointHandler.Extends() && ep.data.Valid()
        invariant
          || (ep.data.Buffered() == buffered && receiver.nextMessageId == next0 && networkLayer.outbox == queued)
          || (Framed(buffered) && Decode(buffered).Ok? && ep.data.position == 0)
        decreases ep.data.position
      {
        var handled := HandleNext(ep);
        if handled.Throw? {
          return Throw(handled.fault);
        }
        if !handled.value {
          return Ok(());
        }
      }
    }

    /** The keepalive round of the worker loop: a NOP, under a new id, to
        every keepalive endpoint in list order. A NOP always encodes and is
        not guaranteed, so, with the socket's own checks left out, no send
        fails and the sent pool keeps its entries. */
    method Ping()
      requires receiver != null && receiver.natPunch == this && receiver.Valid()
      modifies receiver`nextMessageId, receiver.sent`packets, networkLayer`outbox
      ensures receiver.Valid() && receiver.sent.packets == old(receiver.sent.packets)
      ensures receiver.nextMessageId == old(Add32(receiver.nextMessageId, KeepAliveCount(endPointHandler.endPoints)))
      ensures networkLayer.outbox
              == old(networkLayer.outbox + Pings(endPointHandler.endPoints, receiver.nextMessageId, networkLayer.localAddress))
    {
      var eps := endPointHandler.endPoints;
      var rx: BasePacketReceiver := receiver;
      ghost var first := rx.nextMessageId;
      ghost var queued := networkLayer.outbox;
      var k := 0;
      while k < |eps|
        invariant 0 <= k <= |eps|
        invariant rx.Valid() && rx.sent.packets == old(rx.sent.packets)
        invariant rx.nextMessageId == Add32(first, old(KeepAliveCount(eps[..k])))
        invariant networkLayer.outbox == queued + old(Pings(eps[..k], first, networkLayer.localAddress))
      {
        ghost var step := if eps[k].keepAlive then 1 else 0;
        ghost var ping := if eps[k].keepAlive
          then Emission(eps[k], Nop(rx.nextMessageId), networkLayer.localAddress) else [];
        assert eps[..k + 1][..k] == eps[..k];
        assert old(KeepAliveCount(eps[..k + 1])) == old(KeepAliveCount(eps[..k])) + step;
        assert old(Pings(eps[..k + 1], first, networkLayer.localAddress))
               == old(Pings(eps[..k], first, networkLayer.localAddress)) + ping;
        Add32Add(first, old(KeepAliveCount(eps[..k])), step);
        rx.Ping(eps[k]);
        k := k + 1;
      }
      assert eps[..k] == eps;
    }

    /** `Accept` with only what the receive loop needs of it. */
    method Take(now: int) returns (r: Result<bool>, ep: EndPoint?)
      requires endPointHandler.Valid()
      modifies networkLayer`inbox, endPointHandler`endPoints, endPointHandler`Repr
      modifies endPointHandler.endPoints`lastReceive, endPointHandler.Repr
      ensures endPointHandler.Valid() && endPointHandler.Extends()
      ensures networkLayer.inbox == if old(networkLayer.inbox) == [] then [] else old(networkLayer.inbox[1..])
      ensures r == Ok(false) <==> old(networkLayer.inbox) == [] || old(networkLayer.inbox[0].data) == []
      ensures r == Ok(true) ==> ep != null && ep in endPointHandler.endPoints && ep.Valid()
    {
      r, ep := Accept(now);
    }

    /** One turn of the receive loop, frames included: a datagram is
        taken and, when it is not empty and lands in a buffer, the
        sender's frames are handled. The result says whether the loop goes
        on. */
    method ReceiveOne(now: int) returns (r: Result<bool>)
      requires receiver != null && receiver.natPunch == this && receiver.Valid()
      requires endPointHandler.Valid() && Separate()
      modifies networkLayer`inbox, networkLayer`outbox, this`externalAddress, this`externalPort
      modifies receiver`nextMessageId, receiver.acked`packets, receiver.acked.packets, receiver.sent`packets
      modifies endPointHandler`endPoints, endPointHandler`Repr, endPointHandler.Repr
      modifies endPointHandler.endPoints`lastReceive, endPointHandler.endPoints`id,
               endPointHandler.endPoints`externalAddress, endPointHandler.endPoints`externalPort,
               endPointHandler.endPoints`localAddress, endPointHandler.endPoints`localPort,
               endPointHandler.endPoints`keepAlive
      ensures Separate() && receiver == old(receiver) && receiver.Valid() && receiver.PoolsExtend()
      ensures endPointHandler.Valid()
      ensures networkLayer.inbox == if old(networkLayer.inbox) == [] then [] else old(networkLayer.inbox[1..])
      ensures r == Ok(false) <==> old(networkLayer.inbox) == [] || old(networkLayer.inbox[0].data) == []
      ensures endPointHandler.Extends()
    {
      var accepted, ep := Take(now);
      if accepted.Ok? && accepted.value {
        var drained := Drain(ep);
        r := if drained.Throw? then Throw(drained.fault) else Ok(true);
      } else {
        r := accepted;
      }
    }

    /** The receive phase of a worker-loop pass: datagrams are taken and
        their frames handled until `receive` yields nothing (an empty
        inbox or an empty datagram). An exception from a buffer overflow,
        a decode or a handler ends the phase, as it ends the worker loop. */
    method ReceiveAll(now: int) returns (r: Result<()>)
      requires receiver != null && receiver.natPunch == this && receiver.Valid()
      requires endPointHandler.Valid() && Separate()
      modifies networkLayer`inbox, networkLayer`outbox, this`externalAddress, this`externalPort
      modifies receiver`nextMessageId, receiver.acked`packets, receiver.acked.packets, receiver.sent`packets
      modifies endPointHandler`endPoints, endPointHandler`Repr, endPointHandler.Repr
      modifies endPointHandler.endPoints`lastReceive, endPointHandler.endPoints`id,
               endPointHandler.endPoints`externalAddress, endPointHandler.endPoints`externalPort,
               endPointHandler.endPoints`localAddress, endPointHandler.endPoints`localPort,
               endPointHandler.endPoints`keepAlive
      ensures Separate() && receiver == old(receiver) && receiver.Valid() && receiver.PoolsExtend()
      ensures endPointHandler.Valid()
      ensures r.Ok? ==> networkLayer.inbox == Pending(old(networkLayer.inbox))
    {
      while true
        invariant Separate() && receiver == old(receiver) && receiver.Valid() && receiver.PoolsExtend()
        invariant endPointHandler.Valid() && endPointHandler.Extends()
        invariant Pending(networkLayer.inbox) == Pending(old(networkLayer.inbox))
        decreases |networkLayer.inbox|
      {
        var more := ReceiveOne(now);
        if more.Throw? {
          return Throw(more.fault);
        }
        if !more.value {
          return Ok(());
        }
      }
    }

    /** The rest of a worker-loop pass: `update(now)`, then the keepalive
        round when more than 30000 ms have passed since the last one. The
        result is the new time of the last ping. */
    method Tick(now: int, lastPing: int) returns (r: Result<int>)
      requires receiver != null && receiver.natPunch == this && receiver.Valid()
      modifies receiver`nextMessageId, receiver.sent`packets, receiver.acked`packets, receiver.sent.packets
      modifies networkLayer`outbox
      ensures receiver.Valid()
      ensures r.Ok? ==> r.value == if now - lastPing > PingInterval then now else lastPing
      ensures now - lastPing <= PingInterval ==> receiver.nextMessageId == old(receiver.nextMessageId)
    {
      var rx: BasePacketReceiver := receiver;
      ResentWithin(rx.sent.packets, now);
      var updated, due := rx.Update(now);
      if updated.Throw? {
        r := Throw(updated.fault);
      } else if now - lastPing > PingInterval {
        Ping();
        r := Ok(now);
      } else {
        r := Ok(lastPing);
      }
    }

    /** One pass of the worker loop after the start: the receive phase,
        then `update(now)` and the keepalive round. The result is the new
        time of the last ping; an exception ends the loop. */
    method Iterate(now: int, lastPing: int) returns (r: Result<int>)
      requires receiver != null && receiver.natPunch == this && receiver.Valid()
      requires endPointHandler.Valid() && Separate()
      modifies networkLayer`inbox, networkLayer`outbox, this`externalAddress, this`externalPort
      modifies receiver`nextMessageId, receiver.acked`packets, receiver.acked.packets, receiver.sent`packets
      modifies receiver.sent.packets
      modifies endPointHandler`endPoints, endPointHandler`Repr, endPointHandler.Repr
      modifies endPointHandler.endPoints`lastReceive, endPointHandler.endPoints`id,
               endPointHandler.endPoints`externalAddress, endPointHandler.endPoints`externalPort,
               endPointHandler.endPoints`localAddress, endPointHandler.endPoints`localPort,
               endPointHandler.endPoints`keepAlive
      ensures receiver == old(receiver) && receiver.Valid()
      ensures r.Ok? ==> networkLayer.inbox == Pending(old(networkLayer.inbox))
      ensures r.Ok? ==> r.value == if now - lastPing > PingInterval then now else lastPing
    {
      r := Ok(lastPing);
      var received := ReceiveAll(now);
      if received.Throw? {
        r := Throw(received.fault);
      } else {
        var rx: BasePacketReceiver := receiver;
        assert forall h :: h in rx.sent.packets ==> h in old(rx.sent.packets) || fresh(h) by {
          forall h | h in rx.sent.packets
            ensures h in old(rx.sent.packets) || fresh(h)
          {
            var i :| 0 <= i < |rx.sent.packets| && rx.sent.packets[i] == h;
          }
        }
        r := Tick(now, lastPing);
      }
    }
  }
}

=== FILE: outcomes.dfy ===
/** Failure-compatible wrappers shared by the whole model.

    The library reports errors by throwing Java exceptions. None of them is
    caught between the place that throws and the worker loop, so an exception
    simply aborts the operation that raised it; `Throw(f)` records which one.
 */
module Outcomes {

  /** The exceptions the modelled code can raise. */
  datatype Fault =
    | NullPointer        // a null reference was dereferenced
    | BufferUnderflow    // a ByteBuffer read ran past its limit
    | BufferOverflow     // a ByteBuffer write ran past its limit
    | IllegalArgument    // an explicit argument check, or a negative buffer capacity
    | IndexOutOfBounds   // an array or attribute-slot index outside its bounds
    | NegativeArraySize  // an array allocated with a negative length

  /** A Java reference that may be null. */
  datatype Option<+T> = None | Some(value: T)

  /** The outcome of an operation that may throw. */
  datatype Result<+T> = Ok(value: T) | Throw(fault: Fault) {
    predicate IsFailure() { Throw? }

    function PropagateFailure<U>(): Result<U>
      requires Throw?
    {
      Throw(fault)
    }

    function Extract(): T
      requires Ok?
    {
      value
    }
  }
}

=== FILE: packets.dfy ===
/** The packet record (`PacketData`), the protocol constants and the
    factories that fix the argument layout of every protocol command.
 */
module Packets {
  import opened Outcomes
  import opened ByteOrder
  import opened Addressing

  // Flag bits.
  const FlagGuaranteed: Byte := 0x1
  const FlagMultipart: Byte := 0x2
  const FlagMultipartPart: Byte := 0x4

  // Commands.
  const CommandNop: Byte := 0
  const CommandAcknowledge: Byte := 1
  const CommandRegister: Byte := 2
  const CommandPunch: Byte := 3
  const CommandResponse: Byte := 4
  const CommandGreet: Byte := 5
  const CommandHello: Byte := 6
  const CommandShow: Byte := 7
  const CommandReRegister: Byte := 8
  const CommandCustom: Byte := 50

  /** Sub-command of SHOW. */
  const CommandShowEndPoints: Byte := 0

  /** One argument: a `byte[]` that may be null. */
  type Arg = Option<Bytes>

  /** `BinaryPacketEncoder.hasFlag`: Java's `(flags & flag) == flag`. */
  predicate FlagSet(flags: Byte, flag: Byte) {
    And(flags, flag) == flag
  }

  /** `hasFlag(f)` holds exactly when every bit of f is set in the flags. */
  lemma FlagSetBits(flags: Byte, flag: Byte)
    ensures FlagSet(flags, flag) <==> BitsWithin(flag, flags)
  {
    AndBits(flags, flag);
  }

  /** Java's `flag | flags` on two bytes: a byte in which `flag` and every
      flag already in `flags` are set. */
  function WithFlag(flags: Byte, flag: Byte): (r: Byte)
    ensures FlagSet(r, flag) && FlagSet(r, flags)
  {
    OrBelow(flags, flag, 8);
    var r := Or(flags, flag);
    forall k: nat ensures (Bit(flag, k) ==> Bit(r, k)) && (Bit(flags, k) ==> Bit(r, k)) {
      OrBits(flags, flag, k);
    }
    assert BitsWithin(flag, r) && BitsWithin(flags, r);
    AndBits(r, flag);
    AndBits(r, flags);
    r
  }

  /** A packet. Byte fields hold Java's bit patterns; a field the flags do
      not select is carried but not sent. `arguments` is None for a null
      array, and an entry is None for a null element. */
  datatype PacketData = PacketData(
    flags: Byte,
    messageId: Bits32,
    retryCount: Byte,
    partIndex: Byte,
    partCount: Byte,
    command: Byte,
    parentMessageId: Bits32,
    arguments: Option<seq<Arg>>)
  {
    /** `hasFlag(flag)`: every bit of `flag` is set in the flags. */
    function HasFlag(flag: Byte): (b: bool)
      ensures b ==> flag <= flags
      ensures flag == 0 ==> b
    {
      FlagSet(flags, flag)
    }

    /** `getArgumentCount`: 0 for a null array. */
    function ArgumentCount(): (n: nat)
      ensures n == 0 <==> arguments.None? || arguments.value == []
      ensures arguments.Some? ==> n == |arguments.value|
    {
      if arguments.Some? then |arguments.value| else 0
    }

    /** `getArgument(index)`: null when there is no such argument. */
    function Argument(index: nat): (a: Arg)
      ensures index < ArgumentCount() ==> a == arguments.value[index]
      ensures index >= ArgumentCount() ==> a.None?
    {
      if arguments.None? || index >= |arguments.value| then None else arguments.value[index]
    }
  }

  /** `new PacketData(int flags, int messageId, int retryCount, int partIndex,
      int partCount, int command, byte[][] arguments)`: every byte field keeps
      the low 8 bits of the int it is given. */
  function Make(flags: int, messageId: Bits32, retryCount: int, partIndex: int, partCount: int,
                command: int, arguments: Option<seq<Arg>>): (p: PacketData)
    ensures p.flags == flags % 0x100 && p.retryCount == retryCount % 0x100
    ensures p.partIndex == partIndex % 0x100 && p.partCount == partCount % 0x100
    ensures p.command == command % 0x100
    ensures p.messageId == messageId && p.parentMessageId == 0 && p.arguments == arguments
  {
    PacketData(ByteBits(flags), messageId, ByteBits(retryCount), ByteBits(partIndex),
               ByteBits(partCount), ByteBits(command), 0, arguments)
  }

  /** `new PacketData(int flags, int messageId, int command, byte[][] arguments)`. */
  function MakeSimple(flags: Byte, messageId: Bits32, command: Byte, arguments: Option<seq<Arg>>): (p: PacketData)
    ensures p.flags == flags && p.messageId == messageId && p.command == command
    ensures p.retryCount == 0 && p.partIndex == 0 && p.partCount == 0 && p.parentMessageId == 0
    ensures p.arguments == arguments
  {
    PacketData(flags, messageId, 0, 0, 0, command, 0, arguments)
  }

  /** `reRegister`: a guaranteed REREGISTER without arguments. */
  function ReRegister(messageId: Bits32): (p: PacketData)
    ensures p.HasFlag(FlagGuaranteed) && p.flags == FlagGuaranteed && p.command == CommandReRegister
    ensures p.messageId == messageId && p.retryCount == 0 && p.arguments.None?
  {
    MakeSimple(FlagGuaranteed, messageId, CommandReRegister, None)
  }

  /** The five identity arguments of GREET and HELLO. */
  function IdentityArgs(who: Identity): (args: seq<Arg>)
    ensures |args| == 5
  {
    [who.id, who.externalAddress, Some(BE32(who.externalPort)), who.localAddress, Some(BE32(who.localPort))]
  }

  /** `greet`: rejects a null endpoint; otherwise a guaranteed GREET carrying
      the endpoint's identity. */
  function Greet(messageId: Bits32, who: Option<Identity>): (r: Result<PacketData>)
    ensures who.None? <==> r == Throw(IllegalArgument)
    ensures r.Ok? ==> r.value.flags == FlagGuaranteed && r.value.command == CommandGreet
                      && r.value.messageId == messageId
                      && r.value.ArgumentCount() == 5
                      && r.value.Argument(0) == who.value.id
                      && r.value.Argument(1) == who.value.externalAddress
                      && r.value.Argument(2) == Some(BE32(who.value.externalPort))
                      && r.value.Argument(3) == who.value.localAddress
                      && r.value.Argument(4) == Some(BE32(who.value.localPort))
  {
    if who.None? then Throw(IllegalArgument)
    else Ok(MakeSimple(FlagGuaranteed, messageId, CommandGreet, Some(IdentityArgs(who.value))))
  }

  /** `hello`: the packet `greet` builds, with its command changed to HELLO. */
  function Hello(messageId: Bits32, who: Option<Identity>): (r: Result<PacketData>)
    ensures r.Ok? <==> Greet(messageId, who).Ok?
    ensures r.Ok? ==> r.value == Greet(messageId, who).value.(command := CommandHello)
  {
    var g :- Greet(messageId, who);
    Ok(g.(command := CommandHello))
  }

  /** `response`: RESPONSE whose first argument is the one-byte command it
      answers, followed by the given arguments (none for a null array). */
  function Response(flags: Byte, messageId: Bits32, responseCommand: Byte, arguments: Option<seq<Arg>>): (p: PacketData)
    ensures p.flags == flags && p.messageId == messageId && p.command == CommandResponse
    ensures p.arguments.Some? && p.Argument(0) == Some([responseCommand])
    ensures arguments.None? ==> p.arguments.value == [Some([responseCommand])]
    ensures arguments.Some? ==> p.arguments.value[1..] == arguments.value
  {
    var rest := if arguments.Some? then arguments.value else [];
    MakeSimple(flags, messageId, CommandResponse, Some([Some([responseCommand])] + rest))
  }

  /** `show`: a guaranteed SHOW with the sub-command as its only argument. */
  function Show(messageId: Bits32, showCommand: Byte): (p: PacketData)
    ensures p.HasFlag(FlagGuaranteed) && p.flags == FlagGuaranteed && p.command == CommandShow
    ensures p.messageId == messageId && p.retryCount == 0
    ensures p.arguments == Some([Some([showCommand])])
  {
    MakeSimple(FlagGuaranteed, messageId, CommandShow, Some([Some([showCommand])]))
  }

  /** `acknowledge`: flags 0, command ACKNOWLEDGE, and exactly two arguments,
      the acknowledged id and the retry count, each as 4 big-endian bytes. */
  function Acknowledge(messageId: Bits32, acknowledgedMessageId: Bits32, retryCount: Bits32): (p: PacketData)
    ensures p.flags == 0 && p.command == CommandAcknowledge && p.messageId == messageId
    ensures p.ArgumentCount() == 2
    ensures p.Argument(0).Some? && |p.Argument(0).value| == 4 && Load32(p.Argument(0).value) == acknowledgedMessageId
    ensures p.Argument(1).Some? && |p.Argument(1).value| == 4 && Load32(p.Argument(1).value) == retryCount
  {
    Load32BE32(acknowledgedMessageId, []);
    Load32BE32(retryCount, []);
    MakeSimple(0, messageId, CommandAcknowledge,
               Some([Some(BE32(acknowledgedMessageId)), Some(BE32(retryCount))]))
  }

  /** `register`: a guaranteed REGISTER carrying [id, local address, local port]. */
  function Register(messageId: Bits32, id: Arg, localAddress: Arg, localPort: Bits32): (p: PacketData)
    ensures p.HasFlag(FlagGuaranteed) && p.flags == FlagGuaranteed && p.command == CommandRegister
    ensures p.messageId == messageId && p.retryCount == 0
    ensures p.arguments == Some([id, localAddress, Some(BE32(localPort))])
  {
    MakeSimple(FlagGuaranteed, messageId, CommandRegister, Some([id, localAddress, Some(BE32(localPort))]))
  }

  /** `multipart`: MULTIPART is or-ed into the flags and partCount is set;
      retryCount and partIndex are 0. */
  function Multipart(flags: int, messageId: Bits32, partCount: int, command: int, arguments: Option<seq<Arg>>): (p: PacketData)
    ensures p.HasFlag(FlagMultipart) && FlagSet(p.flags, ByteBits(flags)) && p.flags == WithFlag(ByteBits(flags), FlagMultipart)
    ensures p.messageId == messageId && p.partCount == ByteBits(partCount) && p.command == ByteBits(command)
    ensures p.retryCount == 0 && p.partIndex == 0 && p.parentMessageId == 0 && p.arguments == arguments
  {
    Make(flags, messageId, 0, 0, partCount, command, arguments).(flags := WithFlag(ByteBits(flags), FlagMultipart))
  }

  /** `part`: MULTIPART_PART is or-ed into the flags, and the parent id and
      part index are set; command and partCount are 0. */
  function Part(flags: int, messageId: Bits32, parentMessageId: Bits32, partIndex: int, arguments: Option<seq<Arg>>): (p: PacketData)
    ensures p.HasFlag(FlagMultipartPart) && FlagSet(p.flags, ByteBits(flags)) && p.flags == WithFlag(ByteBits(flags), FlagMultipartPart)
    ensures p.messageId == messageId && p.parentMessageId == parentMessageId
    ensures p.partIndex == ByteBits(partIndex) && p.command == 0 && p.partCount == 0 && p.retryCount == 0
    ensures p.arguments == arguments
  {
    Make(flags, messageId, 0, partIndex, 0, 0, arguments)
      .(flags := WithFlag(ByteBits(flags), FlagMultipartPart), parentMessageId := parentMessageId)
  }

  // ---------------------------------------------------------------------
  // sortParts

  /** The first part, in the given order, whose part index is i. */
  function FirstPartAt(parts: seq<PacketData>, i: int): (r: Option<PacketData>)
    ensures r.Some? <==> exists k :: 0 <= k < |parts| && Signed8(parts[k].partIndex) == i
    ensures r.Some? ==> exists k :: 0 <= k < |parts| && parts[k] == r.value && Signed8(parts[k].partIndex) == i
                           && forall j :: 0 <= j < k ==> Signed8(parts[j].partIndex) != i
  {
    if parts == [] then None
    else if Signed8(parts[0].partIndex) == i then Some(parts[0])
    else
      var r := FirstPartAt(parts[1..], i);
      assert forall k :: 1 <= k < |parts| ==> parts[k] == parts[1..][k - 1];
      if r.Some? then
        ghost var k :| 0 <= k < |parts[1..]| && parts[1..][k] == r.value && Signed8(parts[1..][k].partIndex) == i
                       && forall j :: 0 <= j < k ==> Signed8(parts[1..][j].partIndex) != i;
        assert parts[k + 1] == r.value;
        r
      else r
  }

  /** The exception `sortParts` raises for a part whose index does not fit
      an array of length n, if any: the explicit check rejects an index at
      or past the end, and a negative index fails the array access. */
  function IndexFault(part: PacketData, n: nat): Option<Fault> {
    if Signed8(part.partIndex) >= n then Some(IllegalArgument)
    else if Signed8(part.partIndex) < 0 then Some(IndexOutOfBounds)
    else None
  }

  /** `sortParts`: an array of length parts[0].partCount whose slot i holds
      the first part with part index i; slots nobody fills stay null. It
      throws on an empty input, a negative count, and at the first part whose
      index does not fit. */
  method SortParts(parts: seq<PacketData>) returns (r: Result<seq<Option<PacketData>>>)
    ensures parts == [] ==> r == Throw(IndexOutOfBounds)
    ensures parts != [] && Signed8(parts[0].partCount) < 0 ==> r == Throw(NegativeArraySize)
    ensures parts != [] && Signed8(parts[0].partCount) >= 0 ==>
      var n := Signed8(parts[0].partCount);
      && (r.Ok? <==> forall k :: 0 <= k < |parts| ==> IndexFault(parts[k], n).None?)
      && (r.Throw? ==> exists k :: 0 <= k < |parts| && IndexFault(parts[k], n) == Some(r.fault)
                                   && forall j :: 0 <= j < k ==> IndexFault(parts[j], n).None?)
      && (r.Ok? ==> |r.value| == n && forall i :: 0 <= i < n ==> r.value[i] == FirstPartAt(parts, i))
  {
    if parts == [] {
      return Throw(IndexOutOfBounds);
    }
    var n := Signed8(parts[0].partCount);
    if n < 0 {
      return Throw(NegativeArraySize);
    }
    var ret: seq<Option<PacketData>> := seq(n, _ => None);
    var k := 0;
    while k < |parts|
      invariant 0 <= k <= |parts| && |ret| == n
      invariant forall j :: 0 <= j < k ==> IndexFault(parts[j], n).None?
      invariant forall i :: 0 <= i < n ==> ret[i] == FirstPartAt(parts[..k], i)
    {
      var part := parts[k];
      var fault := IndexFault(part, n);
      if fault.Some? {
        return Throw(fault.value);
      }
      var idx := Signed8(part.partIndex);
      assert parts[..k + 1] == parts[..k] + [part];
      FirstPartAtSnoc(parts[..k], part);
      if ret[idx].None? {
        ret := ret[idx := Some(part)];
      }
      k := k + 1;
    }
    assert parts[..k] == parts;
    return Ok(ret);
  }

  lemma {:induction false} FirstPartAtSnoc(parts: seq<PacketData>, part: PacketData)
    ensures forall i ::
              FirstPartAt(parts + [part], i) ==
              (if FirstPartAt(parts, i).Some? then FirstPartAt(parts, i)
               else if Signed8(part.partIndex) == i then Some(part) else None)
  {
    forall i
      ensures FirstPartAt(parts + [part], i) ==
        (if FirstPartAt(parts, i).Some? then FirstPartAt(parts, i)
         else if Signed8(part.partIndex) == i then Some(part) else None)
    {
      if parts != [] {
        assert (parts + [part])[1..] == parts[1..] + [part];
        FirstPartAtSnoc(parts[1..], part);
      }
    }
  }
}

=== FILE: tracking.dfy ===
/** `PacketHandler`: an ordered pool of `HandledPacket` records, used once
    for the packets this node sent and waits to see acknowledged, and once
    for the packets it received and acknowledged. Entries are deleted
    softly (marked) or for real (removed from the list). */
module Tracking {
  import opened Outcomes
  import opened ByteOrder
  import opened Packets
  import opened Endpoints
  import opened Lists

  /** An entry is due for a retry once more than this many milliseconds
      passed since it was last sent. */
  const RetryInterval := 50
  /** `RESEND_LIMIT`. */
  const ResendLimit := 3
  /** `MAX_PACKET_AGE`, in milliseconds. */
  const MaxPacketAge := 10000

  class HandledPacket {
    const endPoint: EndPoint
    var packet: PacketData
    var timeLastSent: int
    var retryCount: Int16
    var markedForRemoval: bool

    /** A new entry: unmarked, never sent (time 0) and never retried. */
    constructor (endPoint: EndPoint, packet: PacketData)
      ensures this.endPoint == endPoint && this.packet == packet
      ensures timeLastSent == 0 && retryCount == 0 && !markedForRemoval
    {
      this.endPoint := endPoint;
      this.packet := packet;
      timeLastSent := 0;
      retryCount := 0;
      markedForRemoval := false;
    }

    /** `is(endPoint, messageId)`: a live entry for that message from a
        matching endpoint. */
    function Is(ep: EndPoint, messageId: Bits32): (b: bool)
      reads this, endPoint, ep
      ensures b ==> !markedForRemoval && packet.messageId == messageId
    {
      !markedForRemoval && packet.messageId == messageId && endPoint.IsEndPoint(ep)
    }

    /** `isPart(endPoint, parentMessageId)`: a live entry whose parent id is
        the given one, from a matching endpoint; the flags are not looked at. */
    function IsPart(ep: EndPoint, parentMessageId: Bits32): (b: bool)
      reads this, endPoint, ep
      ensures b ==> !markedForRemoval && packet.parentMessageId == parentMessageId
    {
      !markedForRemoval && packet.parentMessageId == parentMessageId && endPoint.IsEndPoint(ep)
    }

    /** `shouldRetry(timeNow)`: a live entry last sent more than 50 ms ago. */
    function ShouldRetry(now: int): (b: bool)
      reads this`markedForRemoval, this`timeLastSent
      ensures b ==> !markedForRemoval && timeLastSent < now - RetryInterval
    {
      !markedForRemoval && now - timeLastSent > RetryInterval
    }
  }

  // ---------------------------------------------------------------------
  // Lookups, specified by the first match in list order

  function IndexOfPacket(ps: seq<HandledPacket>, ep: EndPoint, messageId: Bits32): (i: nat)
    reads ps, set h | h in ps :: h.endPoint, ep
    ensures i <= |ps|
    ensures i < |ps| ==> ps[i].Is(ep, messageId)
    ensures forall j :: 0 <= j < i ==> !ps[j].Is(ep, messageId)
  {
    if ps == [] then 0
    else if ps[0].Is(ep, messageId) then 0
    else 1 + IndexOfPacket(ps[1..], ep, messageId)
  }

  lemma {:induction false} IndexOfPacketFirst(ps: seq<HandledPacket>, ep: EndPoint, messageId: Bits32, i: nat)
    requires i <= |ps| && forall j :: 0 <= j < i ==> !ps[j].Is(ep, messageId)
    requires i < |ps| ==> ps[i].Is(ep, messageId)
    ensures IndexOfPacket(ps, ep, messageId) == i
    decreases i
  {
    if i > 0 {
      IndexOfPacketFirst(ps[1..], ep, messageId, i - 1);
    }
  }

  function AtPacket(ps: seq<HandledPacket>, i: nat): HandledPacket? {
    if i < |ps| then ps[i] else null
  }

  /** The argument-less part of `findPacketParts`: each matching entry, in
      list order, is stored at its part index in an array of n slots (a later
      one overwriting an earlier one) and counted; an index outside the array
      fails the store. */
  function Placed(ps: seq<HandledPacket>, ep: EndPoint, parentMessageId: Bits32, n: nat)
    : (r: Result<(seq<Option<PacketData>>, nat)>)
    reads ps, set h | h in ps :: h.endPoint, ep
    ensures r.Ok? ==> |r.value.0| == n
    ensures r.Throw? ==> r.fault == IndexOutOfBounds
    decreases |ps|
  {
    if ps == [] then Ok((seq(n, _ => None), 0))
    else
      var prev :- Placed(ps[..|ps| - 1], ep, parentMessageId, n);
      var h := ps[|ps| - 1];
      if !h.IsPart(ep, parentMessageId) then Ok(prev)
      else
        var index := Signed8(h.packet.partIndex);
        if index < 0 || index >= n then Throw(IndexOutOfBounds)
        else Ok((prev.0[index := Some(h.packet)], prev.1 + 1))
  }

  /** The loop of `findPacketParts`: every live part of the parent, in
      list order, is stored at its index in an array of n slots and
      counted; the first index outside the array throws. */
  method PlaceParts(ps: seq<HandledPacket>, ep: EndPoint, parentMessageId: Bits32, n: nat) returns (r: Result<(seq<Option<PacketData>>, nat)>)
    ensures r == Placed(ps, ep, parentMessageId, n)
  {
    var parts: seq<Option<PacketData>> := seq(n, _ => None);
    var foundCount := 0;
    var k := 0;
    while k < |ps|
      invariant 0 <= k <= |ps|
      invariant Placed(ps[..k], ep, parentMessageId, n) == Ok((parts, foundCount))
    {
      var h := ps[k];
      PlacedSnoc(ps, ep, parentMessageId, n, k);
      if h.IsPart(ep, parentMessageId) {
        var index := Signed8(h.packet.partIndex);
        if index < 0 || index >= n {
          PlacedThrows(ps, ep, parentMessageId, n, k + 1);
          return Throw(IndexOutOfBounds);
        }
        parts := parts[index := Some(h.packet)];
        foundCount := foundCount + 1;
      }
      k := k + 1;
    }
    assert ps[..k] == ps;
    return Ok((parts, foundCount));
  }

  /** One more entry moves the placement on by that entry. */
  lemma PlacedSnoc(ps: seq<HandledPacket>, ep: EndPoint, parentMessageId: Bits32, n: nat, k: nat)
    requires k < |ps| && Placed(ps[..k], ep, parentMessageId, n).Ok?
    ensures !ps[k].IsPart(ep, parentMessageId) ==>
      Placed(ps[..k + 1], ep, parentMessageId, n) == Placed(ps[..k], ep, parentMessageId, n)
    ensures ps[k].IsPart(ep, parentMessageId) && 0 <= Signed8(ps[k].packet.partIndex) < n ==>
      var prev := Placed(ps[..k], ep, parentMessageId, n).value;
      Placed(ps[..k + 1], ep, parentMessageId, n)
      == Ok((prev.0[Signed8(ps[k].packet.partIndex) := Some(ps[k].packet)], prev.1 + 1))
  {
    assert ps[..k + 1][..k] == ps[..k];
  }

  /** The number of entries that are parts of the given parent. */
  function CountParts(ps: seq<HandledPacket>, ep: EndPoint, parentMessageId: Bits32): (c: nat)
    reads ps, set h | h in ps :: h.endPoint, ep
    ensures c <= |ps|
    decreases |ps|
  {
    if ps == [] then 0
    else CountParts(ps[..|ps| - 1], ep, parentMessageId) + (if ps[|ps| - 1].IsPart(ep, parentMessageId) then 1 else 0)
  }

  /** What `findPacketParts` places: the count is the number of matching
      entries, every slot filled holds one of them, and a slot is filled
      exactly when some matching entry carries its index. */
  lemma {:induction false} PlacedParts(ps: seq<HandledPacket>, ep: EndPoint, parentMessageId: Bits32, n: nat)
    requires Placed(ps, ep, parentMessageId, n).Ok?
    ensures var (slots, found) := Placed(ps, ep, parentMessageId, n).value;
      && found == CountParts(ps, ep, parentMessageId)
      && (forall i :: 0 <= i < n && slots[i].Some? ==>
            exists k :: 0 <= k < |ps| && ps[k].IsPart(ep, parentMessageId) && slots[i] == Some(ps[k].packet))
      && (forall k :: 0 <= k < |ps| && ps[k].IsPart(ep, parentMessageId) ==>
            0 <= Signed8(ps[k].packet.partIndex) < n && slots[Signed8(ps[k].packet.partIndex)].Some?)
    decreases |ps|
  {
    if ps != [] {
      var init := ps[..|ps| - 1];
      PlacedParts(init, ep, parentMessageId, n);
      forall k | 0 <= k < |init| ensures init[k] == ps[k] { }
    }
  }

  /** Which sweep over the pool is meant. */
  datatype Sweep = Eviction | Resend

  /** Whether a sweep deletes the entry. `removeOldPackets` deletes marked
      entries and due entries that are not guaranteed or are too old;
      `getPacketsToResend` deletes due entries that have used up their
      retries, and due non-guaranteed entries that have been sent. */
  predicate Drops(h: HandledPacket, now: int, sweep: Sweep)
    reads h`packet, h`timeLastSent, h`retryCount, h`markedForRemoval
  {
    match sweep
    case Eviction =>
      h.markedForRemoval
      || (h.ShouldRetry(now) && (!h.packet.HasFlag(FlagGuaranteed) || now - h.timeLastSent > MaxPacketAge))
    case Resend =>
      h.ShouldRetry(now)
      && (h.retryCount >= ResendLimit || (!h.packet.HasFlag(FlagGuaranteed) && h.retryCount >= 0))
  }

  /** The entries a sweep deletes, in list order (its `toRemove` list). */
  function Dropped(ps: seq<HandledPacket>, now: int, sweep: Sweep): (d: seq<HandledPacket>)
    reads ps`packet, ps`timeLastSent, ps`retryCount, ps`markedForRemoval
    ensures |d| <= |ps|
    decreases |ps|
  {
    if ps == [] then []
    else Dropped(ps[..|ps| - 1], now, sweep) + (if Drops(ps[|ps| - 1], now, sweep) then [ps[|ps| - 1]] else [])
  }

  /** The entries a sweep keeps, in list order. */
  function Kept(ps: seq<HandledPacket>, now: int, sweep: Sweep): (k: seq<HandledPacket>)
    reads ps`packet, ps`timeLastSent, ps`retryCount, ps`markedForRemoval
    ensures |k| <= |ps|
    decreases |ps|
  {
    if ps == [] then []
    else Kept(ps[..|ps| - 1], now, sweep) + (if Drops(ps[|ps| - 1], now, sweep) then [] else [ps[|ps| - 1]])
  }

  /** The entries `getPacketsToResend` returns, in list order: due and not deleted. */
  function Resent(ps: seq<HandledPacket>, now: int): (s: seq<HandledPacket>)
    reads ps`packet, ps`timeLastSent, ps`retryCount, ps`markedForRemoval
    ensures |s| <= |ps|
    decreases |ps|
  {
    if ps == [] then []
    else
      var h := ps[|ps| - 1];
      Resent(ps[..|ps| - 1], now) + (if h.ShouldRetry(now) && !Drops(h, now, Resend) then [h] else [])
  }

  /** The entries a sweep keeps are distinct when the pool's are. */
  lemma {:induction false} KeptDistinct(ps: seq<HandledPacket>, now: int, sweep: Sweep)
    requires Distinct(ps)
    ensures Distinct(Kept(ps, now, sweep))
    decreases |ps|
  {
    if ps != [] {
      var init := ps[..|ps| - 1];
      assert Distinct(init) by {
        forall i, j | 0 <= i < j < |init| ensures init[i] != init[j] {
          assert init[i] == ps[i] && init[j] == ps[j];
        }
      }
      KeptDistinct(init, now, sweep);
      KeptMembers(init, now, sweep);
      assert ps[|ps| - 1] !in init;
    }
  }

  /** The entries `getPacketsToResend` returns are distinct when the pool's are. */
  lemma {:induction false} ResentDistinct(ps: seq<HandledPacket>, now: int)
    requires Distinct(ps)
    ensures Distinct(Resent(ps, now))
    decreases |ps|
  {
    if ps != [] {
      var init := ps[..|ps| - 1];
      assert Distinct(init) by {
        forall i, j | 0 <= i < j < |init| ensures init[i] != init[j] {
          assert init[i] == ps[i] && init[j] == ps[j];
        }
      }
      ResentDistinct(init, now);
      ResentMembers(init, now);
      assert ps[|ps| - 1] !in init;
    }
  }

  lemma DroppedSnoc(ps: seq<HandledPacket>, h: HandledPacket, now: int, sweep: Sweep)
    ensures Dropped(ps + [h], now, sweep) == Dropped(ps, now, sweep) + if Drops(h, now, sweep) then [h] else []
  {
    assert (ps + [h])[..|ps|] == ps;
  }

  lemma ResentSnoc(ps: seq<HandledPacket>, h: HandledPacket, now: int)
    ensures Resent(ps + [h], now) == Resent(ps, now) + if h.ShouldRetry(now) && !Drops(h, now, Resend) then [h] else []
  {
    assert (ps + [h])[..|ps|] == ps;
  }

  /** The `toRemove` list holds exactly the entries the sweep deletes. */
  lemma {:induction false} DroppedMembers(ps: seq<HandledPacket>, now: int, sweep: Sweep)
    ensures forall h :: h in Dropped(ps, now, sweep) <==> h in ps && Drops(h, now, sweep)
    decreases |ps|
  {
    if ps != [] {
      DroppedMembers(ps[..|ps| - 1], now, sweep);
      assert ps == ps[..|ps| - 1] + [ps[|ps| - 1]];
    }
  }

  /** A sweep keeps exactly the entries it does not delete. */
  lemma {:induction false} KeptMembers(ps: seq<HandledPacket>, now: int, sweep: Sweep)
    ensures forall h :: h in Kept(ps, now, sweep) <==> h in ps && !Drops(h, now, sweep)
    decreases |ps|
  {
    if ps != [] {
      KeptMembers(ps[..|ps| - 1], now, sweep);
      assert ps == ps[..|ps| - 1] + [ps[|ps| - 1]];
    }
  }

  /** `getPacketsToResend` returns exactly the due entries it does not
      delete, and entries that are not due are never deleted by it. */
  lemma {:induction false} ResentMembers(ps: seq<HandledPacket>, now: int)
    ensures forall h :: h in Resent(ps, now) <==> h in ps && h.ShouldRetry(now) && !Drops(h, now, Resend)
    ensures forall h :: h in ps && !h.ShouldRetry(now) ==> !Drops(h, now, Resend)
    decreases |ps|
  {
    if ps != [] {
      ResentMembers(ps[..|ps| - 1], now);
      assert ps == ps[..|ps| - 1] + [ps[|ps| - 1]];
    }
  }

  /** Every entry `getPacketsToResend` returns comes from the pool. */
  lemma ResentWithin(ps: seq<HandledPacket>, now: int)
    ensures forall i :: 0 <= i < |Resent(ps, now)| ==> Resent(ps, now)[i] in ps
  {
    ResentMembers(ps, now);
  }

  /** `removeAll(toRemove)` keeps the rest, in order. */
  lemma RemoveAllDropped(ps: seq<HandledPacket>, now: int, sweep: Sweep)
    ensures RemoveAll(ps, Dropped(ps, now, sweep)) == Kept(ps, now, sweep)
  {
    DroppedMembers(ps, now, sweep);
    RemoveAllKept(ps, Dropped(ps, now, sweep), now, sweep);
  }

  lemma {:induction false} RemoveAllKept(ps: seq<HandledPacket>, c: seq<HandledPacket>, now: int, sweep: Sweep)
    requires forall h :: h in ps ==> (h in c <==> Drops(h, now, sweep))
    ensures RemoveAll(ps, c) == Kept(ps, now, sweep)
    decreases |ps|
  {
    if ps != [] {
      var init := ps[..|ps| - 1];
      var h := ps[|ps| - 1];
      assert ps == init + [h];
      RemoveAllAppend(init, [h], c);
      RemoveAllKept(init, c, now, sweep);
      assert RemoveAll([h], c) == (if h in c then [] else [h]);
    }
  }

  class PacketHandler {
    var packets: seq<HandledPacket>

    constructor ()
      ensures packets == []
    {
      packets := [];
    }

    /** `findPacket`: the first live entry for that message from a matching
        endpoint, or null. */
    method FindPacket(ep: EndPoint, messageId: Bits32) returns (r: HandledPacket?)
      ensures r == AtPacket(packets, IndexOfPacket(packets, ep, messageId))
    {
      var i := 0;
      while i < |packets|
        invariant 0 <= i <= |packets|
        invariant forall j :: 0 <= j < i ==> !packets[j].Is(ep, messageId)
      {
        if packets[i].Is(ep, messageId) {
          IndexOfPacketFirst(packets, ep, messageId, i);
          return packets[i];
        }
        i := i + 1;
      }
      IndexOfPacketFirst(packets, ep, messageId, i);
      return null;
    }

    /** `findPacketParts`: with no live parent entry the parent dereference
        fails; otherwise the parts are placed in an array of the parent's
        partCount slots, which is returned when as many parts were found as
        there are slots, and null otherwise. */
    method FindPacketParts(ep: EndPoint, parentMessageId: Bits32) returns (r: Result<Option<seq<Option<PacketData>>>>)
      ensures var i := IndexOfPacket(packets, ep, parentMessageId);
        && (i == |packets| ==> r == Throw(NullPointer))
        && (i < |packets| && Signed8(packets[i].packet.partCount) < 0 ==> r == Throw(NegativeArraySize))
        && (i < |packets| && Signed8(packets[i].packet.partCount) >= 0 ==>
              var placed := Placed(packets, ep, parentMessageId, Signed8(packets[i].packet.partCount));
              && (placed.Throw? ==> r == Throw(placed.fault))
              && (placed.Ok? ==> r == Ok(if placed.value.1 == |placed.value.0| then Some(placed.value.0) else None)))
    {
      var parent := FindPacket(ep, parentMessageId);
      if parent == null {
        return Throw(NullPointer);
      }
      var n := Signed8(parent.packet.partCount);
      if n < 0 {
        return Throw(NegativeArraySize);
      }
      var placed :- PlaceParts(packets, ep, parentMessageId, n);
      var (parts, foundCount) := placed;
      if foundCount == |parts| {
        return Ok(Some(parts));
      }
      return Ok(None);
    }

    /** `removePacket(endPoint, messageId)`: the first live entry for that
        message from a matching endpoint is deleted; the others stay, in order. */
    method RemovePacket(ep: EndPoint, messageId: Bits32)
      modifies this`packets
      ensures var i := IndexOfPacket(old(packets), ep, messageId);
        packets == if i < |old(packets)| then old(packets[..i] + packets[i + 1..]) else old(packets)
    {
      var found := FindPacket(ep, messageId);
      if found != null {
        FirstMatchRemoved(packets, ep, messageId);
        packets := RemoveFirst<HandledPacket>(packets, found);
      }
    }

    /** `removePacketParts`: every live part of that parent from a matching
        endpoint is marked; nothing is deleted and nothing else changes. */
    method RemovePacketParts(ep: EndPoint, parentMessageId: Bits32)
      modifies set h | h in packets
      ensures packets == old(packets)
      ensures forall h :: h in packets ==>
        && h.markedForRemoval == (old(h.markedForRemoval) || old(h.IsPart(ep, parentMessageId)))
        && h.packet == old(h.packet) && h.timeLastSent == old(h.timeLastSent) && h.retryCount == old(h.retryCount)
    {
      var k := 0;
      while k < |packets|
        invariant 0 <= k <= |packets|
        invariant forall h :: h in packets ==>
          && h.markedForRemoval == (old(h.markedForRemoval) || (h in packets[..k] && old(h.IsPart(ep, parentMessageId))))
          && h.packet == old(h.packet) && h.timeLastSent == old(h.timeLastSent) && h.retryCount == old(h.retryCount)
      {
        var h := packets[k];
        assert forall g :: g in packets[..k + 1] <==> g in packets[..k] || g == h;
        if h.IsPart(ep, parentMessageId) {
          h.markedForRemoval := true;
        }
        k := k + 1;
      }
      assert packets[..k] == packets;
    }

    /** `addPacket`: exactly one entry is appended. */
    method AddPacket(h: HandledPacket)
      modifies this`packets
      ensures packets == old(packets) + [h]
    {
      packets := packets + [h];
    }

    /** `removePacket(HandledPacket)`: the entry is only marked. */
    method MarkForRemoval(h: HandledPacket)
      modifies h
      ensures h.markedForRemoval && h.packet == old(h.packet)
      ensures h.timeLastSent == old(h.timeLastSent) && h.retryCount == old(h.retryCount)
    {
      h.markedForRemoval := true;
    }

    /** `removeOldPackets`: the entries the eviction sweep drops are deleted
        and the others stay, in order. */
    method RemoveOldPackets(now: int)
      modifies this`packets
      ensures packets == Kept(old(packets), now, Eviction)
    {
      var ps := packets;
      var toRemove: seq<HandledPacket> := [];
      var k := 0;
      while k < |ps|
        modifies {}
        invariant 0 <= k <= |ps|
        invariant toRemove == Dropped(ps[..k], now, Eviction)
      {
        var h := ps[k];
        assert ps[..k + 1] == ps[..k] + [h];
        DroppedSnoc(ps[..k], h, now, Eviction);
        if h.markedForRemoval {
          toRemove := toRemove + [h];
        } else if h.ShouldRetry(now) {
          if !h.packet.HasFlag(FlagGuaranteed) || now - h.timeLastSent > MaxPacketAge {
            toRemove := toRemove + [h];
          }
        }
        k := k + 1;
      }
      assert ps[..k] == ps;
      RemoveAllDropped(ps, now, Eviction);
      packets := RemoveAll(ps, toRemove);
    }

    /** `getPacketsToResend`: among the due entries, those that used up
        their retries (or are not guaranteed and were sent) are deleted and
        the rest are returned, in list order; entries that are not due stay. */
    method GetPacketsToResend(now: int) returns (ret: seq<HandledPacket>)
      modifies this`packets
      ensures ret == Resent(old(packets), now)
      ensures packets == Kept(old(packets), now, Resend)
    {
      var ps := packets;
      ret := [];
      var toRemove: seq<HandledPacket> := [];
      var k := 0;
      while k < |ps|
        modifies {}
        invariant 0 <= k <= |ps|
        invariant toRemove == Dropped(ps[..k], now, Resend)
        invariant ret == Resent(ps[..k], now)
      {
        var h := ps[k];
        assert ps[..k + 1] == ps[..k] + [h];
        DroppedSnoc(ps[..k], h, now, Resend);
        ResentSnoc(ps[..k], h, now);
        if h.ShouldRetry(now) {
          if h.retryCount >= ResendLimit || (!h.packet.HasFlag(FlagGuaranteed) && h.retryCount >= 0) {
            toRemove := toRemove + [h];
          } else {
            ret := ret + [h];
          }
        }
        k := k + 1;
      }
      assert ps[..k] == ps;
      RemoveAllDropped(ps, now, Resend);
      packets := RemoveAll(ps, toRemove);
    }
  }

  /** Removing the object found by the search removes the entry it was found at. */
  lemma FirstMatchRemoved(ps: seq<HandledPacket>, ep: EndPoint, messageId: Bits32)
    requires IndexOfPacket(ps, ep, messageId) < |ps|
    ensures var i := IndexOfPacket(ps, ep, messageId);
      RemoveFirst(ps, ps[i]) == ps[..i] + ps[i + 1..]
  {
    var i := IndexOfPacket(ps, ep, messageId);
    forall j | 0 <= j < i ensures ps[j] != ps[i] {
      assert !ps[j].Is(ep, messageId);
    }
    RemoveFirstAt(ps, ps[i], i);
  }

  /** A part whose index falls outside the slots makes the placement fail
      from then on. */
  lemma {:induction false} PlacedThrows(ps: seq<HandledPacket>, ep: EndPoint, parentMessageId: Bits32, n: nat, k: nat)
    requires 0 < k <= |ps| && Placed(ps[..k - 1], ep, parentMessageId, n).Ok?
    requires ps[k - 1].IsPart(ep, parentMessageId)
    requires var index := Signed8(ps[k - 1].packet.partIndex); index < 0 || index >= n
    ensures Placed(ps, ep, parentMessageId, n) == Throw(IndexOutOfBounds)
    decreases |ps| - k
  {
    assert ps[..k][..k - 1] == ps[..k - 1];
    if k < |ps| {
      PlacedThrowsFrom(ps, ep, parentMessageId, n, k);
    } else {
      assert ps[..k] == ps;
    }
  }

  lemma {:induction false} PlacedThrowsFrom(ps: seq<HandledPacket>, ep: EndPoint, parentMessageId: Bits32, n: nat, k: nat)
    requires 0 < k <= |ps| && Placed(ps[..k], ep, parentMessageId, n) == Throw(IndexOutOfBounds)
    ensures Placed(ps, ep, parentMessageId, n) == Throw(IndexOutOfBounds)
    decreases |ps| - k
  {
    if k == |ps| {
      assert ps[..k] == ps;
    } else {
      assert ps[..k + 1][..k] == ps[..k];
      PlacedThrowsFrom(ps, ep, parentMessageId, n, k + 1);
    }
  }
}

=== FILE: transport.dfy ===
/** The network layer a node talks through. The UDP socket is replaced by
    two queues: the datagrams sent so far (the outbox) and the datagrams
    waiting to be received (the inbox). */
module Transport {
  import opened Outcomes
  import opened ByteOrder
  import opened Addressing

  /** A datagram handed to the socket: destination (null when the endpoint
      has no address for the chosen pair), port and payload. */
  datatype Datagram = Datagram(address: Option<Address>, port: Bits32, data: Bytes)

  /** A datagram waiting to be received, with its source. */
  datatype Incoming = Incoming(source: SocketAddress, data: Bytes)

  class NetworkLayer {
    /** `getLocalAddress()` and `getLocalPort()`. */
    const localAddress: Address
    const localPort: Bits32
    var outbox: seq<Datagram>
    var inbox: seq<Incoming>

    constructor (localAddress: Address, localPort: Bits32, inbox: seq<Incoming>)
      ensures this.localAddress == localAddress && this.localPort == localPort
      ensures outbox == [] && this.inbox == inbox
    {
      this.localAddress := localAddress;
      this.localPort := localPort;
      outbox := [];
      this.inbox := inbox;
    }

    /** `send(address, port, data)`: the datagram is queued and its length returned. */
    method Send(address: Option<Address>, port: Bits32, data: Bytes) returns (n: nat)
      modifies this`outbox
      ensures outbox == old(outbox) + [Datagram(address, port, data)]
      ensures n == |data|
    {
      outbox := outbox + [Datagram(address, port, data)];
      n := |data|;
    }

    /** `receive(address, buffer, bufferLength)`: with nothing waiting it
        returns 0; otherwise it takes the oldest datagram, keeps at most
        bufferLength bytes of it and returns their number with the source. */
    method Receive(bufferLength: nat) returns (n: nat, source: Option<SocketAddress>, payload: Bytes)
      modifies this`inbox
      ensures old(inbox) == [] ==> n == 0 && source.None? && inbox == []
      ensures old(inbox) != [] ==>
        && inbox == old(inbox[1..]) && source == Some(old(inbox[0].source))
        && n == (if |old(inbox[0].data)| < bufferLength then |old(inbox[0].data)| else bufferLength)
        && payload == old(inbox[0].data)[..n]
      ensures |payload| == n <= bufferLength
    {
      if inbox == [] {
        return 0, None, [];
      }
      var d := inbox[0];
      inbox := inbox[1..];
      n := if |d.data| < bufferLength then |d.data| else bufferLength;
      source := Some(d.source);
      payload := d.data[..n];
    }
  }
}
